=== FILE: README.md ===
# Metatron non-offensive scheduler and local-safety check, in Dafny

This project models two decision components of the Metatron EVE bot.

- **The per-pulse module scheduler of the `NonOffensive` action module.** Each
  pulse it reads a snapshot of the ship, its modules, the live entities and
  the target queue, and decides which module commands to issue:
  - when to stop because the ship is docked or warping;
  - when to abandon a queued mining target that is out of reach;
  - when to open and loot a container;
  - how to spread mining lasers over the queued asteroids;
  - when to short-cycle the lasers;
  - where mining drones go;
  - how tractor beams and salvagers are put on wrecks.
- **The local-safety predicate of `Social`.** It decides whether every other
  pilot in the solar system is acceptable, using white- and blacklists and
  standing thresholds. It reports the offending pilot's name when one is not.

Both are modelled as pure functions, or methods with loops, over immutable
records. Side effects become a returned list of abstract `Command`s: click
on, click off, change ammo, change active target, dequeue, unlock, open,
loot all, and the drone commands. The bot keeps three values that change
during a pulse. They are threaded through the pass as a `Tick` record:
- the capacitor still available after this pulse's reservations;
- the next short-cycle instant;
- whether the active target was changed this frame.

**Target changes are requests.** A change of active target (`ChangeTargetTo`)
is modelled as a recorded `ChangeTarget` command that sets the changed flag.
The active target id read at the start of the pulse stays the active target
for the rest of the pulse. After a change the laser loop no longer trusts
the active target (NonOffensive.cs:688-693), and it moves to the next laser
right after requesting a change (NonOffensive.cs:710). So no module is ever
activated on a target the same pulse selected. `CanChangeTarget` is the
targeting service's gate and lies outside this code. It is modelled as an
input flag that is also closed once a change was made this frame (`World.CanChangeTarget`).

**Other modelling choices.**
- Time, randomness and the crystal choice are inputs.
- An exception the source would throw becomes an explicit fault outcome that
  ends the pulse. Examples: indexing a dictionary with a missing id,
  `Min` over an empty sequence, `Dictionary.Add` with a duplicate key.
- Capacitor, distances, ranges, costs, instants and standings are `real`.
  Ids, priorities and the configured minimums are `int`.

Modules, one per file:

| module | file | what |
|---|---|---|
| `Base` | base.dfy | `Option` |
| `Ordering` | ordering.dfy | stable sort on lexicographic real keys (LINQ `OrderBy`/`ThenBy`) |
| `World` | world.dfy | snapshot records, commands, the tick state, `NeedsLooting` |
| `TargetLists` | targets.dfy | `GetMiningTargets`, `GetSalvageTargets`, `GetSortedTractorTargets` |
| `LaserDistribution` | distribution.dfy | `DetermineModuleCountsForTargets`, `GetBestTargetForMiningLaser` |
| `CapacitorGate` | capacitor.dfy | `CalculateMinimumCapacitor`, `CanSafelyActivateMiningLaser` |
| `ShortCycle` | shortcycle.dfy | `ShortCycleLasers`, `UpdateNextShortCycleDeactivation`, `GenerateFudgeFactor` |
| `MiningLasers` | lasers.dfy | `UseMiningLasers`, `GetLowestMaximumLaserRange` |
| `MiningDrones` | drones.dfy | `UseMiningDrones` |
| `TractorPhase` | tractors.dfy | phase 3 of `ManageIdleSalvageModules` |
| `SalvagerPhase` | salvagers.dfy | phase 4 of `ManageIdleSalvageModules` |
| `SalvageManagement` | salvage.dfy | `ManageIdleSalvageModules`, `TractorTarget`, `ChangeSalvageTarget` |
| `Pulse` | pulse.dfy | `Pulse`, `MineTargets` |
| `LocalSafety` | social.dfy | `DetermineIfLocalIsSafe`, `CheckStandings`, `CheckIndividualStandings`, `CheckCorpsAlliancesStanding` |

## Model

| member | source | states |
|---|---|---|
| Ordering.OrderBy | Metatron/ActionModules/NonOffensive.cs:1067-1074 | the LINQ sort keeps every item exactly once, tagged with its input position; the result is sorted by key, and items with equal keys keep their input order (stability) |
| Ordering.SortSorted | Metatron/ActionModules/NonOffensive.cs:1067-1074 | insertion sort by key yields a sequence ordered by the lexicographic key |
| Ordering.SortStable | Metatron/ActionModules/NonOffensive.cs:1067-1074 | on input tagged in order, insertion sort keeps equal keys in their original order |
| Ordering.LexTransitive | Metatron/ActionModules/NonOffensive.cs:1067-1074 | the composite `OrderBy`/`ThenBy` comparison is transitive |
| Ordering.LexTotal | Metatron/ActionModules/NonOffensive.cs:1067-1074 | the composite comparison relates any two keys |
| Ordering.OrderByPermutes | Metatron/ActionModules/NonOffensive.cs:1067-1074 | the sorted items are a permutation of the input: every item occurs as often as in the input |
| TargetLists.JoinQueue | Metatron/ActionModules/NonOffensive.cs:1067-1071 | the inner join pairs exactly the queue entries with the live entities of the same id |
| TargetLists.QueueKeyOrder | Metatron/ActionModules/NonOffensive.cs:1072-1074 | the key order is priority ascending, then sub-priority descending, then distance ascending; equal keys are exactly the full ties |
| TargetLists.SortedTargetRows | Metatron/ActionModules/NonOffensive.cs:1062-1077 | the sorted rows are exactly the joined (entry, entity) pairs of the requested type, ordered by priority ↑, sub-priority ↓, distance ↑, with ties in queue order |
| TargetLists.GetTargets | Metatron/ActionModules/NonOffensive.cs:1062-1077 | an entity is listed iff it is live and some queue entry of the requested type has its id; queue entries with no live entity are dropped |
| TargetLists.TargetsAreRowEntities | Metatron/ActionModules/NonOffensive.cs:582-601 | the target list is the entity column of the sorted rows, position by position (used for both mining and salvage lists) |
| TargetLists.GetSortedTractorTargets | Metatron/ActionModules/NonOffensive.cs:1161-1212 | the tractor list is exactly the locked entities that have a queue entry of any type |
| TargetLists.TractorHeadIsBest | Metatron/ActionModules/NonOffensive.cs:1166-1212 | the head of the tractor list is minimal under modules on it ↑, priority ↑, sub-priority ↓, attacking ↓, time queued ↑ |
| TargetLists.TractorHeadIsFirstBest | Metatron/ActionModules/NonOffensive.cs:1166-1212 | ties go to join order: the head of the tractor list comes from the first join row whose key is least, so every earlier join row has a different key |
| TargetLists.OrderByDistance | Metatron/ActionModules/NonOffensive.cs:235-236 | ordering by distance is a permutation of the input (same multiset) that puts the closest first |
| TargetLists.OrderByDistanceStable | Metatron/ActionModules/NonOffensive.cs:235-236 | each output position names a distinct input position holding that entity, and entities at equal distance keep their input order, so `First()` is the first of the closest in list order |
| TargetLists.Where | Metatron/ActionModules/NonOffensive.cs:229-234 | filtering keeps exactly the members that satisfy the predicate |
| TargetLists.WhereKeepsOrder | Metatron/ActionModules/NonOffensive.cs:229-234 | filtering keeps the input order: any two kept members occur in the input in the same order |
| World.NeedsLooting | Metatron/ActionModules/NonOffensive.cs:148-177 | cargo containers always need looting, wrecks iff not empty, anything else never |
| World.Lookup | Metatron/ActionModules/NonOffensive.cs:98 | lookup by id finds a live entity with that id, and fails iff no live entity has it |
| World.ChangesAppend | Metatron/ActionModules/NonOffensive.cs:688-710 | the target-change requests of two command lists run one after the other are those of the first followed by those of the second |
| LaserDistribution.DetermineModuleCounts | Metatron/ActionModules/NonOffensive.cs:770-794 | for N lasers and M chosen targets, target k gets intended count ceil(N/(M−k)); its active count is the number of active lasers on it |
| LaserDistribution.IntendedNonDecreasing | Metatron/ActionModules/NonOffensive.cs:778-789 | the intended counts never decrease along the chosen targets |
| LaserDistribution.IntendedEndsAtLaserCount | Metatron/ActionModules/NonOffensive.cs:778-789 | the last chosen target's intended count is the full laser count |
| LaserDistribution.FourLasersThreeTargets | Metatron/ActionModules/NonOffensive.cs:784-785 | 4 lasers over 3 targets give intended counts 2, 2, 4 |
| LaserDistribution.CeilDiv | Metatron/ActionModules/NonOffensive.cs:785 | the ceiling quotient is the least q with d·q ≥ n |
| LaserDistribution.GreedyPick | Metatron/ActionModules/NonOffensive.cs:741-768 | the pick is the first target with intended > active, whose active count goes up by exactly 1 with every other count unchanged; with no such target nothing is picked and nothing changes |
| LaserDistribution.PickStaysWithinIntended | Metatron/ActionModules/NonOffensive.cs:748-760 | if no active count exceeds its intended count before a pick, none does after it |
| CapacitorGate.MinimumCapacitor | Metatron/ActionModules/NonOffensive.cs:826-849 | the floor is maxCap·(MinimumCapPct+5)/100 plus the costs of active hardeners and shield boosters |
| CapacitorGate.UnknownCostIsFree | Metatron/ActionModules/NonOffensive.cs:836-844 | a module with no known activation cost adds nothing to the floor |
| CapacitorGate.HardenerRaisesFloor | Metatron/ActionModules/NonOffensive.cs:836-844 | another active hardener raises the floor by exactly its known cost |
| CapacitorGate.CanSafelyActivate | Metatron/ActionModules/NonOffensive.cs:796-824 | a known cost passes iff capacitor > floor + cost, strictly; only a pass deducts, and it deducts exactly the cost; an unknown cost passes with no deduction; the reserve never drops to the floor or below |
| ShortCycle.FudgeFactor | Metatron/ActionModules/NonOffensive.cs:851-872 | the "may be negative" fudge lies in [−14, 0] and the positive one in [0, 14] |
| ShortCycle.ShortCycleLasers | Metatron/ActionModules/NonOffensive.cs:874-902 | lasers are cut, the timer cleared and true returned iff the timer is set, now ≥ timer and shipCap − Σ laser costs ≥ floor; otherwise nothing changes |
| ShortCycle.ShortCycleConsumesTimer | Metatron/ActionModules/NonOffensive.cs:874-902 | a second short-cycle check right after one that fired does nothing |
| ShortCycle.NextShortCycle | Metatron/ActionModules/NonOffensive.cs:904-942 | the next instant is now + activationTime/2 + f (ice) or now + activationTime/3 + f (ore) for the first laser with a known activation time; with none the timer is unchanged |
| MiningLasers.LowestMaximumLaserRange | Metatron/ActionModules/NonOffensive.cs:986-1002 | the lowest known optimal range is one of the lasers' ranges and no larger than any; there is none iff no laser has a known range |
| MiningLasers.ChosenTargets | Metatron/ActionModules/NonOffensive.cs:617-623 | the chosen targets are the first min(n, number in range) queued mining targets within the lowest laser range, in queue order, where n is the laser count when distributing and 1 otherwise |
| MiningLasers.ChosenWhenInRange | Metatron/ActionModules/NonOffensive.cs:617-623 | with at least one laser, some target is chosen iff some queued mining target lies within range |
| MiningLasers.IntendedSumPositive | Metatron/ActionModules/NonOffensive.cs:650-653 | with at least one laser and one chosen target the intended counts sum to more than 0, so the `Sum() == 0` exit never fires |
| MiningLasers.ScanLasers | Metatron/ActionModules/NonOffensive.cs:659-717 | the decision loop stops at the first laser with a crystal swap due, or after the last laser; a laser is queued iff it is idle, its pick is the active target, no swap is due, no change was made and the gate passes; the capacitor left is the start value minus the costs reserved by every laser that passed the gate; with the loop invariants for deactivations and target changes |
| MiningLasers.StateAtQueue | Metatron/ActionModules/NonOffensive.cs:659-717 | after n lasers, laser j is queued iff j < n and laser j queued when the loop reached it |
| MiningLasers.StateAtCapacitor | Metatron/ActionModules/NonOffensive.cs:659-717 | after n lasers, the capacitor is the start value minus the costs reserved by the lasers that passed the gate among the first n |
| MiningLasers.FirePass | Metatron/ActionModules/NonOffensive.cs:719-731 | the pass issues the decision loop's commands, then exactly one activation on the active target per queued laser, in queue order; it re-arms the short-cycle timer only if one fired with short cycling on, and leaves the capacitor and change flag as the loop left them |
| MiningLasers.UseMiningLasers | Metatron/ActionModules/NonOffensive.cs:603-732 | each outcome holds exactly under the source's condition, in source order: no known laser range is a fault, a zero range stops, no target in range stops, a firing short cycle stops, a duplicate target id is a fault; otherwise the loop runs, and it ends in a crystal swap on the first laser that needs one, or fires exactly the lasers the loop queued, with the capacitor reduced by the cost of every laser that passed the capacitor check, queued or not (a laser that passes the check but whose pick is not the active target goes to the change branch and is never queued); an active, not-deactivating laser the loop reached is clicked off iff its target is absent from all queued mining targets; at most one target change, only with no laser queued, to a locked target, through the gate; early exits issue nothing |
| MiningLasers.DecideAndFire | Metatron/ActionModules/NonOffensive.cs:647-731 | once the guards pass: the swap-or-fire outcome, with the fired lasers exactly the queued ones and the capacitor reduced by the cost of every laser that passed the capacitor check, queued or not |
| MiningDrones.UseMiningDrones | Metatron/ActionModules/NonOffensive.cs:1004-1060 | each of the eight outcomes holds exactly under the source's condition for it, in its order: disabled, no target within 95% of control range, launch, none in space, already engaged, cannot change, change requested (locking, through the gate), sent; at most one command, and the changed flag is set iff a change was requested |
| MiningDrones.DronesFollowFirstTargetInRange | Metatron/ActionModules/NonOffensive.cs:1029-1055 | drones are only ever sent to, or asked to retarget to, the first mining target within 95% of drone control range |
| TractorPhase.TractorCandidates | Metatron/ActionModules/NonOffensive.cs:229-236 | the candidates are exactly the locked, untractored salvage targets beyond loot range, closest first |
| TractorPhase.IdleIndices | Metatron/ActionModules/NonOffensive.cs:238-240 | the idle modules are exactly the inactive ones, in module order |
| TractorPhase.TractorLoopActivatesNearest | Metatron/ActionModules/NonOffensive.cs:238-259 | the one tractor fired goes on the closest candidate within its optimal range, and only when that candidate is the active target |
| TractorPhase.ActivateTractorsActivation | Metatron/ActionModules/NonOffensive.cs:226-261 | phase 3 activates at most one tractor, since only its last command can be an activation; that tractor is idle, fires on the active target, and the active target is the closest candidate within its optimal range |
| TractorPhase.ActivateTractorsChanges | Metatron/ActionModules/NonOffensive.cs:226-261 | phase 3 requests at most one target change, without locking (unlike the salvager phase, which locks), through the gate, and none once one was made this frame |
| SalvagerPhase.SalvageWrecks | Metatron/ActionModules/NonOffensive.cs:266-272 | salvagers only consider locked wrecks within 6000 m, never cargo containers, closest first |
| SalvagerPhase.FreeWrecks | Metatron/ActionModules/NonOffensive.cs:276-280 | the free wrecks are exactly those no active salvager holds, still closest first |
| SalvagerPhase.DistributeLoopDoesOneThing | Metatron/ActionModules/NonOffensive.cs:281-305 | the distribute loop fires the first idle salvager if the wreck is active, otherwise requests the wreck once, otherwise does nothing |
| SalvagerPhase.DistributeFiresOnNearestFreeWreck | Metatron/ActionModules/NonOffensive.cs:276-305 | distribute mode clicks at most one idle salvager, only on the closest wreck without an active salvager and only when it is the active target; otherwise it may only request that wreck |
| SalvagerPhase.FocusFiresAllOnNearestWreck | Metatron/ActionModules/NonOffensive.cs:306-330 | focus mode clicks every idle salvager, and only those, on the closest wreck when it is the active target, and none otherwise |
| SalvagerPhase.FocusRequestsNearestWreck | Metatron/ActionModules/NonOffensive.cs:306-330 | focus mode otherwise requests the closest wreck once, with locking, through the gate; it is silent exactly when there is no wreck, no idle salvager, or no way to change target |
| SalvageManagement.ReleaseDespawned | Metatron/ActionModules/NonOffensive.cs:192-209 | phase 1 clicks off exactly the active tractors and salvagers whose target is gone from the snapshot |
| SalvageManagement.ReleaseInLootRange | Metatron/ActionModules/NonOffensive.cs:211-224 | phase 2 clicks off exactly the active tractors whose target is within loot range |
| SalvageManagement.ManageIdleSalvageModules | Metatron/ActionModules/NonOffensive.cs:184-335 | with no queued salvage target nothing happens at all; otherwise a tractor is clicked off iff active with a despawned target or one within loot range, a salvager iff active with a despawned target; every switch-off precedes every change request and activation; at most one target change, none once one was made |
| SalvageManagement.SalvagePhasesInOrder | Metatron/ActionModules/NonOffensive.cs:184-335 | the pass is phase 1 and 2's releases, then phase 3's commands, then phase 4's |
| SalvageManagement.SalvageTractorActivation | Metatron/ActionModules/NonOffensive.cs:226-261 | in the whole pass at most one tractor is activated, an idle one, on the active target, which is the closest candidate within that tractor's optimal range |
| SalvageManagement.SalvagersFireIdleOnActive | Metatron/ActionModules/NonOffensive.cs:262-330 | every salvager the pass activates is idle and fires on the active target |
| SalvageManagement.SalvageDistributeActivation | Metatron/ActionModules/NonOffensive.cs:276-305 | distributing, at most one salvager is activated, and only on the closest wreck no active salvager holds |
| SalvageManagement.SalvageFocusActivation | Metatron/ActionModules/NonOffensive.cs:306-330 | focusing, salvager j is activated on the active target iff it is idle and the active target is the closest wreck |
| SalvageManagement.SalvageActivatesOnActiveTarget | Metatron/ActionModules/NonOffensive.cs:226-330 | every activation of the salvage phases is a tractor or salvager on the active target |
| SalvageManagement.FirstNearest | Metatron/ActionModules/NonOffensive.cs:1145 | `OrderBy(Distance).First()` picks a closest entity, the first of the closest ones in list order |
| SalvageManagement.ChangeSalvageTarget | Metatron/ActionModules/NonOffensive.cs:1121-1159 | nothing without the gate or without tractor targets; otherwise the pick is the closest tractor target when every tractor is active and one holds a target inside loot range, else the head of the tractor list; the change, without locking, is requested iff the pick is not the current target |
| SalvageManagement.TractorTarget | Metatron/ActionModules/NonOffensive.cs:1079-1119 | a queue id with no live entity is a fault; otherwise its change requests are exactly `ChangeSalvageTarget`'s and set the changed flag iff present; at most one looting command is issued, ahead of any change, and iff the target is within `LootActivate` and holds loot; it opens a closed cargo window and loots an open one |
| SalvageManagement.TractorTargetLoots | Metatron/ActionModules/NonOffensive.cs:1092-1110 | the queued target is opened or looted iff it is within loot range and needs looting; it is opened only when its cargo window is closed |
| Pulse.WarpCommands | Metatron/ActionModules/NonOffensive.cs:77-88 | in warp, lasers and salvagers are switched off and drones recalled if drones are used and some are out; tractors are left alone |
| Pulse.WithoutId | Metatron/ActionModules/NonOffensive.cs:110-111 | dequeueing removes exactly the entries with that id |
| Pulse.HandleQueueTarget | Metatron/ActionModules/NonOffensive.cs:98-121 | an out-of-range mining queue target not being approached is dequeued and the active target unlocked; a loot-salvage target goes through `TractorTarget`; a failed lookup is a fault; at most one target change |
| Pulse.LaserPassFor | Metatron/ActionModules/NonOffensive.cs:131-146 | the laser pass of a pulse keeps the change discipline and fires only on the active target |
| Pulse.MineTargets | Metatron/ActionModules/NonOffensive.cs:131-146 | no mining target: nothing; otherwise the drone decision's commands come first, then the laser pass's; every activation is a laser on the active target, which is a mining target in laser range; at most one target change; a laser-pass fault leaves only drone commands |
| Pulse.WorkTargets | Metatron/ActionModules/NonOffensive.cs:123-124 | mining's commands come first, then salvage's; every activation, of lasers, tractors or salvagers, is on the active target; no dequeue or unlock; at most one target change |
| Pulse.Engage | Metatron/ActionModules/NonOffensive.cs:92-124 | after the guards: capacitor reset; the queue entry's switch (dequeue and unlock, or looting) comes before mining and salvage; every activation on the active target; a fault issues no module switch |
| Pulse.Pulse | Metatron/ActionModules/NonOffensive.cs:66-128 | not due, docked, waiting or no active target: nothing happens; warping: only the warp commands; otherwise the queue entry's switch precedes mining and salvage, the dequeue (iff abandoned) comes first, an abandoned active target gets no laser, every activation is on the active target, and at most one target change happens in the pulse |
| LocalSafety.CheckIndividualStandings | Metatron/Core/Social.cs:403-507 | fails iff some enabled check has its standing strictly below the paired minimum; the failing check reported is the first in source order |
| LocalSafety.FailsafeOnlyLogs | Metatron/Core/Social.cs:415-420 | the negative failsafe leaves the individual verdict and failing check unchanged |
| LocalSafety.MoreChecksAreStricter | Metatron/Core/Social.cs:409-506 | enabling more individual checks can only turn a pass into a fail |
| LocalSafety.CheckCorpsAlliancesStanding | Metatron/Core/Social.cs:509-577 | disabled gives true; with the failsafe, any of the four standings below 0 gives false; otherwise true iff some one of them is strictly above the minimum |
| LocalSafety.FailsafeIsStricter | Metatron/Core/Social.cs:521-552 | turning the failsafe on can only make the combined check fail |
| LocalSafety.CheckStandings | Metatron/Core/Social.cs:373-401 | a corpmate, or a member of the player's alliance with a positive id, passes unchecked; anyone else passes iff both the individual and the combined check pass |
| LocalSafety.PilotOffence | Metatron/Core/Social.cs:254-336 | a pilot missing from the cache offends under their local name; with the whitelist rule on, a pilot on no whitelist offends; with the blacklist rule on, any blacklist hit offends, reported alliance, then corp, then pilot; otherwise only a failed standings check offends, and only when standings checks are enabled |
| LocalSafety.DetermineIfLocalIsSafe | Metatron/Core/Social.cs:240-371 | with no solar system or a single local pilot: safe with no hostiles; otherwise safe iff no pilot other than the player offends; the hostile list is empty iff safe, and otherwise holds exactly the first offender's name |

## Left out

- `UseTractorBeams_OLD` and `UseSalvagers_OLD` (NonOffensive.cs:335-576): their own documentation says they are no longer used.
- Random pulse pacing (`RandomWaitObject`, `ShouldPulse`): its code is not part of this model. Whether the pulse is due and whether to wait are boolean inputs of the snapshot.
- `DateTime.Now` and `System.Random`: the current instant and the two random draws of `GenerateFudgeFactor` are inputs.
- The crystal choice (`EnsureMiningLaserIsArmedForTarget`, `GetBestMiningCrystal`, NonOffensive.cs:944-985): it depends on the cargo and on foreign item data. Whether arming a laser for a target would change its crystal is an input set of (laser, target) pairs. A swap is a `ChangeAmmo` command.
- Game calls (`Click`, `Activate`, `Deactivate`, `ChangeAmmo`, `Open`, `LootAll`, the drone commands, `UnlockTarget`, `DequeueTarget`): emitted as abstract commands. `Click` on an idle module is `Activate`, and on an active one `Deactivate`.
- TractorPhase.ActivateTractors, SalvagerPhase.DistributeSalvagers, SalvagerPhase.FocusSalvagers: module state (`IsActive`, `TargetID`) is read from the snapshot taken at the start of the pulse. A tractor or salvager clicked off by phase 1 or 2 earlier in the same pulse (NonOffensive.cs:198, 207, 221) is assumed to stay active until its cycle ends, so phases 3 and 4 (NonOffensive.cs:227, 264) do not reuse it. What `IsActive` reports right after `Deactivate()` is game behaviour outside this code.
- `TargetQueue` is not part of this model. The dequeue in `Pulse` is assumed to remove the entry at once, so the mining pass of the same pulse no longer sees it.
- The foreign inputs of `GetSortedTargets`: the modules on each entity, the attacker set and the time queued. They are supplied as data.
- Floating point: capacitor, distances, ranges, costs, times and standings are exact reals. `0.95` and the `/2`, `/3` divisions are exact. Casting the fudge factor to seconds is exact.
- The pilot, corporation and alliance caches (Social.cs:116-212) come from remote lookups. They appear as an input map from character id to cached record. The player's identity is also an input.
- Chat handling, alerts, the `lock` on the message list and logging (Social.cs:81-114, 219-237): I/O and concurrency.
- Profiling and logging in `NonOffensive`.
- `LootActivate` and the tractor optimal ranges come from configuration and module data outside this code. They are inputs of the salvage context.
- ChangeSalvageTarget: a tractor whose target is not in the snapshot counts as not near loot range. The source reads that distance from the module's own target in the game (NonOffensive.cs:1143), which the snapshot does not carry separately.
- Drones: the control-range test is strict (`<`), as the code has it.
- The `Sum() == 0` exit of `UseMiningLasers` (NonOffensive.cs:653) has no outcome of its own: the loop is only reached with at least one laser and one chosen target, and `MiningLasers.IntendedSumPositive` shows the sum is then positive.
- MiningLasers.LowestMaximumLaserRange: returns `None` where the source's `Min` throws on no lasers or no known range. The laser pass turns that into its fault outcome.
- CapacitorGate.MinimumCapacitor: the percentage term is computed in reals; the source computes it in doubles.

## Code and comment disagreements

The model follows the code in each case below.

- NonOffensive.cs:784 gives 2, 1, 1 as the distribution of 4 lasers over 3 targets. The expression at line 785 gives intended counts 2, 2, 4 (`LaserDistribution.FourLasersThreeTargets`). These are upper bounds per target, not a split that sums to the laser count.
- NonOffensive.cs:235 says the tractor candidates are ordered furthest first. `OrderBy(t => t.Distance)` orders them closest first, and the model does that.
- NonOffensive.cs:859-863: `Next(0, 1)` is always 0, so the fudge factor "that may be negative" is never positive (`ShortCycle.FudgeFactor`).
- NonOffensive.cs:79 says all modules are turned off in warp. Lines 80-81 turn off only mining lasers and salvagers, so tractor beams keep running (`Pulse.WarpCommands`).
- NonOffensive.cs:110-113: the code dequeues the out-of-range mining queue entry but unlocks the active target, which need not be the same entity (`Pulse.HandleQueueTarget`).

=== FILE: base.dfy ===
/** Small shared vocabulary: an optional value, used wherever the source
    works with a nullable reference or a `Nullable<T>`. */
module Base {

  datatype Option<+T> = None | Some(value: T) {

    /** The value, or `default` when absent (the source's `GetValueOrDefault`). */
    function GetOr(default: T): T {
      match this
      case Some(v) => v
      case None => default
    }
  }
}

=== FILE: capacitor.dfy ===
/** The capacitor gate of the mining-laser pass: the safety floor
    (`CalculateMinimumCapacitor`) and the tick-local reservation
    (`CanSafelyActivateMiningLaser`). */
module CapacitorGate {
  import opened Base
  import opened World

  /** Sum of activation costs, a missing cost counting as 0. */
  function SumCosts(mods: seq<Module>): real
  {
    if |mods| == 0 then 0.0
    else mods[0].activationCost.GetOr(0.0) + SumCosts(mods[1..])
  }

  lemma {:induction false} SumCostsAppend(a: seq<Module>, b: seq<Module>)
    ensures SumCosts(a + b) == SumCosts(a) + SumCosts(b)
    decreases |a|
  {
    if |a| > 0 {
      assert (a + b)[1..] == a[1..] + b;
      SumCostsAppend(a[1..], b);
    } else {
      assert a + b == b;
    }
  }

  /** A module whose cost is unknown adds nothing to a cost sum. */
  lemma UnknownCostIsFree(a: seq<Module>, m: Module)
    requires m.activationCost.None?
    ensures SumCosts(a + [m]) == SumCosts(a)
  {
    SumCostsAppend(a, [m]);
  }

  /** The ship readings the floor is computed from. */
  datatype ShipReadings = ShipReadings(
    maxCapacitor: real,
    activeHardeners: seq<Module>,
    shieldBoosters: seq<Module>)

  /** The floor: `(MinimumCapPct + 5)` percent of the maximum capacitor plus
      the costs of the active hardeners and of the shield boosters. */
  function MinimumCapacitor(ship: ShipReadings, minimumCapPct: int): (floor: real)
    ensures floor - SumCosts(ship.activeHardeners) - SumCosts(ship.shieldBoosters)
            == ship.maxCapacitor * (minimumCapPct + 5) as real / 100.0
  {
    ship.maxCapacitor * ((minimumCapPct + 5) as real / 100.0)
    + SumCosts(ship.activeHardeners)
    + SumCosts(ship.shieldBoosters)
  }

  /** Fitting one more hardener with a known non-negative cost raises the floor
      by exactly that cost. */
  lemma HardenerRaisesFloor(ship: ShipReadings, minimumCapPct: int, h: Module)
    requires h.activationCost.Some?
    ensures MinimumCapacitor(ship.(activeHardeners := ship.activeHardeners + [h]), minimumCapPct)
            == MinimumCapacitor(ship, minimumCapPct) + h.activationCost.value
  {
    SumCostsAppend(ship.activeHardeners, [h]);
  }

  datatype Gate = Gate(pass: bool, capacitor: real)

  /** `CanSafelyActivateMiningLaser` against the tick-local capacitor. */
  function CanSafelyActivate(capacitor: real, floor: real, cost: Option<real>): (g: Gate)
    ensures cost.None? ==> g.pass && g.capacitor == capacitor
    ensures cost.Some? ==> (g.pass <==> capacitor > floor + cost.value)
    ensures cost.Some? && g.pass ==> g.capacitor == capacitor - cost.value
    ensures !g.pass ==> g.capacitor == capacitor
    ensures g.capacitor != capacitor ==> g.capacitor > floor
  {
    match cost
    case None => Gate(true, capacitor)
    case Some(c) =>
      if capacitor > floor + c then Gate(true, capacitor - c) else Gate(false, capacitor)
  }
}

=== FILE: distribution.dfy ===
/** How many mining lasers each chosen target should get
    (`DetermineModuleCountsForTargets`) and which target the next idle laser
    takes (`GetBestTargetForMiningLaser`). Counts are kept as sequences
    aligned with the chosen targets instead of dictionaries keyed by id. */
module LaserDistribution {
  import opened Base
  import opened World

  /** `(int)Math.Ceiling((double)n / d)`: the least q with d * q >= n. */
  function CeilDiv(n: nat, d: nat): (q: nat)
    requires d > 0
    ensures d * q >= n
    ensures q == 0 || d * (q - 1) < n
  {
    (n + d - 1) / d
  }

  /** The intended count of the k-th chosen target is the ceiling of the
      laser count over the number of targets not yet processed: the source
      removes a target from its working list after computing its count, but
      never subtracts the lasers it has handed out. */
  function IntendedCounts(lasers: nat, targets: nat): (r: seq<nat>)
    ensures |r| == targets
    ensures forall k :: 0 <= k < targets ==> r[k] == CeilDiv(lasers, targets - k)
    decreases targets
  {
    if targets == 0 then []
    else [CeilDiv(lasers, targets)] + IntendedCounts(lasers, targets - 1)
  }

  /** Number of active modules whose target is `id`. */
  function CountOnTarget(lasers: seq<Module>, id: int): (n: nat)
    ensures n <= |lasers|
    ensures n > 0 <==> exists i :: 0 <= i < |lasers| && lasers[i].isActive && lasers[i].targetId == id
  {
    if |lasers| == 0 then 0
    else (if lasers[0].isActive && lasers[0].targetId == id then 1 else 0)
         + CountOnTarget(lasers[1..], id)
  }

  /** The active count of every chosen target, aligned with `chosen`. */
  function ActiveCounts(chosen: seq<Entity>, lasers: seq<Module>): (r: seq<nat>)
    ensures |r| == |chosen|
  {
    seq(|chosen|, k requires 0 <= k < |chosen| => CountOnTarget(lasers, chosen[k].id))
  }

  /** `DetermineModuleCountsForTargets`, walking the working list of targets
      as the source does. */
  method DetermineModuleCounts(chosen: seq<Entity>, lasers: seq<Module>)
    returns (active: seq<nat>, intended: seq<nat>)
    ensures |active| == |chosen| && |intended| == |chosen|
    ensures forall k :: 0 <= k < |chosen| ==> active[k] == CountOnTarget(lasers, chosen[k].id)
    ensures forall k :: 0 <= k < |chosen| ==> intended[k] == CeilDiv(|lasers|, |chosen| - k)
    ensures active == ActiveCounts(chosen, lasers)
    ensures intended == IntendedCounts(|lasers|, |chosen|)
  {
    var remaining := chosen;
    active, intended := [], [];
    while |remaining| > 0
      invariant |active| == |intended| && |active| + |remaining| == |chosen|
      invariant remaining == chosen[|active|..]
      invariant forall k :: 0 <= k < |active| ==> active[k] == CountOnTarget(lasers, chosen[k].id)
      invariant forall k :: 0 <= k < |intended| ==> intended[k] == CeilDiv(|lasers|, |chosen| - k)
    {
      var target := remaining[0];
      active := active + [CountOnTarget(lasers, target.id)];
      intended := intended + [CeilDiv(|lasers|, |remaining|)];
      remaining := remaining[1..];
    }
  }

  /** The intended counts never decrease along the chosen targets. */
  lemma IntendedNonDecreasing(lasers: nat, targets: nat, i: nat, j: nat)
    requires i <= j < targets
    ensures IntendedCounts(lasers, targets)[i] <= IntendedCounts(lasers, targets)[j]
  {
    CeilDivAntitone(lasers, targets - i, targets - j);
  }

  lemma MulMonotone(x: int, y: int, z: nat)
    requires x <= y
    ensures x * z <= y * z
  {
  }

  /** Fewer remaining targets never lower the ceiling share. */
  lemma CeilDivAntitone(n: nat, a: nat, b: nat)
    requires 0 < b <= a
    ensures CeilDiv(n, a) <= CeilDiv(n, b)
  {
    var qa, qb := CeilDiv(n, a), CeilDiv(n, b);
    MulMonotone(b, a, qb);
    if qa > qb {
      MulMonotone(qb, qa - 1, a);
    }
  }

  /** The last chosen target's intended count is the whole laser count. */
  lemma IntendedEndsAtLaserCount(lasers: nat, targets: nat)
    requires targets > 0
    ensures IntendedCounts(lasers, targets)[targets - 1] == lasers
  {
  }

  /** Four lasers over three targets: 2, 2, 4 (not the 2, 1, 1 of an even
      share); the counts add up to 8. */
  lemma FourLasersThreeTargets()
    ensures IntendedCounts(4, 3) == [2, 2, 4]
  {
    assert CeilDiv(4, 3) == 2 && CeilDiv(4, 2) == 2 && CeilDiv(4, 1) == 4;
  }

  /** The first target from `k` on that still needs a laser. */
  function FirstNeeding(active: seq<nat>, intended: seq<nat>, k: nat): (r: Option<nat>)
    requires |active| == |intended| && k <= |active|
    ensures r.None? <==> forall j :: k <= j < |active| ==> intended[j] <= active[j]
    ensures r.Some? ==> k <= r.value < |active| && intended[r.value] > active[r.value]
                        && forall j :: k <= j < r.value ==> intended[j] <= active[j]
    decreases |active| - k
  {
    if k == |active| then None
    else if intended[k] > active[k] then Some(k)
    else FirstNeeding(active, intended, k + 1)
  }

  datatype Pick = Pick(target: Option<nat>, active: seq<nat>)

  /** `GetBestTargetForMiningLaser`: the first chosen target whose intended
      count exceeds its active count; only that target's active count goes
      up, by exactly one. No target needing more means no pick and no change. */
  function GreedyPick(active: seq<nat>, intended: seq<nat>): (p: Pick)
    requires |active| == |intended|
    ensures |p.active| == |active|
    ensures p.target.None? <==> forall j :: 0 <= j < |active| ==> intended[j] <= active[j]
    ensures p.target.None? ==> p.active == active
    ensures p.target.Some? ==>
              var k := p.target.value;
              && k < |active| && intended[k] > active[k]
              && (forall j :: 0 <= j < k ==> intended[j] <= active[j])
              && p.active[k] == active[k] + 1
              && (forall j :: 0 <= j < |active| && j != k ==> p.active[j] == active[j])
  {
    match FirstNeeding(active, intended, 0)
    case None => Pick(None, active)
    case Some(k) => Pick(Some(k), active[k := active[k] + 1])
  }

  /** A pick never lifts a target above the larger of its current and its
      intended count. */
  lemma PickStaysWithinIntended(active: seq<nat>, intended: seq<nat>)
    requires |active| == |intended|
    ensures var p := GreedyPick(active, intended);
            forall j :: 0 <= j < |active| ==>
              p.active[j] <= if active[j] >= intended[j] then active[j] else intended[j]
  {
  }
}

=== FILE: drones.dfy ===
/** The mining-drone decision tree (`UseMiningDrones`): drones work one
    asteroid at a time, the first prioritised mining target within a margin
    of drone control range, and need it to be the active target. */
module MiningDrones {
  import opened Base
  import opened World

  /** The drone bay and the drones in space, as the drone collaborator
      reports them at tick start. */
  datatype DroneState = DroneState(
    totalDrones: int,
    dronesInBay: int,
    dronesInSpace: int,
    canLaunch: bool,
    anyDroneIdle: bool,
    droneTargetId: int)

  datatype DroneContext = DroneContext(
    useMiningDrones: bool,
    isIceMining: bool,
    drones: DroneState,
    controlDistance: real,
    activeTargetId: int,
    canChangeGate: bool)

  /** How one decision ends. */
  datatype DroneOutcome =
    | Disabled         // drones not used, ice mining, or no drones at all
    | NoTargetInRange
    | Launched
    | NoneInSpace
    | AlreadyEngaged   // every drone already works the chosen target
    | CannotChange     // the chosen target is not active and cannot become so
    | TargetRequested
    | Sent

  datatype DronePass = DronePass(outcome: DroneOutcome, commands: seq<Command>, changed: bool)

  /** The margin of error applied to drone control distance. */
  const DroneRangeFactor: real := 0.95

  /** `FirstOrDefault(entity => entity.Distance < effectiveDroneRange)`: the
      index of the first target strictly closer than `range`. */
  function FirstWithin(targets: seq<Entity>, range: real): (r: Option<nat>)
    ensures r.Some? ==> r.value < |targets| && targets[r.value].distance < range
                        && forall k :: 0 <= k < r.value ==> targets[k].distance >= range
    ensures r.None? <==> forall k :: 0 <= k < |targets| ==> targets[k].distance >= range
  {
    if |targets| == 0 then None
    else if targets[0].distance < range then Some(0)
    else
      match FirstWithin(targets[1..], range)
      case None => None
      case Some(k) => Some(k + 1)
  }

  /** Drones are in use: configured, not ice mining, and some drone owned. */
  predicate DronesEnabled(ctx: DroneContext) {
    ctx.useMiningDrones && !ctx.isIceMining && ctx.drones.totalDrones > 0
  }

  /** Some mining target lies within the drone range margin. */
  predicate HasDroneTarget(ctx: DroneContext, miningTargets: seq<Entity>) {
    FirstWithin(miningTargets, ctx.controlDistance * DroneRangeFactor).Some?
  }

  /** The first prioritised mining target within the drone range margin. */
  function DroneTarget(ctx: DroneContext, miningTargets: seq<Entity>): (e: Entity)
    requires HasDroneTarget(ctx, miningTargets)
    ensures e in miningTargets && e.distance < ctx.controlDistance * DroneRangeFactor
  {
    miningTargets[FirstWithin(miningTargets, ctx.controlDistance * DroneRangeFactor).value]
  }

  predicate CanLaunch(ctx: DroneContext) {
    ctx.drones.dronesInBay > 0 && ctx.drones.canLaunch
  }

  /** Drones are out, none is to be launched, and there is a target to give
      them: the decision is about where they go. */
  predicate ReadyToDirect(ctx: DroneContext, miningTargets: seq<Entity>) {
    && DronesEnabled(ctx) && HasDroneTarget(ctx, miningTargets)
    && !CanLaunch(ctx) && ctx.drones.dronesInSpace != 0
  }

  /** Every drone already works the drone target. */
  predicate Engaged(ctx: DroneContext, miningTargets: seq<Entity>)
    requires HasDroneTarget(ctx, miningTargets)
  {
    !ctx.drones.anyDroneIdle && ctx.drones.droneTargetId == DroneTarget(ctx, miningTargets).id
  }

  /** `UseMiningDrones` over the prioritised mining targets, under the
      frame's change flag `changed`. Each outcome holds exactly under the
      conditions the source tests for it, in the source's order. */
  function UseMiningDrones(ctx: DroneContext, miningTargets: seq<Entity>, changed: bool): (r: DronePass)
    // Every decision emits at most one command.
    ensures |r.commands| <= 1
    ensures r.outcome in {Disabled, NoTargetInRange, NoneInSpace, AlreadyEngaged, CannotChange} <==>
              r.commands == []
    ensures r.changed == (changed || r.outcome == TargetRequested)
    ensures r.outcome == Disabled <==> !DronesEnabled(ctx)
    ensures r.outcome == NoTargetInRange <==> DronesEnabled(ctx) && !HasDroneTarget(ctx, miningTargets)
    ensures r.outcome == NoTargetInRange ==>
              forall e :: e in miningTargets ==> e.distance >= ctx.controlDistance * DroneRangeFactor
    // Launching takes precedence over everything that needs a target.
    ensures r.outcome == Launched <==> DronesEnabled(ctx) && HasDroneTarget(ctx, miningTargets) && CanLaunch(ctx)
    ensures r.outcome == Launched ==> r.commands == [LaunchDrones]
    ensures r.outcome == NoneInSpace <==>
              && DronesEnabled(ctx) && HasDroneTarget(ctx, miningTargets) && !CanLaunch(ctx)
              && ctx.drones.dronesInSpace == 0
    ensures r.outcome == AlreadyEngaged <==>
              ReadyToDirect(ctx, miningTargets) && Engaged(ctx, miningTargets)
    // Drones only ever follow the active target; a change is requested only
    // through the gate, once per frame, for a locked target.
    ensures r.outcome == CannotChange <==>
              && ReadyToDirect(ctx, miningTargets) && !Engaged(ctx, miningTargets)
              && DroneTarget(ctx, miningTargets).id != ctx.activeTargetId
              && !(CanChangeTarget(ctx.canChangeGate, changed) && DroneTarget(ctx, miningTargets).isLocked)
    ensures r.outcome == TargetRequested <==>
              && ReadyToDirect(ctx, miningTargets) && !Engaged(ctx, miningTargets)
              && DroneTarget(ctx, miningTargets).id != ctx.activeTargetId
              && CanChangeTarget(ctx.canChangeGate, changed) && DroneTarget(ctx, miningTargets).isLocked
    ensures r.outcome == TargetRequested ==> r.commands == [ChangeTarget(DroneTarget(ctx, miningTargets).id, true)]
    ensures r.outcome == Sent <==>
              && ReadyToDirect(ctx, miningTargets) && !Engaged(ctx, miningTargets)
              && DroneTarget(ctx, miningTargets).id == ctx.activeTargetId
    ensures r.outcome == Sent ==> r.commands == [SendDrones]
  {
    if !ctx.useMiningDrones || ctx.isIceMining || ctx.drones.totalDrones <= 0 then
      DronePass(Disabled, [], changed)
    else
      match FirstWithin(miningTargets, ctx.controlDistance * DroneRangeFactor)
      case None => DronePass(NoTargetInRange, [], changed)
      case Some(k) =>
        var first := miningTargets[k];
        if ctx.drones.dronesInBay > 0 && ctx.drones.canLaunch then
          DronePass(Launched, [LaunchDrones], changed)
        else if ctx.drones.dronesInSpace == 0 then DronePass(NoneInSpace, [], changed)
        else if !ctx.drones.anyDroneIdle && ctx.drones.droneTargetId == first.id then
          DronePass(AlreadyEngaged, [], changed)
        else if ctx.activeTargetId != first.id then
          if !CanChangeTarget(ctx.canChangeGate, changed) || !first.isLocked then
            DronePass(CannotChange, [], changed)
          else DronePass(TargetRequested, [ChangeTarget(first.id, true)], true)
        else DronePass(Sent, [SendDrones], changed)
  }

  /** The drones are sent, or a change of active target requested, only for
      the first prioritised target in range: no earlier target is in range. */
  lemma DronesFollowFirstTargetInRange(ctx: DroneContext, miningTargets: seq<Entity>, changed: bool)
    requires UseMiningDrones(ctx, miningTargets, changed).outcome in {TargetRequested, Sent}
    ensures var r := UseMiningDrones(ctx, miningTargets, changed);
            var range := ctx.controlDistance * DroneRangeFactor;
            var id := if r.outcome == Sent then ctx.activeTargetId else r.commands[0].target;
            exists k :: 0 <= k < |miningTargets| && miningTargets[k].id == id && miningTargets[k].distance < range
                        && forall m :: 0 <= m < k ==> miningTargets[m].distance >= range
  {
    var k := FirstWithin(miningTargets, ctx.controlDistance * DroneRangeFactor).value;
    assert 0 <= k < |miningTargets|;
  }
}

=== FILE: lasers.dfy ===
/** The main mining-laser pass (`UseMiningLasers`): choose the targets in
    range, optionally short-cycle, distribute the lasers greedily, decide for
    every laser, and only then fire the lasers queued on the active target.

    Modelling choice for target changes: a change of active target is a
    recorded `ChangeTarget` request that sets the tick's `changed` flag; the
    active target id read at tick start stays the one every later decision
    compares against, which is why a laser whose target is not yet active is
    left for a later tick. */
module MiningLasers {
  import opened Base
  import opened World
  import opened CapacitorGate
  import opened ShortCycle
  import opened LaserDistribution

  /** `GetLowestMaximumLaserRange`: the least known optimal range. The source
      takes `Min` of an empty sequence and throws when no laser has a range;
      that is `None` here. */
  function LowestMaximumLaserRange(lasers: seq<Module>): (r: Option<real>)
    ensures r.None? <==> forall i :: 0 <= i < |lasers| ==> lasers[i].optimalRange.None?
    ensures r.Some? ==> (exists i :: 0 <= i < |lasers| && lasers[i].optimalRange == r)
                        && (forall i :: 0 <= i < |lasers| && lasers[i].optimalRange.Some? ==>
                              r.value <= lasers[i].optimalRange.value)
  {
    if |lasers| == 0 then None
    else
      var rest := LowestMaximumLaserRange(lasers[1..]);
      assert forall i :: 1 <= i < |lasers| ==> lasers[i] == lasers[1..][i - 1];
      match lasers[0].optimalRange
      case None =>
        if rest.Some? then
          var i :| 0 <= i < |lasers[1..]| && lasers[1..][i].optimalRange == rest;
          assert lasers[i + 1].optimalRange == rest;
          rest
        else None
      case Some(range) =>
        if rest.Some? && rest.value < range then
          var i :| 0 <= i < |lasers[1..]| && lasers[1..][i].optimalRange == rest;
          assert lasers[i + 1].optimalRange == rest;
          rest
        else Some(range)
  }

  /** The targets no farther than `range`, in order. */
  function WithinRange(targets: seq<Entity>, range: real): (r: seq<Entity>)
    ensures forall e :: e in r <==> e in targets && e.distance <= range
    ensures |r| <= |targets|
  {
    if |targets| == 0 then []
    else (if targets[0].distance <= range then [targets[0]] else []) + WithinRange(targets[1..], range)
  }

  function Take(targets: seq<Entity>, n: nat): (r: seq<Entity>)
    ensures r == if n < |targets| then targets[..n] else targets
  {
    if n < |targets| then targets[..n] else targets
  }

  predicate DistinctIds(targets: seq<Entity>) {
    forall i, j :: 0 <= i < j < |targets| ==> targets[i].id != targets[j].id
  }

  datatype LaserConfig = LaserConfig(distributeLasers: bool, shortCycle: bool)

  /** Everything the laser pass reads. `crystalSwaps` holds the (laser index,
      target id) pairs for which arming the laser for the target would change
      its crystal; the crystal choice itself is not modelled. */
  datatype LaserContext = LaserContext(
    miningTargets: seq<Entity>,
    lasers: seq<Module>,
    config: LaserConfig,
    activeTargetId: int,
    canChangeGate: bool,
    crystalSwaps: set<(nat, int)>,
    floor: real,
    shipCapacitor: real,
    now: real,
    magnitudeDraw: int,
    signDraw: int)

  ghost predicate ValidDraws(ctx: LaserContext) {
    0 <= ctx.magnitudeDraw < 15 && 0 <= ctx.signDraw < 1
  }

  /** The targets the pass distributes lasers over: the first in-range
      mining targets, one per laser when distributing and only the best
      otherwise. */
  function ChosenTargets(ctx: LaserContext, range: real): (r: seq<Entity>)
    ensures forall e :: e in r ==> e in ctx.miningTargets && e.distance <= range
    ensures var n := if ctx.config.distributeLasers then |ctx.lasers| else 1;
            var inRange := WithinRange(ctx.miningTargets, range);
            && |r| == (if n < |inRange| then n else |inRange|)
            && forall i :: 0 <= i < |r| ==> r[i] == inRange[i]
  {
    var inRange := WithinRange(ctx.miningTargets, range);
    var r := Take(inRange, if ctx.config.distributeLasers then |ctx.lasers| else 1);
    assert forall e :: e in r ==> e in inRange;
    r
  }

  /** An active laser the pass clicks off: not already deactivating, and
      aimed at something that is no longer a queued, live mining target. */
  predicate Deactivates(laser: Module, miningTargets: seq<Entity>) {
    laser.isActive && !laser.isDeactivating && !HasId(miningTargets, laser.targetId)
  }

  predicate OnlyScanCommands(cmds: seq<Command>) {
    forall c :: c in cmds ==> (c.Deactivate? && c.group == Lasers) || c.ChangeTarget? || c.ChangeAmmo?
  }

  /** The decision loop's state after the first `i` lasers. */
  datatype ScanState = ScanState(
    i: nat,
    commands: seq<Command>,
    queued: seq<nat>,
    active: seq<nat>,
    capacitor: real,
    changed: bool,
    swapped: Option<nat>)

  /** One iteration of the decision loop, for laser `st.i`. */
  function Step(ctx: LaserContext, chosen: seq<Entity>, intended: seq<nat>, st: ScanState): (next: ScanState)
    requires st.i < |ctx.lasers| && |st.active| == |chosen| && |intended| == |chosen|
    ensures next.i == st.i + 1 && |next.active| == |chosen|
  {
    var i := st.i;
    var laser := ctx.lasers[i];
    if laser.isActive then
      // An active laser is only ever clicked off, never retargeted.
      if !laser.isDeactivating && !HasId(ctx.miningTargets, laser.targetId)
      then st.(i := i + 1, commands := st.commands + [Deactivate(Lasers, i)])
      else st.(i := i + 1)
    else
      var pick := GreedyPick(st.active, intended);
      var st1 := st.(i := i + 1, active := pick.active);
      match pick.target
      case None => st1
      case Some(k) =>
        var target := chosen[k];
        if (i, target.id) in ctx.crystalSwaps then
          // Re-arming consumes the pulse: nothing else happens, queued lasers included.
          st1.(commands := st.commands + [ChangeAmmo(i, target.id)], swapped := Some(i))
        else if st.changed then st1
        else
          var gate := CanSafelyActivate(st.capacitor, ctx.floor, laser.activationCost);
          var st2 := st1.(capacitor := gate.capacitor);
          if !gate.pass then st2
          else if ctx.activeTargetId != target.id then
            // Change target only while nothing is queued on the current one.
            if |st.queued| == 0 && target.isLocked && CanChangeTarget(ctx.canChangeGate, st.changed)
            then st2.(commands := st.commands + [ChangeTarget(target.id, true)], changed := true)
            else st2
          else st2.(queued := st.queued + [i])
  }

  ghost predicate ShapeInv(ctx: LaserContext, chosen: seq<Entity>, st: ScanState) {
    && st.i <= |ctx.lasers| && |st.active| == |chosen|
    && OnlyScanCommands(st.commands)
  }

  ghost predicate DeactivationInv(ctx: LaserContext, st: ScanState) {
    && st.i <= |ctx.lasers|
    && (forall c :: c in st.commands && c.Deactivate? ==>
          c.index < st.i && Deactivates(ctx.lasers[c.index], ctx.miningTargets))
    && (forall j :: 0 <= j < st.i && Deactivates(ctx.lasers[j], ctx.miningTargets) ==>
          Deactivate(Lasers, j) in st.commands)
  }

  ghost predicate SwapInv(ctx: LaserContext, st: ScanState) {
    && st.i <= |ctx.lasers|
    && (st.swapped.None? ==> forall c :: c in st.commands ==> !c.ChangeAmmo?)
    && (st.swapped.Some? ==>
          && st.swapped.value + 1 == st.i && !ctx.lasers[st.swapped.value].isActive
          && |st.commands| > 0 && st.commands[|st.commands| - 1].ChangeAmmo?
          && (forall c :: c in st.commands[..|st.commands| - 1] ==> !c.ChangeAmmo?)
          && st.commands[|st.commands| - 1].laser == st.swapped.value
          && (st.swapped.value, st.commands[|st.commands| - 1].target) in ctx.crystalSwaps)
  }

  ghost predicate QueueInv(ctx: LaserContext, chosen: seq<Entity>, st: ScanState) {
    && st.i <= |ctx.lasers|
    && (forall k :: 0 <= k < |st.queued| ==>
          st.queued[k] < st.i && !ctx.lasers[st.queued[k]].isActive
          && HasId(chosen, ctx.activeTargetId)
          && (st.queued[k], ctx.activeTargetId) !in ctx.crystalSwaps)
    && (forall k, m :: 0 <= k < m < |st.queued| ==> st.queued[k] < st.queued[m])
  }

  ghost predicate ChangeInv(ctx: LaserContext, chosen: seq<Entity>, changed: bool, st: ScanState) {
    ChangeCountInv(changed, st) && ChangeWitnessInv(ctx, chosen, st)
  }

  ghost predicate ChangeCountInv(changed: bool, st: ScanState) {
    && |Changes(st.commands)| <= 1
    && (changed ==> Changes(st.commands) == [])
    && st.changed == (changed || Changes(st.commands) != [])
  }

  ghost predicate ChangeWitnessInv(ctx: LaserContext, chosen: seq<Entity>, st: ScanState) {
    Changes(st.commands) != [] ==>
      && st.queued == [] && ctx.canChangeGate
      && exists e :: e in chosen && e.isLocked && e.id != ctx.activeTargetId
                     && Changes(st.commands) == [ChangeTarget(e.id, true)]
  }

  ghost predicate CapacitorInv(ctx: LaserContext, capacitor: real, st: ScanState) {
    st.capacitor == capacitor || st.capacitor > ctx.floor
  }

  lemma StepKeepsShape(ctx: LaserContext, chosen: seq<Entity>, intended: seq<nat>, st: ScanState)
    requires st.i < |ctx.lasers| && |intended| == |chosen| && ShapeInv(ctx, chosen, st)
    ensures ShapeInv(ctx, chosen, Step(ctx, chosen, intended, st))
  {
  }

  lemma StepKeepsDeactivation(ctx: LaserContext, chosen: seq<Entity>, intended: seq<nat>, st: ScanState)
    requires st.i < |ctx.lasers| && |intended| == |chosen| && |st.active| == |chosen|
    requires DeactivationInv(ctx, st)
    ensures DeactivationInv(ctx, Step(ctx, chosen, intended, st))
  {
  }

  lemma StepKeepsSwap(ctx: LaserContext, chosen: seq<Entity>, intended: seq<nat>, st: ScanState)
    requires st.i < |ctx.lasers| && |intended| == |chosen| && |st.active| == |chosen|
    requires st.swapped.None? && SwapInv(ctx, st)
    ensures SwapInv(ctx, Step(ctx, chosen, intended, st))
  {
    var next := Step(ctx, chosen, intended, st);
    if next.swapped.Some? {
      assert next.commands[..|next.commands| - 1] == st.commands;
    }
  }

  lemma StepKeepsQueue(ctx: LaserContext, chosen: seq<Entity>, intended: seq<nat>, st: ScanState)
    requires st.i < |ctx.lasers| && |intended| == |chosen| && |st.active| == |chosen|
    requires QueueInv(ctx, chosen, st)
    ensures QueueInv(ctx, chosen, Step(ctx, chosen, intended, st))
  {
    var next := Step(ctx, chosen, intended, st);
    if |next.queued| > |st.queued| {
      var pick := GreedyPick(st.active, intended);
      assert chosen[pick.target.value].id == ctx.activeTargetId;
      assert chosen[pick.target.value] in chosen;
    }
  }

  /** One step adds at most one target change: none unless it is the step
      that sets `changed`, and that one goes to a locked chosen target other
      than the active one, while nothing is queued and the gate is open. */
  lemma StepChangeShape(ctx: LaserContext, chosen: seq<Entity>, intended: seq<nat>, st: ScanState)
    requires st.i < |ctx.lasers| && |intended| == |chosen| && |st.active| == |chosen|
    ensures var next := Step(ctx, chosen, intended, st);
            && (st.changed ==> next.queued == st.queued)
            && if next.changed == st.changed then Changes(next.commands) == Changes(st.commands)
               else && !st.changed && next.changed && st.queued == [] && next.queued == [] && ctx.canChangeGate
                    && exists e :: e in chosen && e.isLocked && e.id != ctx.activeTargetId
                                   && Changes(next.commands) == Changes(st.commands) + [ChangeTarget(e.id, true)]
  {
    if ctx.lasers[st.i].isActive {
      ActiveStepChangeShape(ctx, chosen, intended, st);
    } else {
      IdleStepChangeShape(ctx, chosen, intended, st);
    }
  }

  lemma ActiveStepChangeShape(ctx: LaserContext, chosen: seq<Entity>, intended: seq<nat>, st: ScanState)
    requires st.i < |ctx.lasers| && |intended| == |chosen| && |st.active| == |chosen|
    requires ctx.lasers[st.i].isActive
    ensures var next := Step(ctx, chosen, intended, st);
            && next.queued == st.queued && next.changed == st.changed
            && Changes(next.commands) == Changes(st.commands)
  {
    ChangesSnoc(st.commands, Deactivate(Lasers, st.i));
  }

  lemma IdleStepChangeShape(ctx: LaserContext, chosen: seq<Entity>, intended: seq<nat>, st: ScanState)
    requires st.i < |ctx.lasers| && |intended| == |chosen| && |st.active| == |chosen|
    requires !ctx.lasers[st.i].isActive
    ensures var next := Step(ctx, chosen, intended, st);
            && (st.changed ==> next.queued == st.queued)
            && if next.changed == st.changed then Changes(next.commands) == Changes(st.commands)
               else && !st.changed && next.changed && st.queued == [] && next.queued == [] && ctx.canChangeGate
                    && exists e :: e in chosen && e.isLocked && e.id != ctx.activeTargetId
                                   && Changes(next.commands) == Changes(st.commands) + [ChangeTarget(e.id, true)]
  {
    var next := Step(ctx, chosen, intended, st);
    var pick := GreedyPick(st.active, intended);
    if pick.target.Some? {
      var target := chosen[pick.target.value];
      if (st.i, target.id) in ctx.crystalSwaps {
        ChangesSnoc(st.commands, ChangeAmmo(st.i, target.id));
      } else if next.changed != st.changed {
        ChangesSnoc(st.commands, ChangeTarget(target.id, true));
        assert target in chosen;
      }
    }
  }

  lemma StepKeepsChangeCount(ctx: LaserContext, chosen: seq<Entity>, intended: seq<nat>, changed: bool, st: ScanState)
    requires st.i < |ctx.lasers| && |intended| == |chosen| && |st.active| == |chosen|
    requires ChangeCountInv(changed, st)
    ensures ChangeCountInv(changed, Step(ctx, chosen, intended, st))
  {
    StepChangeShape(ctx, chosen, intended, st);
  }

  lemma StepKeepsChangeWitness(ctx: LaserContext, chosen: seq<Entity>, intended: seq<nat>, st: ScanState)
    requires st.i < |ctx.lasers| && |intended| == |chosen| && |st.active| == |chosen|
    requires (Changes(st.commands) != [] ==> st.changed) && ChangeWitnessInv(ctx, chosen, st)
    ensures ChangeWitnessInv(ctx, chosen, Step(ctx, chosen, intended, st))
  {
    StepChangeShape(ctx, chosen, intended, st);
  }

  lemma StepKeepsCapacitor(ctx: LaserContext, chosen: seq<Entity>, intended: seq<nat>, capacitor: real, st: ScanState)
    requires st.i < |ctx.lasers| && |intended| == |chosen| && |st.active| == |chosen|
    requires CapacitorInv(ctx, capacitor, st)
    ensures CapacitorInv(ctx, capacitor, Step(ctx, chosen, intended, st))
  {
  }

  /** The loop's state before the first laser: nothing issued or queued. */
  function ScanStart(active: seq<nat>, capacitor: real, changed: bool): ScanState {
    ScanState(0, [], [], active, capacitor, changed, None)
  }

  /** The decision loop's states from `init` on, one per laser decided:
      entry `m + 1` is the step from entry `m`. */
  function Trace(ctx: LaserContext, chosen: seq<Entity>, intended: seq<nat>, init: ScanState, n: nat)
    : (t: seq<ScanState>)
    requires n <= |ctx.lasers| && init.i == 0 && |init.active| == |chosen| && |intended| == |chosen|
    ensures |t| == n + 1 && t[0] == init
    ensures forall m :: 0 <= m <= n ==> t[m].i == m && |t[m].active| == |chosen|
    ensures forall m :: 0 <= m < n ==> t[m + 1] == Step(ctx, chosen, intended, t[m])
    decreases n
  {
    if n == 0 then [init]
    else
      var prev := Trace(ctx, chosen, intended, init, n - 1);
      prev + [Step(ctx, chosen, intended, prev[n - 1])]
  }

  /** The decision loop's state before laser `j`, every earlier laser
      decided in turn from `init`. */
  function StateAt(ctx: LaserContext, chosen: seq<Entity>, intended: seq<nat>, init: ScanState, j: nat)
    : (s: ScanState)
    requires j <= |ctx.lasers| && init.i == 0 && |init.active| == |chosen| && |intended| == |chosen|
    ensures s.i == j && |s.active| == |chosen|
    ensures j == 0 ==> s == init
    ensures j > 0 ==> s == Step(ctx, chosen, intended, StateAt(ctx, chosen, intended, init, j - 1))
  {
    Trace(ctx, chosen, intended, init, |ctx.lasers|)[j]
  }

  /** The target the greedy distribution picks for the laser the state is at. */
  function PickFor(chosen: seq<Entity>, intended: seq<nat>, s: ScanState): Option<Entity>
    requires |s.active| == |chosen| && |intended| == |chosen|
  {
    var pick := GreedyPick(s.active, intended);
    if pick.target.Some? then Some(chosen[pick.target.value]) else None
  }

  /** Idle laser `s.i` has a pick, and arming it for that pick needs a
      different crystal. */
  predicate SwapsAt(ctx: LaserContext, chosen: seq<Entity>, intended: seq<nat>, s: ScanState)
    requires |s.active| == |chosen| && |intended| == |chosen|
  {
    && s.i < |ctx.lasers| && !ctx.lasers[s.i].isActive
    && PickFor(chosen, intended, s).Some?
    && (s.i, PickFor(chosen, intended, s).value.id) in ctx.crystalSwaps
  }

  /** Idle laser `s.i` gets to the capacitor check: it has a pick, needs no
      crystal change, and no target change was made this frame. */
  predicate ReachesGate(ctx: LaserContext, chosen: seq<Entity>, intended: seq<nat>, s: ScanState)
    requires |s.active| == |chosen| && |intended| == |chosen|
  {
    && s.i < |ctx.lasers| && !ctx.lasers[s.i].isActive
    && PickFor(chosen, intended, s).Some?
    && (s.i, PickFor(chosen, intended, s).value.id) !in ctx.crystalSwaps
    && !s.changed
  }

  /** ... and the capacitor check lets it through. */
  predicate PassesGate(ctx: LaserContext, chosen: seq<Entity>, intended: seq<nat>, s: ScanState)
    requires |s.active| == |chosen| && |intended| == |chosen|
  {
    && ReachesGate(ctx, chosen, intended, s)
    && CanSafelyActivate(s.capacitor, ctx.floor, ctx.lasers[s.i].activationCost).pass
  }

  /** ... and its pick is the active target, so it is kept for firing. */
  predicate QueuesAt(ctx: LaserContext, chosen: seq<Entity>, intended: seq<nat>, s: ScanState)
    requires |s.active| == |chosen| && |intended| == |chosen|
  {
    PassesGate(ctx, chosen, intended, s) && PickFor(chosen, intended, s).value.id == ctx.activeTargetId
  }

  /** The capacitor reserved by the first `n` lasers: the known activation
      cost of every laser that passed the capacitor check. */
  function Reserved(ctx: LaserContext, chosen: seq<Entity>, intended: seq<nat>, init: ScanState, n: nat)
    : (total: real)
    requires n <= |ctx.lasers| && init.i == 0 && |init.active| == |chosen| && |intended| == |chosen|
    decreases n
  {
    if n == 0 then 0.0
    else
      var s := StateAt(ctx, chosen, intended, init, n - 1);
      Reserved(ctx, chosen, intended, init, n - 1)
      + (if PassesGate(ctx, chosen, intended, s) then ctx.lasers[n - 1].activationCost.GetOr(0.0) else 0.0)
  }

  /** No laser before `n` needed a crystal change. */
  ghost predicate NoSwapBefore(ctx: LaserContext, chosen: seq<Entity>, intended: seq<nat>, init: ScanState, n: nat)
    requires n <= |ctx.lasers| && init.i == 0 && |init.active| == |chosen| && |intended| == |chosen|
  {
    forall j :: 0 <= j < n ==> !SwapsAt(ctx, chosen, intended, StateAt(ctx, chosen, intended, init, j))
  }

  /** What one step does to the queue, the capacitor and the swap marker,
      in terms of the decision predicates. */
  lemma StepDecides(ctx: LaserContext, chosen: seq<Entity>, intended: seq<nat>, s: ScanState)
    requires s.i < |ctx.lasers| && |s.active| == |chosen| && |intended| == |chosen|
    ensures var next := Step(ctx, chosen, intended, s);
            && next.queued == (if QueuesAt(ctx, chosen, intended, s) then s.queued + [s.i] else s.queued)
            && next.capacitor == s.capacitor
                 - (if PassesGate(ctx, chosen, intended, s) then ctx.lasers[s.i].activationCost.GetOr(0.0) else 0.0)
            && next.swapped == (if SwapsAt(ctx, chosen, intended, s) then Some(s.i) else s.swapped)
  {
  }

  /** One step queues nothing but its own laser, and that one exactly when
      its decision queues it. */
  lemma StepQueueMember(ctx: LaserContext, chosen: seq<Entity>, intended: seq<nat>, s: ScanState, j: nat)
    requires s.i < |ctx.lasers| && |s.active| == |chosen| && |intended| == |chosen|
    ensures j in Step(ctx, chosen, intended, s).queued <==>
              j in s.queued || (j == s.i && QueuesAt(ctx, chosen, intended, s))
  {
  }

  /** Only lasers already decided are queued. */
  lemma {:induction false} QueuedBelow(ctx: LaserContext, chosen: seq<Entity>, intended: seq<nat>,
                                       init: ScanState, n: nat, j: nat)
    requires n <= |ctx.lasers| && init.i == 0 && |init.active| == |chosen| && |intended| == |chosen|
    requires init.queued == [] && j in StateAt(ctx, chosen, intended, init, n).queued
    ensures j < n
    decreases n
  {
    if n > 0 {
      var prev := StateAt(ctx, chosen, intended, init, n - 1);
      StepQueueMember(ctx, chosen, intended, prev, j);
      if j in prev.queued {
        QueuedBelow(ctx, chosen, intended, init, n - 1, j);
      }
    }
  }

  /** The laser just decided is queued exactly when its decision queued it. */
  lemma QueuedLast(ctx: LaserContext, chosen: seq<Entity>, intended: seq<nat>, init: ScanState, n: nat)
    requires 0 < n <= |ctx.lasers| && init.i == 0 && |init.active| == |chosen| && |intended| == |chosen|
    requires init.queued == []
    ensures n - 1 in StateAt(ctx, chosen, intended, init, n).queued <==>
              QueuesAt(ctx, chosen, intended, StateAt(ctx, chosen, intended, init, n - 1))
  {
    var prev := StateAt(ctx, chosen, intended, init, n - 1);
    StepQueueMember(ctx, chosen, intended, prev, n - 1);
    if n - 1 in prev.queued {
      QueuedBelow(ctx, chosen, intended, init, n - 1, n - 1);
    }
  }

  /** Other lasers keep their queue membership across a step. */
  lemma QueuedOther(ctx: LaserContext, chosen: seq<Entity>, intended: seq<nat>, init: ScanState, n: nat, j: nat)
    requires 0 < n <= |ctx.lasers| && init.i == 0 && |init.active| == |chosen| && |intended| == |chosen|
    requires j != n - 1
    ensures j in StateAt(ctx, chosen, intended, init, n).queued <==>
              j in StateAt(ctx, chosen, intended, init, n - 1).queued
  {
    StepQueueMember(ctx, chosen, intended, StateAt(ctx, chosen, intended, init, n - 1), j);
  }

  /** A laser is queued exactly when its own decision queued it. */
  lemma {:induction false} StateAtQueue(ctx: LaserContext, chosen: seq<Entity>, intended: seq<nat>,
                                        init: ScanState, n: nat, j: nat)
    requires n <= |ctx.lasers| && init.i == 0 && |init.active| == |chosen| && |intended| == |chosen|
    requires init.queued == [] && j < |ctx.lasers|
    ensures j in StateAt(ctx, chosen, intended, init, n).queued <==>
              j < n && QueuesAt(ctx, chosen, intended, StateAt(ctx, chosen, intended, init, j))
    decreases n
  {
    if n > 0 {
      StateAtQueue(ctx, chosen, intended, init, n - 1, j);
      QueuedStep(ctx, chosen, intended, init, n, j);
    }
  }

  /** The inductive step of `StateAtQueue`. */
  lemma QueuedStep(ctx: LaserContext, chosen: seq<Entity>, intended: seq<nat>, init: ScanState, n: nat, j: nat)
    requires 0 < n <= |ctx.lasers| && init.i == 0 && |init.active| == |chosen| && |intended| == |chosen|
    requires init.queued == [] && j < |ctx.lasers|
    requires j in StateAt(ctx, chosen, intended, init, n - 1).queued <==>
               j < n - 1 && QueuesAt(ctx, chosen, intended, StateAt(ctx, chosen, intended, init, j))
    ensures j in StateAt(ctx, chosen, intended, init, n).queued <==>
              j < n && QueuesAt(ctx, chosen, intended, StateAt(ctx, chosen, intended, init, j))
  {
    if j == n - 1 {
      QueuedLast(ctx, chosen, intended, init, n);
    } else {
      QueuedOther(ctx, chosen, intended, init, n, j);
    }
  }

  /** The capacitor left is the start value less everything reserved. */
  lemma {:induction false} StateAtCapacitor(ctx: LaserContext, chosen: seq<Entity>, intended: seq<nat>,
                                            init: ScanState, n: nat)
    requires n <= |ctx.lasers| && init.i == 0 && |init.active| == |chosen| && |intended| == |chosen|
    ensures StateAt(ctx, chosen, intended, init, n).capacitor
            == init.capacitor - Reserved(ctx, chosen, intended, init, n)
    decreases n
  {
    if n > 0 {
      StateAtCapacitor(ctx, chosen, intended, init, n - 1);
      StepDecides(ctx, chosen, intended, StateAt(ctx, chosen, intended, init, n - 1));
    }
  }

  /** Every invariant of the decision loop. */
  ghost predicate ScanInv(ctx: LaserContext, chosen: seq<Entity>, capacitor: real, changed: bool, st: ScanState) {
    && ShapeInv(ctx, chosen, st) && DeactivationInv(ctx, st) && SwapInv(ctx, st)
    && QueueInv(ctx, chosen, st) && ChangeInv(ctx, chosen, changed, st)
    && CapacitorInv(ctx, capacitor, st)
  }

  lemma StepKeepsScanInv(ctx: LaserContext, chosen: seq<Entity>, intended: seq<nat>, capacitor: real, changed: bool,
                         st: ScanState)
    requires st.i < |ctx.lasers| && |intended| == |chosen| && st.swapped.None?
    requires ScanInv(ctx, chosen, capacitor, changed, st)
    ensures ScanInv(ctx, chosen, capacitor, changed, Step(ctx, chosen, intended, st))
  {
    StepKeepsShape(ctx, chosen, intended, st);
    StepKeepsDeactivation(ctx, chosen, intended, st);
    StepKeepsSwap(ctx, chosen, intended, st);
    StepKeepsQueue(ctx, chosen, intended, st);
    StepKeepsChangeCount(ctx, chosen, intended, changed, st);
    StepKeepsChangeWitness(ctx, chosen, intended, st);
    StepKeepsCapacitor(ctx, chosen, intended, capacitor, st);
  }

  /** The loop state is the state the decisions so far lead to, and it
      stopped at the first laser that needed a crystal change, if any. */
  ghost predicate Traced(ctx: LaserContext, chosen: seq<Entity>, intended: seq<nat>, init: ScanState, st: ScanState)
    requires init.i == 0 && |init.active| == |chosen| && |intended| == |chosen|
  {
    && st.i <= |ctx.lasers|
    && st == StateAt(ctx, chosen, intended, init, st.i)
    && (st.swapped.None? ==> NoSwapBefore(ctx, chosen, intended, init, st.i))
    && (st.swapped.Some? ==>
          && st.swapped.value + 1 == st.i
          && NoSwapBefore(ctx, chosen, intended, init, st.swapped.value)
          && SwapsAt(ctx, chosen, intended, StateAt(ctx, chosen, intended, init, st.swapped.value)))
  }

  lemma StepKeepsTraced(ctx: LaserContext, chosen: seq<Entity>, intended: seq<nat>, init: ScanState, st: ScanState)
    requires init.i == 0 && |init.active| == |chosen| && |intended| == |chosen|
    requires st.i < |ctx.lasers| && st.swapped.None? && Traced(ctx, chosen, intended, init, st)
    ensures Traced(ctx, chosen, intended, init, Step(ctx, chosen, intended, st))
  {
    StepDecides(ctx, chosen, intended, st);
  }

  /** What a finished loop's queue and capacitor are, in terms of each
      laser's own decision. */
  lemma TracedOutcome(ctx: LaserContext, chosen: seq<Entity>, intended: seq<nat>, init: ScanState, st: ScanState)
    requires init.i == 0 && |init.active| == |chosen| && |intended| == |chosen| && init.queued == []
    requires Traced(ctx, chosen, intended, init, st)
    ensures forall j :: 0 <= j < |ctx.lasers| ==>
              (j in st.queued <==> j < st.i && QueuesAt(ctx, chosen, intended, StateAt(ctx, chosen, intended, init, j)))
    ensures st.capacitor == init.capacitor - Reserved(ctx, chosen, intended, init, st.i)
  {
    forall j | 0 <= j < |ctx.lasers|
      ensures j in st.queued <==> j < st.i && QueuesAt(ctx, chosen, intended, StateAt(ctx, chosen, intended, init, j))
    {
      StateAtQueue(ctx, chosen, intended, init, st.i, j);
    }
    StateAtCapacitor(ctx, chosen, intended, init, st.i);
  }

  /** The decision loop over all lasers, in fitting order; it stops early
      only when a crystal swap ends the pulse, at the first laser that needs
      one. A laser is queued exactly when its own decision queued it, and
      the capacitor drops by exactly the costs reserved so far. */
  method ScanLasers(ctx: LaserContext, chosen: seq<Entity>, active: seq<nat>, intended: seq<nat>,
                    capacitor: real, changed: bool) returns (st: ScanState)
    requires |active| == |chosen| && |intended| == |chosen|
    ensures st.i == |ctx.lasers| || st.swapped.Some?
    ensures ShapeInv(ctx, chosen, st) && DeactivationInv(ctx, st) && SwapInv(ctx, st)
    ensures QueueInv(ctx, chosen, st) && ChangeInv(ctx, chosen, changed, st)
    ensures CapacitorInv(ctx, capacitor, st)
    ensures var init := ScanStart(active, capacitor, changed);
            && (st.swapped.None? ==> NoSwapBefore(ctx, chosen, intended, init, st.i))
            && (st.swapped.Some? ==>
                  && st.swapped.value < |ctx.lasers|
                  && NoSwapBefore(ctx, chosen, intended, init, st.swapped.value)
                  && SwapsAt(ctx, chosen, intended, StateAt(ctx, chosen, intended, init, st.swapped.value)))
            && (forall j :: 0 <= j < |ctx.lasers| ==>
                  (j in st.queued <==> j < st.i && QueuesAt(ctx, chosen, intended, StateAt(ctx, chosen, intended, init, j))))
            && st.capacitor == capacitor - Reserved(ctx, chosen, intended, init, st.i)
  {
    var init := ScanStart(active, capacitor, changed);
    st := init;
    while st.i < |ctx.lasers| && st.swapped.None?
      invariant ScanInv(ctx, chosen, capacitor, changed, st)
      invariant Traced(ctx, chosen, intended, init, st)
      decreases |ctx.lasers| - st.i
    {
      StepKeepsScanInv(ctx, chosen, intended, capacitor, changed, st);
      StepKeepsTraced(ctx, chosen, intended, init, st);
      st := Step(ctx, chosen, intended, st);
    }
    TracedOutcome(ctx, chosen, intended, init, st);
  }

  datatype LaserOutcome =
    | Fault              // the source throws: no laser range, or a duplicate target id
    | NoUsableRange      // the lowest range is 0
    | NoTargetInRange
    | ShortCycled
    | CrystalSwap(laser: nat)
    | Fired

  datatype LaserPass = LaserPass(outcome: LaserOutcome, commands: seq<Command>, tick: Tick)

  /** The activations of the queued lasers, in queue order. */
  function FireQueued(queued: seq<nat>, target: int): (r: seq<Command>)
    ensures |r| == |queued|
    ensures forall k :: 0 <= k < |queued| ==> r[k] == Activate(Lasers, queued[k], target)
    ensures forall c :: c in r <==> exists k :: 0 <= k < |queued| && c == Activate(Lasers, queued[k], target)
  {
    seq(|queued|, k requires 0 <= k < |queued| => Activate(Lasers, queued[k], target))
  }

  /** The active target is a queued mining target within the lowest laser range. */
  predicate ActiveTargetInRange(ctx: LaserContext) {
    && LowestMaximumLaserRange(ctx.lasers).Some?
    && exists e :: e in ctx.miningTargets && e.id == ctx.activeTargetId
                   && e.distance <= LowestMaximumLaserRange(ctx.lasers).value
  }

  /** The commands a laser pass may issue: laser activations and
      deactivations, crystal changes and active-target changes. */
  predicate LaserCommand(c: Command) {
    || (c.Activate? && c.group == Lasers)
    || (c.Deactivate? && c.group == Lasers)
    || c == DeactivateAll(Lasers)
    || c.ChangeAmmo?
    || c.ChangeTarget?
  }

  /** No activation command at all. */
  predicate NoActivation(cmds: seq<Command>) {
    forall c :: c in cmds ==> !c.Activate?
  }

  /** Deactivations: only of lasers that `Deactivates` holds for, and of
      every such laser the pass reached (all of them, unless a crystal swap
      ended the pass first). */
  ghost predicate PassDeactivations(ctx: LaserContext, r: LaserPass) {
    && (forall c :: c in r.commands && c.Deactivate? ==>
          c.group == Lasers && c.index < |ctx.lasers| && Deactivates(ctx.lasers[c.index], ctx.miningTargets))
    && (r.outcome == Fired || r.outcome.CrystalSwap? ==>
          forall j :: 0 <= j < |ctx.lasers| && ctx.lasers[j].isActive ==>
            (Deactivate(Lasers, j) in r.commands <==>
               (r.outcome == Fired || j < r.outcome.laser) && Deactivates(ctx.lasers[j], ctx.miningTargets)))
  }

  /** Activations: only in a pass that fires, only of idle lasers, all on the
      active target (a queued mining target within the lowest laser range),
      never where a crystal swap is due, in increasing laser order. */
  ghost predicate PassActivations(ctx: LaserContext, r: LaserPass) {
    && (forall c :: c in r.commands && c.Activate? ==>
          && r.outcome == Fired && c.group == Lasers && c.target == ctx.activeTargetId
          && c.index < |ctx.lasers| && !ctx.lasers[c.index].isActive
          && (c.index, ctx.activeTargetId) !in ctx.crystalSwaps
          && ActiveTargetInRange(ctx))
    && (forall a, b :: 0 <= a < b < |r.commands| && r.commands[a].Activate? && r.commands[b].Activate?
          ==> r.commands[a].index < r.commands[b].index)
  }

  /** A crystal swap is the last command of its pass, on an idle laser, and
      no laser fires in that pass. */
  ghost predicate PassSwap(ctx: LaserContext, r: LaserPass) {
    r.outcome.CrystalSwap? ==>
      && NoActivation(r.commands) && |r.commands| > 0
      && r.commands[|r.commands| - 1].ChangeAmmo?
      && r.commands[|r.commands| - 1].laser == r.outcome.laser
      && (r.outcome.laser, r.commands[|r.commands| - 1].target) in ctx.crystalSwaps
      && r.outcome.laser < |ctx.lasers| && !ctx.lasers[r.outcome.laser].isActive
      && (forall c :: c in r.commands[..|r.commands| - 1] ==> !c.ChangeAmmo?)
  }

  /** At most one target change, none once one was made this frame, only to
      a locked in-range target other than the active one, only through the
      external gate, and never in a pass that fires a laser. */
  ghost predicate PassChanges(ctx: LaserContext, tick: Tick, r: LaserPass) {
    && |Changes(r.commands)| <= 1
    && (tick.changed ==> Changes(r.commands) == [])
    && r.tick.changed == (tick.changed || Changes(r.commands) != [])
    && (Changes(r.commands) != [] ==>
          && NoActivation(r.commands) && ctx.canChangeGate
          && exists e :: e in ctx.miningTargets && e.isLocked && e.id != ctx.activeTargetId
                         && Changes(r.commands) == [ChangeTarget(e.id, true)])
  }

  /** The short-cycle timer is re-armed from the clock exactly when a laser
      fires with short cycling on. */
  ghost predicate PassTimer(ctx: LaserContext, tick: Tick, r: LaserPass)
    requires ValidDraws(ctx)
  {
    r.outcome != ShortCycled ==>
      r.tick.nextShortCycle ==
        if ctx.config.shortCycle && !NoActivation(r.commands)
        then NextShortCycle(ctx.lasers, ctx.now, tick.nextShortCycle, ctx.magnitudeDraw, ctx.signDraw)
        else tick.nextShortCycle
  }

  /** Everything a pass that got to the decision loop promises. */
  ghost predicate PassSound(ctx: LaserContext, tick: Tick, r: LaserPass)
    requires ValidDraws(ctx)
  {
    && PassDeactivations(ctx, r) && PassActivations(ctx, r) && PassSwap(ctx, r)
    && PassChanges(ctx, tick, r) && PassTimer(ctx, tick, r)
    && (r.tick.capacitor == tick.capacitor || r.tick.capacitor > ctx.floor)
  }

  /** The pass a crystal swap ended: the loop's commands, nothing fired. */
  method SwapPass(ctx: LaserContext, tick: Tick, chosen: seq<Entity>, range: real, st: ScanState)
    returns (r: LaserPass)
    requires ValidDraws(ctx) && chosen == ChosenTargets(ctx, range) && st.swapped.Some?
    requires ShapeInv(ctx, chosen, st) && DeactivationInv(ctx, st) && SwapInv(ctx, st)
    requires ChangeInv(ctx, chosen, tick.changed, st) && CapacitorInv(ctx, tick.capacitor, st)
    ensures r.outcome == CrystalSwap(st.swapped.value) && PassSound(ctx, tick, r)
    ensures forall c :: c in r.commands ==> LaserCommand(c)
  {
    r := LaserPass(CrystalSwap(st.swapped.value), st.commands, Tick(st.capacitor, tick.nextShortCycle, st.changed));
    assert NoActivation(r.commands);
    forall j | 0 <= j < |ctx.lasers| && ctx.lasers[j].isActive
      ensures Deactivate(Lasers, j) in r.commands <==>
                j < st.swapped.value && Deactivates(ctx.lasers[j], ctx.miningTargets)
    {
      if j < st.i && Deactivates(ctx.lasers[j], ctx.miningTargets) {
        assert Deactivate(Lasers, j) in st.commands;
      }
      if Deactivate(Lasers, j) in r.commands {
        assert Deactivate(Lasers, j).index < st.i;
      }
    }
    assert PassDeactivations(ctx, r);
    if Changes(st.commands) != [] {
      var e :| e in chosen && e.isLocked && e.id != ctx.activeTargetId
               && Changes(st.commands) == [ChangeTarget(e.id, true)];
      assert e in ctx.miningTargets;
    }
    assert PassChanges(ctx, tick, r);
  }

  /** The pass that reached every laser: the loop's commands, then one
      activation per queued laser on the active target. */
  method FirePass(ctx: LaserContext, tick: Tick, chosen: seq<Entity>, range: real, st: ScanState)
    returns (r: LaserPass)
    requires ValidDraws(ctx) && LowestMaximumLaserRange(ctx.lasers) == Some(range)
    requires chosen == ChosenTargets(ctx, range) && st.swapped.None? && st.i == |ctx.lasers|
    requires ShapeInv(ctx, chosen, st) && DeactivationInv(ctx, st) && SwapInv(ctx, st)
    requires QueueInv(ctx, chosen, st)
    requires ChangeInv(ctx, chosen, tick.changed, st) && CapacitorInv(ctx, tick.capacitor, st)
    ensures r.outcome == Fired && PassSound(ctx, tick, r)
    ensures NoActivation(r.commands) <==> st.queued == []
    ensures forall c :: c in r.commands ==> LaserCommand(c)
    // The loop's commands stay first; one activation per queued laser follows.
    ensures |r.commands| == |st.commands| + |st.queued| && r.commands[..|st.commands|] == st.commands
    ensures forall k :: |st.commands| <= k < |r.commands| ==>
              r.commands[k] == Activate(Lasers, st.queued[k - |st.commands|], ctx.activeTargetId)
    ensures forall j :: Activate(Lasers, j, ctx.activeTargetId) in r.commands <==> j in st.queued
    ensures r.tick.capacitor == st.capacitor && r.tick.changed == st.changed
  {
    var fire := FireQueued(st.queued, ctx.activeTargetId);
    var next := tick.nextShortCycle;
    if ctx.config.shortCycle && |st.queued| > 0 {
      // Only the update after the last activation survives.
      next := NextShortCycle(ctx.lasers, ctx.now, next, ctx.magnitudeDraw, ctx.signDraw);
    }
    var cmds := st.commands + fire;
    r := LaserPass(Fired, cmds, Tick(st.capacitor, next, st.changed));
    FiredActivations(ctx, chosen, range, st, r);
    FiredDeactivations(ctx, chosen, st, r);
    FiredChanges(ctx, tick, chosen, range, st, r);
    FiredShape(ctx, chosen, st, r);
  }

  /** A firing pass's commands: the loop's, then the queued activations. */
  lemma FiredShape(ctx: LaserContext, chosen: seq<Entity>, st: ScanState, r: LaserPass)
    requires ShapeInv(ctx, chosen, st)
    requires r.commands == st.commands + FireQueued(st.queued, ctx.activeTargetId)
    ensures |r.commands| == |st.commands| + |st.queued| && r.commands[..|st.commands|] == st.commands
    ensures forall k :: |st.commands| <= k < |r.commands| ==>
              r.commands[k] == Activate(Lasers, st.queued[k - |st.commands|], ctx.activeTargetId)
    ensures forall j :: Activate(Lasers, j, ctx.activeTargetId) in r.commands <==> j in st.queued
  {
    FiredLayout(st.commands, st.queued, ctx.activeTargetId, r.commands);
    FiredExactly(ctx, chosen, st, r.commands);
  }

  /** The loop's commands, then one activation per queued laser. */
  lemma FiredLayout(scan: seq<Command>, queued: seq<nat>, target: int, cmds: seq<Command>)
    requires cmds == scan + FireQueued(queued, target)
    ensures |cmds| == |scan| + |queued| && cmds[..|scan|] == scan
    ensures forall k :: |scan| <= k < |cmds| ==> cmds[k] == Activate(Lasers, queued[k - |scan|], target)
  {
    assert cmds[..|scan|] == scan;
  }

  /** The laser activations of a firing pass are exactly the queued lasers. */
  lemma FiredExactly(ctx: LaserContext, chosen: seq<Entity>, st: ScanState, cmds: seq<Command>)
    requires ShapeInv(ctx, chosen, st)
    requires cmds == st.commands + FireQueued(st.queued, ctx.activeTargetId)
    ensures forall j :: Activate(Lasers, j, ctx.activeTargetId) in cmds <==> j in st.queued
  {
    var fire := FireQueued(st.queued, ctx.activeTargetId);
    forall j ensures Activate(Lasers, j, ctx.activeTargetId) in cmds <==> j in st.queued {
      assert Activate(Lasers, j, ctx.activeTargetId) !in st.commands by {
        assert OnlyScanCommands(st.commands);
      }
      if j in st.queued {
        var k :| 0 <= k < |st.queued| && st.queued[k] == j;
        assert fire[k] == Activate(Lasers, j, ctx.activeTargetId);
      }
    }
  }

  lemma FiredActivations(ctx: LaserContext, chosen: seq<Entity>, range: real, st: ScanState, r: LaserPass)
    requires chosen == ChosenTargets(ctx, range) && st.swapped.None?
    requires ShapeInv(ctx, chosen, st) && QueueInv(ctx, chosen, st)
    requires r.outcome == Fired && r.commands == st.commands + FireQueued(st.queued, ctx.activeTargetId)
    requires LowestMaximumLaserRange(ctx.lasers) == Some(range)
    ensures PassActivations(ctx, r)
    ensures NoActivation(r.commands) <==> st.queued == []
  {
    var fire := FireQueued(st.queued, ctx.activeTargetId);
    var cmds := r.commands;
    if |st.queued| > 0 {
      assert fire[0] in cmds;
      var e :| e in chosen && e.id == ctx.activeTargetId;
      assert e in ctx.miningTargets && e.distance <= range;
      assert ActiveTargetInRange(ctx);
    } else {
      assert NoActivation(cmds) by {
        assert OnlyScanCommands(st.commands);
      }
    }
    forall a, b | 0 <= a < b < |cmds| && cmds[a].Activate? && cmds[b].Activate?
      ensures cmds[a].index < cmds[b].index
    {
      assert cmds[a] !in st.commands && cmds[b] !in st.commands by {
        assert OnlyScanCommands(st.commands);
      }
      assert a >= |st.commands|;
    }
  }

  lemma FiredDeactivations(ctx: LaserContext, chosen: seq<Entity>, st: ScanState, r: LaserPass)
    requires st.swapped.None? && st.i == |ctx.lasers| && DeactivationInv(ctx, st)
    requires ShapeInv(ctx, chosen, st)
    requires r.outcome == Fired && r.commands == st.commands + FireQueued(st.queued, ctx.activeTargetId)
    ensures PassDeactivations(ctx, r)
  {
    var fire := FireQueued(st.queued, ctx.activeTargetId);
    assert forall c :: c in r.commands ==> c in st.commands || c in fire;
    assert forall c :: c in fire ==> c.Activate?;
  }

  lemma FiredChanges(ctx: LaserContext, tick: Tick, chosen: seq<Entity>, range: real, st: ScanState, r: LaserPass)
    requires chosen == ChosenTargets(ctx, range)
    requires ShapeInv(ctx, chosen, st) && ChangeInv(ctx, chosen, tick.changed, st)
    requires r.outcome == Fired && r.commands == st.commands + FireQueued(st.queued, ctx.activeTargetId)
    requires r.tick.changed == st.changed
    ensures PassChanges(ctx, tick, r)
  {
    var fire := FireQueued(st.queued, ctx.activeTargetId);
    ChangesAppend(st.commands, fire);
    NoChangesWithout(fire);
    if Changes(st.commands) != [] {
      var e :| e in chosen && e.isLocked && e.id != ctx.activeTargetId
               && Changes(st.commands) == [ChangeTarget(e.id, true)];
      assert e in ctx.miningTargets;
    }
  }

  /** Some mining target lies within `range`. */
  predicate AnyInRange(ctx: LaserContext, range: real) {
    exists e :: e in ctx.miningTargets && e.distance <= range
  }

  /** With at least one laser, targets are chosen exactly when one is in range. */
  lemma ChosenWhenInRange(ctx: LaserContext, range: real)
    requires |ctx.lasers| > 0
    ensures ChosenTargets(ctx, range) != [] <==> AnyInRange(ctx, range)
  {
    var inRange := WithinRange(ctx.miningTargets, range);
    var chosen := ChosenTargets(ctx, range);
    if AnyInRange(ctx, range) {
      var e :| e in ctx.miningTargets && e.distance <= range;
      assert e in inRange;
    }
    if chosen != [] {
      assert chosen[0] in chosen;
    }
  }

  /** The short cycle ends the pass: it is on, its timer is set and due, and
      the ship could pay for reactivating every laser above the floor. */
  predicate ShortCycleFires(ctx: LaserContext, tick: Tick) {
    && ctx.config.shortCycle && tick.nextShortCycle.Some? && ctx.now >= tick.nextShortCycle.value
    && ctx.shipCapacitor - SumCosts(ctx.lasers) >= ctx.floor
  }

  /** The targets the pass works on, under the lowest known range. */
  function PassChosen(ctx: LaserContext): seq<Entity>
    requires LowestMaximumLaserRange(ctx.lasers).Some?
  {
    ChosenTargets(ctx, LowestMaximumLaserRange(ctx.lasers).value)
  }

  /** The pass gets to the decision loop: a usable range, a target within
      it, no short cycle, and distinct chosen ids. */
  predicate ReachesLoop(ctx: LaserContext, tick: Tick) {
    && LowestMaximumLaserRange(ctx.lasers).Some?
    && LowestMaximumLaserRange(ctx.lasers).value != 0.0
    && AnyInRange(ctx, LowestMaximumLaserRange(ctx.lasers).value)
    && !ShortCycleFires(ctx, tick)
    && DistinctIds(PassChosen(ctx))
  }

  /** The loop's state before laser `j` in this pass: the greedy counts
      start from the lasers already on each chosen target. */
  function PassStateAt(ctx: LaserContext, tick: Tick, j: nat): ScanState
    requires LowestMaximumLaserRange(ctx.lasers).Some? && j <= |ctx.lasers|
  {
    var chosen := PassChosen(ctx);
    StateAt(ctx, chosen, IntendedCounts(|ctx.lasers|, |chosen|),
            ScanStart(ActiveCounts(chosen, ctx.lasers), tick.capacitor, tick.changed), j)
  }

  /** Laser `j` needs a crystal change for its pick in this pass. */
  ghost predicate LaserSwaps(ctx: LaserContext, tick: Tick, j: nat)
    requires LowestMaximumLaserRange(ctx.lasers).Some? && j <= |ctx.lasers|
  {
    var chosen := PassChosen(ctx);
    SwapsAt(ctx, chosen, IntendedCounts(|ctx.lasers|, |chosen|), PassStateAt(ctx, tick, j))
  }

  /** Laser `j` is idle, its greedy pick is the active target, it needs no
      crystal change, no target change was made this frame, and the
      capacitor check lets it through. */
  ghost predicate LaserQueues(ctx: LaserContext, tick: Tick, j: nat)
    requires LowestMaximumLaserRange(ctx.lasers).Some? && j <= |ctx.lasers|
  {
    var chosen := PassChosen(ctx);
    QueuesAt(ctx, chosen, IntendedCounts(|ctx.lasers|, |chosen|), PassStateAt(ctx, tick, j))
  }

  /** The capacitor this pass reserves for the first `n` lasers. */
  function PassReserved(ctx: LaserContext, tick: Tick, n: nat): real
    requires LowestMaximumLaserRange(ctx.lasers).Some? && n <= |ctx.lasers|
  {
    var chosen := PassChosen(ctx);
    Reserved(ctx, chosen, IntendedCounts(|ctx.lasers|, |chosen|),
             ScanStart(ActiveCounts(chosen, ctx.lasers), tick.capacitor, tick.changed), n)
  }

  /** The source stops when the intended counts add up to 0; with a laser
      and a chosen target they never do, since the last count is the whole
      laser count. */
  lemma IntendedSumPositive(lasers: nat, targets: nat)
    requires lasers > 0 && targets > 0
    ensures Sum(IntendedCounts(lasers, targets)) > 0
  {
    assert IntendedCounts(lasers, targets)[0] == CeilDiv(lasers, targets);
  }

  /** `UseMiningLasers`. Each outcome happens exactly under its condition,
      checked in the source's order. */
  method UseMiningLasers(ctx: LaserContext, tick: Tick) returns (r: LaserPass)
    requires ValidDraws(ctx)
    // Nothing happens on the early exits.
    ensures r.outcome in {Fault, NoUsableRange, NoTargetInRange} ==> r.commands == [] && r.tick == tick
    ensures r.outcome == Fault <==>
              || LowestMaximumLaserRange(ctx.lasers).None?
              || (&& LowestMaximumLaserRange(ctx.lasers).value != 0.0
                  && AnyInRange(ctx, LowestMaximumLaserRange(ctx.lasers).value)
                  && !ShortCycleFires(ctx, tick)
                  && !DistinctIds(PassChosen(ctx)))
    ensures r.outcome == NoUsableRange <==> LowestMaximumLaserRange(ctx.lasers) == Some(0.0)
    ensures r.outcome == NoTargetInRange <==>
              && LowestMaximumLaserRange(ctx.lasers).Some?
              && LowestMaximumLaserRange(ctx.lasers).value != 0.0
              && forall e :: e in ctx.miningTargets ==> e.distance > LowestMaximumLaserRange(ctx.lasers).value
    // A short cycle deactivates every laser, clears the timer and ends the pass.
    ensures r.outcome == ShortCycled <==>
              && LowestMaximumLaserRange(ctx.lasers).Some?
              && LowestMaximumLaserRange(ctx.lasers).value != 0.0
              && AnyInRange(ctx, LowestMaximumLaserRange(ctx.lasers).value)
              && ShortCycleFires(ctx, tick)
    ensures r.outcome == ShortCycled ==>
              r.commands == [DeactivateAll(Lasers)] && r.tick == tick.(nextShortCycle := None)
    // Otherwise the decision loop runs; it ends in a crystal swap at the
    // first laser that needs one, or fires.
    ensures r.outcome == Fired || r.outcome.CrystalSwap? <==> ReachesLoop(ctx, tick)
    ensures r.outcome.CrystalSwap? ==>
              && ReachesLoop(ctx, tick) && r.outcome.laser < |ctx.lasers|
              && LaserSwaps(ctx, tick, r.outcome.laser)
              && forall j :: 0 <= j < r.outcome.laser ==> !LaserSwaps(ctx, tick, j)
    ensures r.outcome == Fired ==>
              && ReachesLoop(ctx, tick)
              && (forall j :: 0 <= j < |ctx.lasers| ==> !LaserSwaps(ctx, tick, j))
              && (forall j :: 0 <= j < |ctx.lasers| ==>
                    (Activate(Lasers, j, ctx.activeTargetId) in r.commands <==> LaserQueues(ctx, tick, j)))
              && r.tick.capacitor == tick.capacitor - PassReserved(ctx, tick, |ctx.lasers|)
    ensures r.outcome == Fired || r.outcome.CrystalSwap? ==> PassSound(ctx, tick, r)
    ensures forall c :: c in r.commands ==> LaserCommand(c)
  {
    var lowest := LowestMaximumLaserRange(ctx.lasers);
    if lowest.None? {
      return LaserPass(Fault, [], tick);
    }
    if lowest.value == 0.0 {
      return LaserPass(NoUsableRange, [], tick);
    }
    var chosen := ChosenTargets(ctx, lowest.value);
    ChosenWhenInRange(ctx, lowest.value);
    if |chosen| == 0 {
      return LaserPass(NoTargetInRange, [], tick);
    }
    if ctx.config.shortCycle {
      var sc := ShortCycleLasers(tick.nextShortCycle, ctx.now, ctx.shipCapacitor, ctx.lasers, ctx.floor);
      if sc.fired {
        return LaserPass(ShortCycled, sc.commands, tick.(nextShortCycle := sc.next));
      }
    }
    if !DistinctIds(chosen) {
      // The source's dictionary insert throws on a repeated id.
      return LaserPass(Fault, [], tick);
    }
    r := DecideAndFire(ctx, tick);
  }

  /** The part of `UseMiningLasers` after the early exits: count, decide
      for every laser, then fire the queued ones unless a crystal swap ended
      the pass. */
  method DecideAndFire(ctx: LaserContext, tick: Tick) returns (r: LaserPass)
    requires ValidDraws(ctx) && ReachesLoop(ctx, tick)
    ensures r.outcome == Fired || r.outcome.CrystalSwap?
    ensures r.outcome.CrystalSwap? ==>
              && r.outcome.laser < |ctx.lasers|
              && LaserSwaps(ctx, tick, r.outcome.laser)
              && forall j :: 0 <= j < r.outcome.laser ==> !LaserSwaps(ctx, tick, j)
    ensures r.outcome == Fired ==>
              && (forall j :: 0 <= j < |ctx.lasers| ==> !LaserSwaps(ctx, tick, j))
              && (forall j :: 0 <= j < |ctx.lasers| ==>
                    (Activate(Lasers, j, ctx.activeTargetId) in r.commands <==> LaserQueues(ctx, tick, j)))
              && r.tick.capacitor == tick.capacitor - PassReserved(ctx, tick, |ctx.lasers|)
    ensures PassSound(ctx, tick, r)
    ensures forall c :: c in r.commands ==> LaserCommand(c)
  {
    var range := LowestMaximumLaserRange(ctx.lasers).value;
    var chosen := ChosenTargets(ctx, range);
    ChosenWhenInRange(ctx, range);
    var active, intended := DetermineModuleCounts(chosen, ctx.lasers);
    // The source returns here when the intended counts add up to 0; they never do.
    IntendedSumPositive(|ctx.lasers|, |chosen|);
    var st := ScanLasers(ctx, chosen, active, intended, tick.capacitor, tick.changed);
    if st.swapped.Some? {
      r := SwapPass(ctx, tick, chosen, range, st);
    } else {
      r := FirePass(ctx, tick, chosen, range, st);
    }
  }

  function Sum(s: seq<nat>): nat {
    if |s| == 0 then 0 else s[0] + Sum(s[1..])
  }
}

=== FILE: ordering.dfy ===
/** Stable ordering by a composite key.

    A chain `OrderBy(k0).ThenBy(k1)...` of LINQ clauses is a stable sort by
    the lexicographic order of the key tuple `[k0, k1, ...]`; a descending
    clause is an ascending one on the negated key. This module defines that
    order once, a stable insertion sort over it, and proves the sort returns
    a sorted, stable permutation of its input. */
module Ordering {

  /** Lexicographic "less than or equal" on key tuples. */
  predicate LexLe(a: seq<real>, b: seq<real>)
    decreases |a|
  {
    if |a| == 0 then true
    else if |b| == 0 then false
    else a[0] < b[0] || (a[0] == b[0] && LexLe(a[1..], b[1..]))
  }

  lemma {:induction false} LexReflexive(a: seq<real>)
    ensures LexLe(a, a)
    decreases |a|
  {
    if |a| > 0 {
      LexReflexive(a[1..]);
    }
  }

  lemma {:induction false} LexTotal(a: seq<real>, b: seq<real>)
    ensures LexLe(a, b) || LexLe(b, a)
    decreases |a|
  {
    if |a| > 0 && |b| > 0 && a[0] == b[0] {
      LexTotal(a[1..], b[1..]);
    }
  }

  lemma {:induction false} LexTransitive(a: seq<real>, b: seq<real>, c: seq<real>)
    requires LexLe(a, b) && LexLe(b, c)
    ensures LexLe(a, c)
    decreases |a|
  {
    if |a| > 0 && |b| > 0 && |c| > 0 && a[0] == b[0] && b[0] == c[0] {
      LexTransitive(a[1..], b[1..], c[1..]);
    }
  }

  lemma {:induction false} LexAntisymmetric(a: seq<real>, b: seq<real>)
    requires LexLe(a, b) && LexLe(b, a)
    requires |a| == |b|
    ensures a == b
    decreases |a|
  {
    if |a| > 0 {
      LexAntisymmetric(a[1..], b[1..]);
      assert a == [a[0]] + a[1..] && b == [b[0]] + b[1..];
    }
  }

  /** An item decorated with its sort key and its position in the input. */
  datatype Keyed<T> = Keyed(key: seq<real>, rank: nat, item: T)

  ghost predicate Sorted<T>(s: seq<Keyed<T>>) {
    forall i, j :: 0 <= i < j < |s| ==> LexLe(s[i].key, s[j].key)
  }

  /** Items with equal keys keep their input order. */
  ghost predicate Stable<T>(s: seq<Keyed<T>>) {
    forall i, j :: 0 <= i < j < |s| && s[i].key == s[j].key ==> s[i].rank < s[j].rank
  }

  ghost predicate RanksIncreasing<T>(s: seq<Keyed<T>>) {
    forall i, j :: 0 <= i < j < |s| ==> s[i].rank < s[j].rank
  }

  /** Insert `x` in front of the first element whose key is not smaller. */
  function Insert<T>(x: Keyed<T>, s: seq<Keyed<T>>): (r: seq<Keyed<T>>)
    ensures multiset(r) == multiset(s) + multiset{x}
    ensures |r| == |s| + 1
  {
    if |s| == 0 then [x]
    else if LexLe(x.key, s[0].key) then [x] + s
    else
      assert s == [s[0]] + s[1..];
      [s[0]] + Insert(x, s[1..])
  }

  /** Insertion sort; the recursion processes the input from the back, so an
      earlier element is inserted in front of every equal-keyed later one. */
  function SortByKey<T>(s: seq<Keyed<T>>): (r: seq<Keyed<T>>)
    ensures multiset(r) == multiset(s)
    ensures |r| == |s|
  {
    if |s| == 0 then []
    else
      assert s == [s[0]] + s[1..];
      Insert(s[0], SortByKey(s[1..]))
  }

  lemma {:induction false} InsertSorted<T>(x: Keyed<T>, s: seq<Keyed<T>>)
    requires Sorted(s)
    ensures Sorted(Insert(x, s))
    decreases |s|
  {
    if |s| == 0 {
    } else if LexLe(x.key, s[0].key) {
      var r := [x] + s;
      forall i, j | 0 <= i < j < |r|
        ensures LexLe(r[i].key, r[j].key)
      {
        if i == 0 {
          if j > 1 {
            LexTransitive(x.key, s[0].key, s[j - 1].key);
          }
        }
      }
    } else {
      LexTotal(x.key, s[0].key);
      var tail := Insert(x, s[1..]);
      InsertSorted(x, s[1..]);
      var r := [s[0]] + tail;
      forall i, j | 0 <= i < j < |r|
        ensures LexLe(r[i].key, r[j].key)
      {
        if i == 0 {
          var e := r[j];
          assert e in multiset(tail);
          assert e in multiset(s[1..]) || e == x;
          if e != x {
            var k :| 0 <= k < |s[1..]| && s[1..][k] == e;
            assert s[k + 1] == e;
          }
        }
      }
    }
  }

  lemma {:induction false} InsertStable<T>(x: Keyed<T>, s: seq<Keyed<T>>)
    requires Stable(s)
    requires forall e :: e in s ==> x.rank < e.rank
    ensures Stable(Insert(x, s))
    decreases |s|
  {
    if |s| == 0 {
    } else if LexLe(x.key, s[0].key) {
    } else {
      LexReflexive(x.key);
      var tail := Insert(x, s[1..]);
      InsertStable(x, s[1..]);
      var r := [s[0]] + tail;
      forall i, j | 0 <= i < j < |r| && r[i].key == r[j].key
        ensures r[i].rank < r[j].rank
      {
        if i == 0 {
          var e := r[j];
          assert e in multiset(tail);
          assert e in multiset(s[1..]) || e == x;
          if e != x {
            var k :| 0 <= k < |s[1..]| && s[1..][k] == e;
            assert s[k + 1] == e;
          }
        }
      }
    }
  }

  lemma {:induction false} SortSorted<T>(s: seq<Keyed<T>>)
    ensures Sorted(SortByKey(s))
    decreases |s|
  {
    if |s| > 0 {
      SortSorted(s[1..]);
      InsertSorted(s[0], SortByKey(s[1..]));
    }
  }

  lemma {:induction false} SortStable<T>(s: seq<Keyed<T>>)
    requires RanksIncreasing(s)
    ensures Stable(SortByKey(s))
    decreases |s|
  {
    if |s| > 0 {
      var tail := SortByKey(s[1..]);
      SortStable(s[1..]);
      forall e | e in tail
        ensures s[0].rank < e.rank
      {
        assert e in multiset(tail);
        assert e in multiset(s[1..]);
        var k :| 0 <= k < |s[1..]| && s[1..][k] == e;
        assert s[k + 1] == e;
      }
      InsertStable(s[0], tail);
    }
  }

  /** Decorate every item with its key and its input position. */
  function Decorate<T>(items: seq<T>, key: T -> seq<real>): (r: seq<Keyed<T>>)
    ensures |r| == |items|
    ensures forall i :: 0 <= i < |items| ==> r[i] == Keyed(key(items[i]), i, items[i])
  {
    seq(|items|, i requires 0 <= i < |items| => Keyed(key(items[i]), i, items[i]))
  }

  /** The model of `items.OrderBy(...).ThenBy(...)`: every input item appears
      exactly once, tagged with its input position; the keys are in ascending
      lexicographic order; equal keys keep their input order. */
  function OrderBy<T>(items: seq<T>, key: T -> seq<real>): (r: seq<Keyed<T>>)
    ensures |r| == |items|
    ensures forall k :: 0 <= k < |items| ==> Keyed(key(items[k]), k, items[k]) in r
    ensures forall e :: e in r ==> e.rank < |items| && e == Keyed(key(items[e.rank]), e.rank, items[e.rank])
    ensures forall i, j :: 0 <= i < j < |r| ==> r[i].rank != r[j].rank
    ensures Sorted(r)
    ensures Stable(r)
  {
    var d := Decorate(items, key);
    var r := SortByKey(d);
    SortSorted(d);
    SortStable(d);
    forall k | 0 <= k < |items|
      ensures Keyed(key(items[k]), k, items[k]) in r
    {
      assert d[k] in multiset(d);
    }
    forall e | e in r
      ensures e.rank < |items| && e == Keyed(key(items[e.rank]), e.rank, items[e.rank])
    {
      assert e in multiset(d);
    }
    forall i, j | 0 <= i < j < |r|
      ensures r[i].rank != r[j].rank
    {
      DistinctInMultiset(d, r, i, j);
    }
    r
  }

  /** Every item of the input has a row in the ordered list. */
  lemma OrderByHolds<T>(items: seq<T>, key: T -> seq<real>, x: T)
    requires x in items
    ensures exists i :: 0 <= i < |OrderBy(items, key)| && OrderBy(items, key)[i].item == x
  {
    var r := OrderBy(items, key);
    var n :| 0 <= n < |items| && items[n] == x;
    assert Keyed(key(items[n]), n, items[n]) in r;
    var i :| 0 <= i < |r| && r[i] == Keyed(key(items[n]), n, items[n]);
  }

  /** Every row of the ordered list carries the input item at its rank, under
      that item's key. */
  lemma OrderByItems<T>(items: seq<T>, key: T -> seq<real>)
    ensures var r := OrderBy(items, key);
            forall i :: 0 <= i < |r| ==>
              && r[i].rank < |items| && r[i].item == items[r[i].rank]
              && r[i].item in items && r[i].key == key(r[i].item)
  {
    var r := OrderBy(items, key);
    forall i | 0 <= i < |r|
      ensures r[i].rank < |items| && r[i].item == items[r[i].rank] && r[i].key == key(r[i].item)
    {
      assert r[i] in r;
    }
  }

  /** A sequence with strictly increasing ranks holds each value at most once. */
  lemma {:induction false} AtMostOnce<T>(d: seq<Keyed<T>>, x: Keyed<T>)
    requires RanksIncreasing(d)
    ensures multiset(d)[x] <= 1
    decreases |d|
  {
    if |d| > 0 {
      assert d == [d[0]] + d[1..];
      AtMostOnce(d[1..], x);
      if x == d[0] {
        assert x !in d[1..];
      }
    }
  }

  /** Two positions of a permutation of a duplicate-free sequence hold different values. */
  lemma DistinctInMultiset<T>(d: seq<Keyed<T>>, r: seq<Keyed<T>>, i: nat, j: nat)
    requires multiset(r) == multiset(d)
    requires RanksIncreasing(d)
    requires i < j < |r|
    ensures r[i] != r[j]
  {
    var x := r[i];
    AtMostOnce(d, x);
    assert r == r[..j] + r[j..];
    assert x in r[..j];
    assert r[j] in r[j..];
    assert multiset(r)[x] == multiset(r[..j])[x] + multiset(r[j..])[x];
  }

  /** The items of an ordered list, keys and positions dropped. */
  function Items<T>(r: seq<Keyed<T>>): (items: seq<T>)
    ensures |items| == |r|
    ensures forall i :: 0 <= i < |r| ==> items[i] == r[i].item
  {
    seq(|r|, i requires 0 <= i < |r| => r[i].item)
  }

  /** The input positions of the rows, in row order. */
  function Ranks<T>(r: seq<Keyed<T>>): (ranks: seq<nat>)
    ensures |ranks| == |r|
    ensures forall i :: 0 <= i < |r| ==> ranks[i] == r[i].rank
  {
    seq(|r|, i requires 0 <= i < |r| => r[i].rank)
  }

  /** Rows that are a permutation of each other carry a permutation of
      each other's items. */
  lemma {:induction false} ItemsPermute<T>(a: seq<Keyed<T>>, b: seq<Keyed<T>>)
    requires multiset(a) == multiset(b)
    ensures multiset(Items(a)) == multiset(Items(b))
    decreases |a|
  {
    if |a| == 0 {
      assert |b| == |multiset(b)| == 0;
      assert Items(a) == Items(b) == [];
    } else {
      var x := a[0];
      assert x in multiset(b);
      var k :| 0 <= k < |b| && b[k] == x;
      var rest := b[..k] + b[k + 1..];
      assert b == b[..k] + [x] + b[k + 1..];
      assert a == [x] + a[1..];
      assert multiset(b) == multiset(rest) + multiset{x};
      assert multiset(a) == multiset(a[1..]) + multiset{x};
      assert multiset(rest) == multiset(b) - multiset{x};
      assert multiset(a[1..]) == multiset(a) - multiset{x};
      ItemsPermute(a[1..], rest);
      ItemsAppend([x], a[1..]);
      ItemsAppend(b[..k] + [x], b[k + 1..]);
      ItemsAppend(b[..k], [x]);
      ItemsAppend(b[..k], b[k + 1..]);
    }
  }

  /** `Items` distributes over concatenation. */
  lemma ItemsAppend<T>(a: seq<Keyed<T>>, b: seq<Keyed<T>>)
    ensures Items(a + b) == Items(a) + Items(b)
  {
  }

  /** Ordering permutes the items. */
  lemma OrderByPermutes<T>(items: seq<T>, key: T -> seq<real>)
    ensures multiset(Items(OrderBy(items, key))) == multiset(items)
  {
    var d := Decorate(items, key);
    assert OrderBy(items, key) == SortByKey(d);
    ItemsPermute(SortByKey(d), d);
    assert Items(d) == items;
  }
}

=== FILE: pulse.dfy ===
/** One scheduler tick (`Pulse`): the guards that skip the tick, the warp
    guard, the handling of the active queue entry (abandoning an
    out-of-range asteroid, or looting the active wreck), then mining
    (`MineTargets`: drones, then lasers) and the salvage phases, threading
    the frame's change flag through all of them. */
module Pulse {
  import opened Base
  import opened World
  import opened TargetLists
  import opened CapacitorGate
  import opened MiningLasers
  import opened MiningDrones
  import opened SalvageManagement

  /** The configuration one tick reads. */
  datatype PulseConfig = PulseConfig(
    useMiningDrones: bool,
    isIceMining: bool,
    lasers: LaserConfig,
    distributeSalvagers: bool,
    lootActivate: int,            // Ranges.LootActivate, metres
    minimumCapPct: int)

  /** The tick-start snapshot and the collaborators' answers. */
  datatype Snapshot = Snapshot(
    shouldPulse: bool,
    inSpace: bool,
    inStation: bool,
    warping: bool,                          // moving, and the movement is a warp
    shouldWait: bool,                       // the random-wait draw
    activeTargetId: int,
    shipCapacitor: real,
    ship: ShipReadings,
    entities: seq<Entity>,                  // EntityWrappersById
    queue: seq<QueueEntry>,
    activeQueueTarget: Option<QueueEntry>,  // GetActiveQueueTarget
    approachingId: Option<int>,             // the entity the ship approaches, if any
    maximumMiningRange: real,
    cargoWindowOpen: bool,                  // a cargo window is open for the active queue entry
    lockedTractorTargets: seq<Entity>,
    tractorInputs: TractorOrderInputs,
    lasers: seq<Module>,
    tractors: seq<Module>,
    salvagers: seq<Module>,
    drones: DroneState,
    droneControlDistance: real,
    canChangeGate: bool,
    crystalSwaps: set<(nat, int)>,
    now: real,
    magnitudeDraw: int,
    signDraw: int)

  /** How a tick ends. `Faulted` is an exception escaping the tick: the
      commands issued before it stand. */
  datatype PulseOutcome = NotDue | Docked | Warping | Waiting | NoActiveTarget | Faulted | Done

  datatype PulseResult = PulseResult(outcome: PulseOutcome, commands: seq<Command>, tick: Tick)

  /** The active target changes at most once over `cmds`, not at all when
      the frame already changed it, and the flag afterwards records whether
      it did. */
  predicate OneChange(before: bool, cmds: seq<Command>, after: bool) {
    && |Changes(cmds)| <= 1
    && (before ==> Changes(cmds) == [])
    && after == (before || Changes(cmds) != [])
  }

  /** Two steps that each keep the once-per-frame rule keep it together. */
  lemma OneChangeThen(b0: bool, c1: seq<Command>, b1: bool, c2: seq<Command>, b2: bool)
    requires OneChange(b0, c1, b1) && OneChange(b1, c2, b2)
    ensures OneChange(b0, c1 + c2, b2)
  {
    ChangesAppend(c1, c2);
  }

  /** A step that never requests a change keeps the rule trivially. */
  lemma NoChangeStep(b: bool, cmds: seq<Command>)
    requires forall c :: c in cmds ==> !c.ChangeTarget?
    ensures OneChange(b, cmds, b)
  {
    NoChangesWithout(cmds);
  }

  /** A single command requests a change exactly when it is one. */
  lemma ChangesOfOne(c: Command)
    ensures Changes([c]) == if c.ChangeTarget? then [c] else []
  {
    ChangesSnoc([], c);
    assert [] + [c] == [c];
  }

  /** The tick gets past the guards that skip it without touching anything. */
  predicate Engages(snap: Snapshot) {
    && snap.shouldPulse && snap.inSpace && !snap.inStation
    && !snap.warping && !snap.shouldWait && snap.activeTargetId > 0
  }

  /** The commands of the warp guard: lasers and salvagers off, and the
      drones recalled when mining drones are in use and some are out. */
  function WarpCommands(cfg: PulseConfig, snap: Snapshot): (r: seq<Command>)
    ensures DeactivateAll(Lasers) in r && DeactivateAll(Salvagers) in r
    ensures RecallDrones in r <==> cfg.useMiningDrones && snap.drones.dronesInSpace > 0
    // Tractor beams are left running; nothing is activated or retargeted.
    ensures forall c :: c in r ==> (c.DeactivateAll? && c.group != Tractors) || c == RecallDrones
  {
    [DeactivateAll(Lasers), DeactivateAll(Salvagers)]
    + (if cfg.useMiningDrones && snap.drones.dronesInSpace > 0 then [RecallDrones] else [])
  }

  /** The queue without the entries of one id. */
  function WithoutId(queue: seq<QueueEntry>, id: int): (r: seq<QueueEntry>)
    ensures forall q :: q in r <==> q in queue && q.id != id
    ensures |r| <= |queue|
  {
    if |queue| == 0 then []
    else (if queue[0].id == id then [] else [queue[0]]) + WithoutId(queue[1..], id)
  }

  /** The switch on the active queue entry runs: there is one and the frame
      has not changed the active target yet. */
  predicate Handles(snap: Snapshot, changed: bool) {
    snap.activeQueueTarget.Some? && !changed
  }

  /** A live mining entry beyond the maximum mining range that the ship is
      not approaching. */
  predicate OutOfMiningRange(snap: Snapshot, q: QueueEntry) {
    && q.targetType == Mine
    && Lookup(snap.entities, q.id).Some?
    && Lookup(snap.entities, q.id).value.distance > snap.maximumMiningRange
    && snap.approachingId != Some(q.id)
  }

  /** The switch throws: its entry is a mining or salvage entry whose id is
      not live. */
  predicate QueueLookupFails(snap: Snapshot, changed: bool) {
    && Handles(snap, changed)
    && snap.activeQueueTarget.value.targetType in {Mine, LootSalvage}
    && !HasId(snap.entities, snap.activeQueueTarget.value.id)
  }

  /** The switch abandons its mining entry. */
  predicate Abandons(snap: Snapshot, changed: bool) {
    Handles(snap, changed) && OutOfMiningRange(snap, snap.activeQueueTarget.value)
  }

  /** A module command: the tick switched a module on or off. */
  predicate SwitchesModule(c: Command) {
    c.Activate? || c.Deactivate? || c.DeactivateAll?
  }

  /** What the switch leaves for the rest of the tick. */
  datatype Prelude = Prelude(commands: seq<Command>, queue: seq<QueueEntry>, changed: bool)

  /** The switch on the active queue entry. `None` when it throws. */
  function HandleQueueTarget(cfg: PulseConfig, snap: Snapshot, changed: bool): (r: Option<Prelude>)
    ensures r.None? <==> QueueLookupFails(snap, changed)
    ensures r.Some? ==> OneChange(changed, r.value.commands, r.value.changed)
    // An abandoned entry is dequeued and the active target unlocked; the
    // rest of the tick no longer sees the entry.
    ensures r.Some? && Abandons(snap, changed) ==>
              r.value.commands == [Dequeue(snap.activeQueueTarget.value.id), Unlock(snap.activeTargetId)]
    ensures r.Some? ==>
              forall q :: q in r.value.queue <==>
                q in snap.queue && !(Abandons(snap, changed) && q.id == snap.activeQueueTarget.value.id)
    // Otherwise it only loots and reconsiders the active target.
    ensures r.Some? && !Abandons(snap, changed) ==>
              forall c :: c in r.value.commands ==> c.Open? || c.LootAll? || c.ChangeTarget?
  {
    if snap.activeQueueTarget.None? || changed then Some(Prelude([], snap.queue, changed))
    else
      var q := snap.activeQueueTarget.value;
      match q.targetType
      case Mine =>
        (match Lookup(snap.entities, q.id)
         case None => None
         case Some(e) =>
           if e.distance > snap.maximumMiningRange && snap.approachingId != Some(q.id) then
             NoChangeStep(changed, [Dequeue(q.id), Unlock(snap.activeTargetId)]);
             Some(Prelude([Dequeue(q.id), Unlock(snap.activeTargetId)], WithoutId(snap.queue, q.id), changed))
           else Some(Prelude([], snap.queue, changed)))
      case LootSalvage =>
        var sorted := GetSortedTractorTargets(snap.lockedTractorTargets, snap.queue, snap.tractorInputs);
        (match TractorTarget(q.id, snap.entities, snap.cargoWindowOpen, sorted, snap.tractors, cfg.lootActivate,
                             snap.canChangeGate, changed)
         case None => None
         case Some(step) =>
           LootStepOneChange(q.id, snap.entities, snap.cargoWindowOpen, sorted, snap.tractors, cfg.lootActivate,
                             snap.canChangeGate, changed);
           Some(Prelude(step.commands, snap.queue, step.changed)))
      case _ => Some(Prelude([], snap.queue, changed))
  }

  /** Looting the active wreck changes the active target at most once, only
      when the frame has not, and issues nothing but looting and that change. */
  lemma LootStepOneChange(queueId: int, entities: seq<Entity>, windowOpen: bool, sorted: seq<Entity>,
                          tractors: seq<Module>, lootActivate: int, gate: bool, changed: bool)
    requires HasId(entities, queueId)
    ensures var r := TractorTarget(queueId, entities, windowOpen, sorted, tractors, lootActivate, gate, changed);
            && r.Some?
            && OneChange(changed, r.value.commands, r.value.changed)
            && forall c :: c in r.value.commands ==> c.Open? || c.LootAll? || c.ChangeTarget?
  {
    var r := TractorTarget(queueId, entities, windowOpen, sorted, tractors, lootActivate, gate, changed);
    var cmds := r.value.commands;
    var change := ChangeSalvageTarget(queueId, sorted, tractors, entities, lootActivate as real, gate, changed);
    assert Changes(cmds) == change;
    forall c | c in cmds
      ensures c.Open? || c.LootAll? || c.ChangeTarget?
    {
      var i :| 0 <= i < |cmds| && cmds[i] == c;
    }
  }

  /** A drone decision keeps the once-per-frame rule and issues only drone
      commands and change requests. */
  lemma DronesOneChange(ctx: DroneContext, miningTargets: seq<Entity>, changed: bool)
    ensures var r := UseMiningDrones(ctx, miningTargets, changed);
            && OneChange(changed, r.commands, r.changed)
            && forall c :: c in r.commands ==> c == LaunchDrones || c == SendDrones || c.ChangeTarget?
  {
    var r := UseMiningDrones(ctx, miningTargets, changed);
    if r.commands != [] {
      assert r.commands == [r.commands[0]];
      ChangesOfOne(r.commands[0]);
    }
  }

  /** The capacitor floor the lasers keep above. */
  function Floor(cfg: PulseConfig, snap: Snapshot): real {
    MinimumCapacitor(snap.ship, cfg.minimumCapPct)
  }

  function DroneCtx(cfg: PulseConfig, snap: Snapshot): DroneContext {
    DroneContext(cfg.useMiningDrones, cfg.isIceMining, snap.drones, snap.droneControlDistance,
                 snap.activeTargetId, snap.canChangeGate)
  }

  function LaserCtx(cfg: PulseConfig, snap: Snapshot, miningTargets: seq<Entity>): LaserContext {
    LaserContext(miningTargets, snap.lasers, cfg.lasers, snap.activeTargetId, snap.canChangeGate,
                 snap.crystalSwaps, Floor(cfg, snap), snap.shipCapacitor, snap.now,
                 snap.magnitudeDraw, snap.signDraw)
  }

  function SalvageCtx(cfg: PulseConfig, snap: Snapshot): SalvageContext {
    SalvageContext(snap.entities, snap.tractors, snap.salvagers, cfg.lootActivate, cfg.distributeSalvagers,
                   snap.activeTargetId, snap.canChangeGate)
  }

  /** The laser pass's exits that issue nothing. */
  predicate QuietLaserExit(o: LaserOutcome) {
    o in {LaserOutcome.Fault, LaserOutcome.NoUsableRange, LaserOutcome.NoTargetInRange}
  }

  /** What any laser pass leaves behind: the once-per-frame rule, a
      capacitor reading that is untouched or above the floor, and laser
      activations only on the active target while it is in range. */
  lemma LaserPassKeeps(ctx: LaserContext, tick: Tick, lp: LaserPass)
    requires ValidDraws(ctx)
    requires QuietLaserExit(lp.outcome) ==> lp.commands == [] && lp.tick == tick
    requires lp.outcome == ShortCycled ==>
               lp.commands == [DeactivateAll(Lasers)] && lp.tick == tick.(nextShortCycle := None)
    requires !QuietLaserExit(lp.outcome) && lp.outcome != ShortCycled ==> PassSound(ctx, tick, lp)
    ensures OneChange(tick.changed, lp.commands, lp.tick.changed)
    ensures lp.tick.capacitor == tick.capacitor || lp.tick.capacitor > ctx.floor
    ensures forall c :: c in lp.commands && c.Activate? ==>
              c.group == Lasers && c.target == ctx.activeTargetId && ActiveTargetInRange(ctx)
  {
    if QuietLaserExit(lp.outcome) || lp.outcome == ShortCycled {
      NoChangeStep(tick.changed, lp.commands);
    }
  }

  /** The laser pass as the rest of the tick sees it. */
  method LaserPassFor(ctx: LaserContext, tick: Tick) returns (lp: LaserPass)
    requires ValidDraws(ctx)
    ensures lp.outcome == LaserOutcome.Fault ==> lp.commands == [] && lp.tick == tick
    ensures OneChange(tick.changed, lp.commands, lp.tick.changed)
    ensures lp.tick.capacitor == tick.capacitor || lp.tick.capacitor > ctx.floor
    ensures forall c :: c in lp.commands ==> LaserCommand(c)
    ensures forall c :: c in lp.commands && c.Activate? ==>
              c.group == Lasers && c.target == ctx.activeTargetId && ActiveTargetInRange(ctx)
  {
    lp := UseMiningLasers(ctx, tick);
    LaserPassKeeps(ctx, tick, lp);
  }

  /** The result of `MineTargets`, or where it threw. */
  datatype Mining = Mining(fault: bool, commands: seq<Command>, tick: Tick)

  /** `cmds` is a stretch of `first` commands, its first `k`, followed by a
      stretch of `second` ones. */
  predicate PhasedAt(cmds: seq<Command>, k: int, first: Command -> bool, second: Command -> bool) {
    && 0 <= k <= |cmds|
    && (forall i :: 0 <= i < k ==> first(cmds[i]))
    && (forall i :: k <= i < |cmds| ==> second(cmds[i]))
  }

  lemma PhasedConcat(a: seq<Command>, b: seq<Command>, first: Command -> bool, second: Command -> bool)
    requires forall c :: c in a ==> first(c)
    requires forall c :: c in b ==> second(c)
    ensures PhasedAt(a + b, |a|, first, second)
  {
    forall i | 0 <= i < |a + b|
      ensures i < |a| ==> first((a + b)[i])
      ensures |a| <= i ==> second((a + b)[i])
    {
      if i < |a| {
        assert (a + b)[i] == a[i] && a[i] in a;
      } else {
        assert (a + b)[i] == b[i - |a|] && b[i - |a|] in b;
      }
    }
  }

  /** What the drone decision issues. */
  predicate DroneCommand(c: Command) {
    c == LaunchDrones || c == SendDrones || c.ChangeTarget?
  }

  /** What mining (drones, then lasers) issues. */
  predicate MiningCommand(c: Command) {
    c == LaunchDrones || c == SendDrones || LaserCommand(c)
  }

  /** What the salvage phases issue. */
  predicate SalvageCommand(c: Command) {
    c.Deactivate? || c.ChangeTarget? || (c.Activate? && c.group != Lasers)
  }

  /** What the switch on the active queue entry issues. */
  predicate QueueStepCommand(c: Command) {
    c.Dequeue? || c.Unlock? || c.Open? || c.LootAll? || c.ChangeTarget?
  }

  /** What mining and salvage issue. */
  predicate WorkCommand(c: Command) {
    MiningCommand(c) || SalvageCommand(c)
  }

  /** `MineTargets`: with some mining target, the drone decision then the
      laser pass, over the given mining targets. */
  method MineTargets(cfg: PulseConfig, snap: Snapshot, miningTargets: seq<Entity>, tick: Tick) returns (m: Mining)
    requires 0 <= snap.magnitudeDraw < 15 && 0 <= snap.signDraw < 1
    ensures miningTargets == [] ==> m == Mining(false, [], tick)
    ensures OneChange(tick.changed, m.commands, m.tick.changed)
    ensures m.tick.capacitor == tick.capacitor || m.tick.capacitor > Floor(cfg, snap)
    ensures forall c :: c in m.commands ==>
              c == LaunchDrones || c == SendDrones || LaserCommand(c)
    // Lasers only ever fire on the active target, and only when it is a
    // queued mining target in laser range.
    ensures forall c :: c in m.commands && c.Activate? ==>
              c.group == Lasers && c.target == snap.activeTargetId
              && ActiveTargetInRange(LaserCtx(cfg, snap, miningTargets))
    // An exception in the laser pass comes before any laser command.
    ensures m.fault ==> forall c :: c in m.commands ==> c == LaunchDrones || c == SendDrones || c.ChangeTarget?
    // The drone decision's commands come first, then the laser pass's.
    ensures exists k :: PhasedAt(m.commands, k, DroneCommand, LaserCommand)
  {
    if |miningTargets| == 0 {
      assert PhasedAt([], 0, DroneCommand, LaserCommand);
      return Mining(false, [], tick);
    }
    var dp := UseMiningDrones(DroneCtx(cfg, snap), miningTargets, tick.changed);
    DronesOneChange(DroneCtx(cfg, snap), miningTargets, tick.changed);
    var ctx := LaserCtx(cfg, snap, miningTargets);
    var lp := LaserPassFor(ctx, tick.(changed := dp.changed));
    if lp.outcome == LaserOutcome.Fault {
      PhasedConcat(dp.commands, [], DroneCommand, LaserCommand);
      assert dp.commands + [] == dp.commands;
      return Mining(true, dp.commands, tick.(changed := dp.changed));
    }
    OneChangeThen(tick.changed, dp.commands, dp.changed, lp.commands, lp.tick.changed);
    PhasedConcat(dp.commands, lp.commands, DroneCommand, LaserCommand);
    m := Mining(false, dp.commands + lp.commands, lp.tick);
  }

  /** The queue switch's commands come first: the dequeue and unlock of an
      abandoned entry lead the tick, and nothing after them dequeues or
      unlocks. */
  lemma PreludeFirst(pre: seq<Command>, rest: seq<Command>, abandons: bool, id: int, active: int)
    requires abandons ==> pre == [Dequeue(id), Unlock(active)]
    requires !abandons ==> forall c :: c in pre ==> c.Open? || c.LootAll? || c.ChangeTarget?
    requires forall c :: c in rest ==> !c.Dequeue? && !c.Unlock?
    ensures (exists c :: c in pre + rest && c.Dequeue?) <==> abandons
    ensures abandons ==>
              && |pre + rest| >= 2 && (pre + rest)[..2] == pre
              && forall c :: c in (pre + rest)[2..] ==> !c.Dequeue? && !c.Unlock?
  {
    if abandons {
      assert (pre + rest)[0] == Dequeue(id);
      assert (pre + rest)[2..] == rest;
    } else {
      assert forall c :: c in pre + rest ==> c in pre || c in rest;
    }
  }

  /** Mining commands followed by salvage commands: no dequeue or unlock
      among them, and the laser activations are all mining ones. */
  lemma MiningThenSalvage(mc: seq<Command>, sc: seq<Command>, active: int, inRange: bool)
    requires forall c :: c in mc ==> c == LaunchDrones || c == SendDrones || LaserCommand(c)
    requires forall c :: c in mc && c.Activate? ==> c.group == Lasers && c.target == active && inRange
    requires forall c :: c in sc ==> c.Deactivate? || c.ChangeTarget? || c.Activate?
    requires forall c :: c in sc && c.Activate? ==> (c.group == Tractors || c.group == Salvagers) && c.target == active
    ensures forall c :: c in mc + sc ==> !c.Dequeue? && !c.Unlock?
    ensures forall c :: c in mc + sc && c.Activate? && c.group == Lasers ==> c.target == active && inRange
    ensures forall c :: c in mc + sc && c.Activate? ==> c.target == active
    ensures PhasedAt(mc + sc, |mc|, MiningCommand, SalvageCommand)
  {
    assert forall c :: c in mc + sc ==> c in mc || c in sc;
    PhasedConcat(mc, sc, MiningCommand, SalvageCommand);
  }

  /** What the salvage phase leaves behind, as the rest of the tick sees
      it: the once-per-frame rule, and only tractor and salvager
      activations among releases and change requests. */
  lemma SalvagePhaseKeeps(ctx: SalvageContext, salvageTargets: seq<Entity>, changed: bool)
    ensures var sp := ManageIdleSalvageModules(ctx, salvageTargets, changed);
            && OneChange(changed, sp.commands, sp.changed)
            && (forall c :: c in sp.commands ==> c.Deactivate? || c.ChangeTarget? || c.Activate?)
            && (forall c :: c in sp.commands && c.Activate? ==>
                  (c.group == Tractors || c.group == Salvagers) && c.target == ctx.activeTargetId)
  {
    SalvageActivatesOnActiveTarget(ctx, salvageTargets, changed);
  }

  /** `MineTargets` then `ManageIdleSalvageModules`, over the mining and
      salvage targets of the queue the switch left. */
  method WorkTargets(cfg: PulseConfig, snap: Snapshot, miningTargets: seq<Entity>, salvageTargets: seq<Entity>,
                     tick: Tick) returns (m: Mining)
    requires 0 <= snap.magnitudeDraw < 15 && 0 <= snap.signDraw < 1
    ensures OneChange(tick.changed, m.commands, m.tick.changed)
    ensures m.tick.capacitor == tick.capacitor || m.tick.capacitor > Floor(cfg, snap)
    ensures forall c :: c in m.commands ==> !c.Dequeue? && !c.Unlock?
    ensures m.fault ==> forall c :: c in m.commands ==> !SwitchesModule(c)
    ensures forall c :: c in m.commands && c.Activate? && c.group == Lasers ==>
              c.target == snap.activeTargetId
              && ActiveTargetInRange(LaserCtx(cfg, snap, miningTargets))
    // Every module switched on works the active target.
    ensures forall c :: c in m.commands && c.Activate? ==> c.target == snap.activeTargetId
    // Mining's commands come first, then the salvage phases'.
    ensures exists k :: PhasedAt(m.commands, k, MiningCommand, SalvageCommand)
  {
    m := MineTargets(cfg, snap, miningTargets, tick);
    if m.fault {
      PhasedConcat(m.commands, [], MiningCommand, SalvageCommand);
      assert m.commands + [] == m.commands;
      return;
    }
    var salvage := SalvageCtx(cfg, snap);
    var sp := ManageIdleSalvageModules(salvage, salvageTargets, m.tick.changed);
    SalvagePhaseKeeps(salvage, salvageTargets, m.tick.changed);
    OneChangeThen(tick.changed, m.commands, m.tick.changed, sp.commands, sp.changed);
    MiningThenSalvage(m.commands, sp.commands, snap.activeTargetId,
                      ActiveTargetInRange(LaserCtx(cfg, snap, miningTargets)));
    m := Mining(false, m.commands + sp.commands, m.tick.(changed := sp.changed));
  }

  /** Mining then salvage is work. */
  lemma WorkIsWork(cmds: seq<Command>)
    requires exists k :: PhasedAt(cmds, k, MiningCommand, SalvageCommand)
    ensures forall c :: c in cmds ==> WorkCommand(c)
  {
    var k :| PhasedAt(cmds, k, MiningCommand, SalvageCommand);
    forall c | c in cmds
      ensures WorkCommand(c)
    {
      var i :| 0 <= i < |cmds| && cmds[i] == c;
      if i < k {
        assert MiningCommand(cmds[i]);
      } else {
        assert SalvageCommand(cmds[i]);
      }
    }
  }

  /** The queue switch never switches a module. */
  lemma PreludeSwitchesNothing(pre: seq<Command>, abandons: bool, id: int, active: int)
    requires abandons ==> pre == [Dequeue(id), Unlock(active)]
    requires !abandons ==> forall c :: c in pre ==> c.Open? || c.LootAll? || c.ChangeTarget?
    ensures forall c :: c in pre ==> !SwitchesModule(c) && QueueStepCommand(c)
  {
  }

  /** The tick past its guards, with a live active target. */
  method Engage(cfg: PulseConfig, snap: Snapshot, tick: Tick) returns (r: PulseResult)
    requires Engages(snap) && HasId(snap.entities, snap.activeTargetId)
    requires 0 <= snap.magnitudeDraw < 15 && 0 <= snap.signDraw < 1
    ensures r.outcome == Faulted || r.outcome == Done
    ensures r.tick.capacitor == snap.shipCapacitor || r.tick.capacitor > Floor(cfg, snap)
    ensures QueueLookupFails(snap, tick.changed) ==> r.outcome == Faulted && r.commands == []
    ensures r.outcome == Faulted ==> forall c :: c in r.commands ==> !SwitchesModule(c)
    ensures (exists c :: c in r.commands && c.Dequeue?) <==> Abandons(snap, tick.changed)
    ensures Abandons(snap, tick.changed) ==>
              && |r.commands| >= 2
              && r.commands[..2] == [Dequeue(snap.activeQueueTarget.value.id), Unlock(snap.activeTargetId)]
              && forall c :: c in r.commands[2..] ==> !c.Dequeue? && !c.Unlock?
    ensures Abandons(snap, tick.changed) && snap.activeQueueTarget.value.id == snap.activeTargetId ==>
              forall c :: c in r.commands ==> !(c.Activate? && c.group == Lasers)
    ensures forall c :: c in r.commands && c.Activate? ==> c.target == snap.activeTargetId
    ensures OneChange(tick.changed, r.commands, r.tick.changed)
    // The queue entry's switch (dequeue, or looting) comes before mining and salvage.
    ensures exists k :: PhasedAt(r.commands, k, QueueStepCommand, WorkCommand)
  {
    var t := tick.(capacitor := snap.shipCapacitor);
    var pre := HandleQueueTarget(cfg, snap, tick.changed);
    if pre.None? {
      assert PhasedAt([], 0, QueueStepCommand, WorkCommand);
      return PulseResult(Faulted, [], t);
    }
    var p := pre.value;
    var abandons := Abandons(snap, tick.changed);
    var w := WorkTargets(cfg, snap, GetMiningTargets(p.queue, snap.entities), GetSalvageTargets(p.queue, snap.entities),
                         t.(changed := p.changed));
    OneChangeThen(tick.changed, p.commands, p.changed, w.commands, w.tick.changed);
    if abandons && snap.activeQueueTarget.value.id == snap.activeTargetId {
      AbandonedTargetNotMined(cfg, snap, tick.changed, p.queue);
    }
    PreludeFirst(p.commands, w.commands, abandons, snap.activeQueueTarget.GetOr(QueueEntry(0, Mine, 0, 0, 0)).id,
                 snap.activeTargetId);
    r := PulseResult(if w.fault then Faulted else Done, p.commands + w.commands, w.tick);
    PreludeSwitchesNothing(p.commands, abandons, snap.activeQueueTarget.GetOr(QueueEntry(0, Mine, 0, 0, 0)).id,
                           snap.activeTargetId);
    forall c | c in r.commands && c.Activate?
      ensures c in w.commands
      ensures c.target == snap.activeTargetId
      ensures abandons && snap.activeQueueTarget.value.id == snap.activeTargetId ==> c.group != Lasers
    {
      assert !SwitchesModule(c) ==> c !in p.commands;
    }
    WorkIsWork(w.commands);
    PhasedConcat(p.commands, w.commands, QueueStepCommand, WorkCommand);
    if w.fault {
      forall c | c in r.commands
        ensures !SwitchesModule(c)
      {
        assert c in p.commands || c in w.commands;
      }
    }
  }

  /** `Pulse`. `tick` carries the capacitor reading, the short-cycle timer
      and the frame's change flag in; the result carries them out. */
  method Pulse(cfg: PulseConfig, snap: Snapshot, tick: Tick) returns (r: PulseResult)
    requires 0 <= snap.magnitudeDraw < 15 && 0 <= snap.signDraw < 1
    // The guards, in order; none of them touches anything but the warp guard.
    ensures r.outcome == NotDue <==> !snap.shouldPulse
    ensures r.outcome == Docked <==> snap.shouldPulse && (!snap.inSpace || snap.inStation)
    ensures r.outcome == Warping <==> snap.shouldPulse && snap.inSpace && !snap.inStation && snap.warping
    ensures r.outcome == Waiting <==>
              snap.shouldPulse && snap.inSpace && !snap.inStation && !snap.warping && snap.shouldWait
    ensures r.outcome == NoActiveTarget <==>
              snap.shouldPulse && snap.inSpace && !snap.inStation && !snap.warping && !snap.shouldWait
              && snap.activeTargetId <= 0
    ensures r.outcome in {NotDue, Docked, Waiting, NoActiveTarget} ==> r.commands == [] && r.tick == tick
    ensures r.outcome == Warping ==> r.commands == WarpCommands(cfg, snap) && r.tick == tick
    // Past the guards the tick starts from the ship's capacitor reading.
    ensures Engages(snap) ==>
              r.tick.capacitor == snap.shipCapacitor || r.tick.capacitor > Floor(cfg, snap)
    // Looking up an id that is not live throws before anything is issued.
    ensures Engages(snap) && !HasId(snap.entities, snap.activeTargetId) ==>
              r.outcome == Faulted && r.commands == []
    ensures Engages(snap) && QueueLookupFails(snap, tick.changed) ==> r.outcome == Faulted && r.commands == []
    // An exception stops the tick before any module is switched.
    ensures r.outcome == Faulted ==> forall c :: c in r.commands ==> !SwitchesModule(c)
    // A mining entry out of range and not approached is dequeued, and the
    // active target unlocked, first thing; nothing else dequeues or unlocks.
    ensures (exists c :: c in r.commands && c.Dequeue?) <==>
              Engages(snap) && HasId(snap.entities, snap.activeTargetId) && Abandons(snap, tick.changed)
    ensures Engages(snap) && HasId(snap.entities, snap.activeTargetId) && Abandons(snap, tick.changed) ==>
              && |r.commands| >= 2
              && r.commands[..2] == [Dequeue(snap.activeQueueTarget.value.id), Unlock(snap.activeTargetId)]
              && forall c :: c in r.commands[2..] ==> !c.Dequeue? && !c.Unlock?
    // An abandoned active target gets no laser in the same tick.
    ensures Engages(snap) && Abandons(snap, tick.changed) && snap.activeQueueTarget.value.id == snap.activeTargetId ==>
              forall c :: c in r.commands ==> !(c.Activate? && c.group == Lasers)
    // Every activation, of lasers, tractors or salvagers, is against the active target.
    ensures forall c :: c in r.commands && c.Activate? ==> c.target == snap.activeTargetId
    // Past the guards: the queue entry's switch, then mining, then salvage.
    ensures Engages(snap) && HasId(snap.entities, snap.activeTargetId) ==>
              exists k :: PhasedAt(r.commands, k, QueueStepCommand, WorkCommand)
    // The whole tick changes the active target at most once, and not at all
    // once the frame already changed it.
    ensures OneChange(tick.changed, r.commands, r.tick.changed)
  {
    if !snap.shouldPulse {
      return PulseResult(NotDue, [], tick);
    }
    if !snap.inSpace || snap.inStation {
      return PulseResult(Docked, [], tick);
    }
    if snap.warping {
      NoChangeStep(tick.changed, WarpCommands(cfg, snap));
      return PulseResult(Warping, WarpCommands(cfg, snap), tick);
    }
    if snap.shouldWait {
      return PulseResult(Waiting, [], tick);
    }
    if snap.activeTargetId <= 0 {
      return PulseResult(NoActiveTarget, [], tick);
    }
    if Lookup(snap.entities, snap.activeTargetId).None? {
      return PulseResult(Faulted, [], tick.(capacitor := snap.shipCapacitor));
    }
    r := Engage(cfg, snap, tick);
  }

  /** Once the abandoned entry is gone from the queue, the active target it
      named is not a mining target in laser range. */
  lemma AbandonedTargetNotMined(cfg: PulseConfig, snap: Snapshot, changed: bool, queue: seq<QueueEntry>)
    requires Abandons(snap, changed) && snap.activeQueueTarget.value.id == snap.activeTargetId
    requires forall q :: q in queue ==> q.id != snap.activeTargetId
    ensures !ActiveTargetInRange(LaserCtx(cfg, snap, GetMiningTargets(queue, snap.entities)))
  {
  }
}

=== FILE: salvage.dfy ===
/** Salvage management: the four phases of `ManageIdleSalvageModules`, the
    looting step `TractorTarget` and the active-target switch
    `ChangeSalvageTarget`. */
module SalvageManagement {
  import opened Base
  import opened World
  import opened TargetLists
  import opened TractorPhase
  import opened SalvagerPhase

  /** What the salvage phases read besides the salvage targets. */
  datatype SalvageContext = SalvageContext(
    entities: seq<Entity>,        // EntityWrappersById
    tractors: seq<Module>,
    salvagers: seq<Module>,
    lootActivate: int,            // Ranges.LootActivate, metres
    distributeSalvagers: bool,
    activeTargetId: int,
    canChangeGate: bool)

  function LootRange(ctx: SalvageContext): real {
    ctx.lootActivate as real
  }

  /** An active module whose target left the snapshot. */
  predicate Despawned(m: Module, entities: seq<Entity>) {
    m.isActive && !HasId(entities, m.targetId)
  }

  /** An active module whose live target is within `range`. */
  predicate HoldsWithin(m: Module, entities: seq<Entity>, range: real) {
    m.isActive && Lookup(entities, m.targetId).Some? && Lookup(entities, m.targetId).value.distance <= range
  }

  /** One `Deactivate` per module of `group` that `off` selects, in fitting order. */
  function DeactivateWhere(modules: seq<Module>, group: ModuleGroup, off: Module -> bool): (r: seq<Command>)
    ensures forall c :: c in r <==> c.Deactivate? && c.group == group && c.index < |modules| && off(modules[c.index])
    decreases |modules|
  {
    if |modules| == 0 then []
    else
      var n := |modules| - 1;
      var rest := DeactivateWhere(modules[..n], group, off);
      assert forall j :: 0 <= j < n ==> modules[..n][j] == modules[j];
      rest + (if off(modules[n]) then [Deactivate(group, n)] else [])
  }

  /** Phase 1: turn off the tractors and salvagers whose target despawned. */
  function ReleaseDespawned(ctx: SalvageContext): (r: seq<Command>)
    ensures forall c :: c in r ==> c.Deactivate? && c.group != Lasers
    ensures forall j: nat :: Deactivate(Tractors, j) in r <==>
              j < |ctx.tractors| && Despawned(ctx.tractors[j], ctx.entities)
    ensures forall j: nat :: Deactivate(Salvagers, j) in r <==>
              j < |ctx.salvagers| && Despawned(ctx.salvagers[j], ctx.entities)
  {
    DeactivateWhere(ctx.tractors, Tractors, m => Despawned(m, ctx.entities))
    + DeactivateWhere(ctx.salvagers, Salvagers, m => Despawned(m, ctx.entities))
  }

  /** Phase 2: turn off the tractors whose target is within loot range. */
  function ReleaseInLootRange(ctx: SalvageContext): (r: seq<Command>)
    ensures forall c :: c in r ==> c.Deactivate? && c.group == Tractors
    ensures forall j: nat :: Deactivate(Tractors, j) in r <==>
              j < |ctx.tractors| && HoldsWithin(ctx.tractors[j], ctx.entities, LootRange(ctx))
  {
    DeactivateWhere(ctx.tractors, Tractors, m => HoldsWithin(m, ctx.entities, LootRange(ctx)))
  }

  /** Phases 3 and 4, threading the change flag. */
  function ActivateSalvageModules(ctx: SalvageContext, salvageTargets: seq<Entity>, changed: bool): (r: Phase)
    ensures forall c :: c in r.commands ==> c.ChangeTarget? || c.Activate?
    ensures |Changes(r.commands)| <= 1
    ensures changed ==> Changes(r.commands) == []
    ensures r.changed == (changed || Changes(r.commands) != [])
  {
    var p3 := ActivateTractors(salvageTargets, ctx.tractors, LootRange(ctx), ctx.activeTargetId,
                               ctx.canChangeGate, changed);
    var p4 := ActivateSalvagers(salvageTargets, ctx.salvagers, ctx.distributeSalvagers, ctx.activeTargetId,
                                ctx.canChangeGate, p3.changed);
    ActivateTractorsChanges(salvageTargets, ctx.tractors, LootRange(ctx), ctx.activeTargetId,
                            ctx.canChangeGate, changed);
    ActivateSalvagersShape(salvageTargets, ctx.salvagers, ctx.distributeSalvagers, ctx.activeTargetId,
                           ctx.canChangeGate, p3.changed);
    ActivateSalvagersChanges(salvageTargets, ctx.salvagers, ctx.distributeSalvagers, ctx.activeTargetId,
                             ctx.canChangeGate, p3.changed);
    ChangesAppend(p3.commands, p4.commands);
    Phase(p3.commands + p4.commands, p4.changed)
  }

  /** `ManageIdleSalvageModules` over the queued salvage targets. */
  function ManageIdleSalvageModules(ctx: SalvageContext, salvageTargets: seq<Entity>, changed: bool): (r: Phase)
    // With no salvage target nothing happens at all.
    ensures |salvageTargets| == 0 ==> r == Phase([], changed)
    // A tractor is turned off iff it is active and its target despawned or
    // is within loot range; a salvager iff it is active and its target
    // despawned.
    ensures |salvageTargets| > 0 ==>
              forall j: nat :: Deactivate(Tractors, j) in r.commands <==>
                j < |ctx.tractors|
                && (Despawned(ctx.tractors[j], ctx.entities)
                    || HoldsWithin(ctx.tractors[j], ctx.entities, LootRange(ctx)))
    ensures |salvageTargets| > 0 ==>
              forall j: nat :: Deactivate(Salvagers, j) in r.commands <==>
                j < |ctx.salvagers| && Despawned(ctx.salvagers[j], ctx.entities)
    ensures forall c :: c in r.commands ==> c.Deactivate? || c.ChangeTarget? || c.Activate?
    // Phases 1 and 2 finish before phases 3 and 4 start: every switch-off
    // comes ahead of every change request and activation.
    ensures SwitchOffsFirst(r.commands)
    // At most one change of active target, none once the frame changed it.
    ensures |Changes(r.commands)| <= 1
    ensures changed ==> Changes(r.commands) == []
    ensures r.changed == (changed || Changes(r.commands) != [])
  {
    if |salvageTargets| == 0 then Phase([], changed)
    else
      var released := ReleaseDespawned(ctx) + ReleaseInLootRange(ctx);
      var activated := ActivateSalvageModules(ctx, salvageTargets, changed);
      NoChangesWithout(released);
      ChangesAppend(released, activated.commands);
      DeactivationsFirst(released, activated.commands);
      Phase(released + activated.commands, activated.changed)
  }

  /** Every switch-off comes ahead of every other command. */
  predicate SwitchOffsFirst(cmds: seq<Command>) {
    forall a, b :: 0 <= a < b < |cmds| && cmds[b].Deactivate? ==> cmds[a].Deactivate?
  }

  /** Switch-offs followed by commands that are none. */
  lemma DeactivationsFirst(released: seq<Command>, rest: seq<Command>)
    requires forall c :: c in released ==> c.Deactivate?
    requires forall c :: c in rest ==> !c.Deactivate?
    ensures SwitchOffsFirst(released + rest)
  {
    forall a, b | 0 <= a < b < |released + rest| && (released + rest)[b].Deactivate?
      ensures (released + rest)[a].Deactivate?
    {
      if b < |released| {
        assert released[a] in released;
      }
    }
  }

  /** The salvage pass as its four phases in order. */
  lemma SalvagePhasesInOrder(ctx: SalvageContext, salvageTargets: seq<Entity>, changed: bool)
    requires |salvageTargets| > 0
    ensures ManageIdleSalvageModules(ctx, salvageTargets, changed).commands
              == Released(ctx) + (TractorStep(ctx, salvageTargets, changed).commands
                                  + SalvagerStep(ctx, salvageTargets, changed).commands)
  {
  }

  /** Phases 1 and 2. */
  function Released(ctx: SalvageContext): seq<Command> {
    ReleaseDespawned(ctx) + ReleaseInLootRange(ctx)
  }

  /** Phase 3 of the pass. */
  function TractorStep(ctx: SalvageContext, salvageTargets: seq<Entity>, changed: bool): Phase {
    ActivateTractors(salvageTargets, ctx.tractors, LootRange(ctx), ctx.activeTargetId, ctx.canChangeGate, changed)
  }

  /** Phase 4 of the pass, run after phase 3 has threaded the change flag. */
  function SalvagerStep(ctx: SalvageContext, salvageTargets: seq<Entity>, changed: bool): Phase {
    ActivateSalvagers(salvageTargets, ctx.salvagers, ctx.distributeSalvagers, ctx.activeTargetId,
                      ctx.canChangeGate, TractorStep(ctx, salvageTargets, changed).changed)
  }

  /** Every switch-on in `cmds` is of a module of `group`. */
  predicate OnlyActivates(cmds: seq<Command>, group: ModuleGroup) {
    forall c :: c in cmds && c.Activate? ==> c.group == group
  }

  /** Phases 1 and 2 switch nothing on. */
  lemma ReleasedActivatesNothing(ctx: SalvageContext)
    ensures forall c :: c in Released(ctx) ==> !c.Activate?
  {
  }

  /** Phase 3 switches on tractors only. */
  lemma TractorStepActivates(ctx: SalvageContext, salvageTargets: seq<Entity>, changed: bool)
    ensures OnlyActivates(TractorStep(ctx, salvageTargets, changed).commands, Tractors)
  {
  }

  /** Phase 4 switches on salvagers only. */
  lemma SalvagerStepActivates(ctx: SalvageContext, salvageTargets: seq<Entity>, changed: bool)
    ensures OnlyActivates(SalvagerStep(ctx, salvageTargets, changed).commands, Salvagers)
  {
    SalvagersActivateOnActiveTarget(salvageTargets, ctx.salvagers, ctx.distributeSalvagers, ctx.activeTargetId,
                                    ctx.canChangeGate, TractorStep(ctx, salvageTargets, changed).changed);
  }

  /** A switch-on of a module of `group`. */
  predicate IsActivationOf(c: Command, group: ModuleGroup) {
    c.Activate? && c.group == group
  }

  /** No two commands of `cmds` switch on a module of `group`. */
  predicate AtMostOneActivation(cmds: seq<Command>, group: ModuleGroup) {
    forall a, b :: 0 <= a < b < |cmds| ==> !(IsActivationOf(cmds[a], group) && IsActivationOf(cmds[b], group))
  }

  /** Every switch-on of a module of `group` in `cmds` is one of `from`. */
  predicate ActivationsWithin(cmds: seq<Command>, group: ModuleGroup, from: seq<Command>) {
    forall c :: c in cmds && IsActivationOf(c, group) ==> c in from
  }

  /** Every command of `part` is one of `cmds`. */
  predicate AllIn(part: seq<Command>, cmds: seq<Command>) {
    forall c :: c in part ==> c in cmds
  }

  /** Where the tractor activations of the four phases can come from. */
  lemma TractorsFromPhase3(released: seq<Command>, p3: seq<Command>, p4: seq<Command>)
    requires forall c :: c in released ==> !c.Activate?
    requires OnlyActivates(p4, Salvagers)
    ensures ActivationsWithin(released + (p3 + p4), Tractors, p3)
    ensures OnlyLastMayActivate(p3) ==> AtMostOneActivation(released + (p3 + p4), Tractors)
  {
    var all := released + (p3 + p4);
    forall k | 0 <= k < |all| && IsActivationOf(all[k], Tractors)
      ensures |released| <= k < |released| + |p3| && all[k] == p3[k - |released|]
    {
    }
    forall c | c in all && IsActivationOf(c, Tractors)
      ensures c in p3
    {
      var k :| 0 <= k < |all| && all[k] == c;
    }
  }

  /** Where the salvager activations of the four phases can come from. */
  lemma SalvagersFromPhase4Of(released: seq<Command>, p3: seq<Command>, p4: seq<Command>)
    requires forall c :: c in released ==> !c.Activate?
    requires OnlyActivates(p3, Tractors)
    ensures ActivationsWithin(released + (p3 + p4), Salvagers, p4)
    ensures AllIn(p4, released + (p3 + p4))
    ensures |p4| <= 1 ==> AtMostOneActivation(released + (p3 + p4), Salvagers)
  {
    var all := released + (p3 + p4);
    forall k | 0 <= k < |all| && IsActivationOf(all[k], Salvagers)
      ensures |released| + |p3| <= k && all[k] == p4[k - |released| - |p3|]
    {
    }
    forall c | c in all && IsActivationOf(c, Salvagers)
      ensures c in p4
    {
      var k :| 0 <= k < |all| && all[k] == c;
    }
  }

  /** Phase 3 as seen in the whole salvage pass: at most one tractor is
      switched on, an idle one, on the active target, which is the nearest
      tractor candidate and lies within that tractor's optimal range. */
  lemma SalvageTractorActivation(ctx: SalvageContext, salvageTargets: seq<Entity>, changed: bool)
    ensures AtMostOneActivation(ManageIdleSalvageModules(ctx, salvageTargets, changed).commands, Tractors)
    ensures var r := ManageIdleSalvageModules(ctx, salvageTargets, changed).commands;
            forall c :: c in r && IsActivationOf(c, Tractors) ==>
                 && c.index < |ctx.tractors| && !ctx.tractors[c.index].isActive
                 && c.target == ctx.activeTargetId
                 && NearestWithin(TractorCandidates(salvageTargets, ctx.tractors, LootRange(ctx)),
                                  ctx.activeTargetId, ctx.tractors[c.index].optimalRange.GetOr(0.0))
  {
    if |salvageTargets| > 0 {
      var p3 := ActivateTractors(salvageTargets, ctx.tractors, LootRange(ctx), ctx.activeTargetId,
                                 ctx.canChangeGate, changed);
      ActivateTractorsActivation(salvageTargets, ctx.tractors, LootRange(ctx), ctx.activeTargetId,
                                 ctx.canChangeGate, changed);
      ReleasedActivatesNothing(ctx);
      SalvagerStepActivates(ctx, salvageTargets, changed);
      SalvagePhasesInOrder(ctx, salvageTargets, changed);
      TractorsFromPhase3(Released(ctx), p3.commands, SalvagerStep(ctx, salvageTargets, changed).commands);
    }
  }

  /** The salvager activations of the pass are those of phase 4. */
  lemma SalvagersFromPhase4(ctx: SalvageContext, salvageTargets: seq<Entity>, changed: bool)
    requires |salvageTargets| > 0
    ensures ActivationsWithin(ManageIdleSalvageModules(ctx, salvageTargets, changed).commands, Salvagers,
                              SalvagerStep(ctx, salvageTargets, changed).commands)
    ensures AllIn(SalvagerStep(ctx, salvageTargets, changed).commands,
                  ManageIdleSalvageModules(ctx, salvageTargets, changed).commands)
    ensures |SalvagerStep(ctx, salvageTargets, changed).commands| <= 1 ==>
              AtMostOneActivation(ManageIdleSalvageModules(ctx, salvageTargets, changed).commands, Salvagers)
  {
    ReleasedActivatesNothing(ctx);
    TractorStepActivates(ctx, salvageTargets, changed);
    SalvagePhasesInOrder(ctx, salvageTargets, changed);
    SalvagersFromPhase4Of(Released(ctx), TractorStep(ctx, salvageTargets, changed).commands,
                          SalvagerStep(ctx, salvageTargets, changed).commands);
  }

  /** Every salvager the pass switches on is idle and fires on the active
      target. */
  lemma SalvagersFireIdleOnActive(ctx: SalvageContext, salvageTargets: seq<Entity>, changed: bool)
    ensures var r := ManageIdleSalvageModules(ctx, salvageTargets, changed).commands;
            forall c :: c in r && IsActivationOf(c, Salvagers) ==>
              c.index < |ctx.salvagers| && !ctx.salvagers[c.index].isActive && c.target == ctx.activeTargetId
  {
    if |salvageTargets| > 0 {
      SalvagersFromPhase4(ctx, salvageTargets, changed);
      SalvagerStepFiresIdle(ctx, salvageTargets, changed);
    }
  }

  /** Phase 4 switches on idle salvagers only, on the active target. */
  lemma SalvagerStepFiresIdle(ctx: SalvageContext, salvageTargets: seq<Entity>, changed: bool)
    ensures forall c :: c in SalvagerStep(ctx, salvageTargets, changed).commands && c.Activate? ==>
              c.index < |ctx.salvagers| && !ctx.salvagers[c.index].isActive && c.target == ctx.activeTargetId
  {
    var p3 := ActivateTractors(salvageTargets, ctx.tractors, LootRange(ctx), ctx.activeTargetId,
                               ctx.canChangeGate, changed);
    var wrecks := SalvageWrecks(salvageTargets);
    if ctx.distributeSalvagers {
      DistributeFiresOnNearestFreeWreck(wrecks, ctx.salvagers, ctx.activeTargetId, ctx.canChangeGate, p3.changed);
    } else {
      FocusFiresAllOnNearestWreck(wrecks, ctx.salvagers, ctx.activeTargetId, ctx.canChangeGate, p3.changed);
    }
  }

  /** Distributing, the pass switches on at most one salvager, and the
      active target it fires on is then the nearest wreck no active salvager
      holds. */
  lemma SalvageDistributeActivation(ctx: SalvageContext, salvageTargets: seq<Entity>, changed: bool)
    requires ctx.distributeSalvagers
    ensures AtMostOneActivation(ManageIdleSalvageModules(ctx, salvageTargets, changed).commands, Salvagers)
    ensures var r := ManageIdleSalvageModules(ctx, salvageTargets, changed).commands;
            var free := FreeWrecks(SalvageWrecks(salvageTargets), ctx.salvagers);
            forall c :: c in r && IsActivationOf(c, Salvagers) ==>
                 |free| > 0 && NearestOf(free, free[0]) && c.target == free[0].id
  {
    if |salvageTargets| > 0 {
      var p3 := ActivateTractors(salvageTargets, ctx.tractors, LootRange(ctx), ctx.activeTargetId,
                                 ctx.canChangeGate, changed);
      SalvagersFromPhase4(ctx, salvageTargets, changed);
      DistributeFiresOnNearestFreeWreck(SalvageWrecks(salvageTargets), ctx.salvagers, ctx.activeTargetId,
                                        ctx.canChangeGate, p3.changed);
    }
  }

  /** Focusing, the pass switches on a salvager iff it is idle and the
      nearest wreck is the active target. */
  lemma SalvageFocusActivation(ctx: SalvageContext, salvageTargets: seq<Entity>, changed: bool)
    requires !ctx.distributeSalvagers
    ensures var r := ManageIdleSalvageModules(ctx, salvageTargets, changed).commands;
            var wrecks := SalvageWrecks(salvageTargets);
            forall j: nat :: Activate(Salvagers, j, ctx.activeTargetId) in r <==>
              && |wrecks| > 0 && wrecks[0].id == ctx.activeTargetId && NearestOf(wrecks, wrecks[0])
              && j < |ctx.salvagers| && !ctx.salvagers[j].isActive
  {
    if |salvageTargets| > 0 {
      var r := ManageIdleSalvageModules(ctx, salvageTargets, changed).commands;
      var p4 := SalvagerStep(ctx, salvageTargets, changed).commands;
      SalvagersFromPhase4(ctx, salvageTargets, changed);
      FocusStepFires(ctx, salvageTargets, changed);
      forall j: nat
        ensures Activate(Salvagers, j, ctx.activeTargetId) in r <==> Activate(Salvagers, j, ctx.activeTargetId) in p4
      {
        assert IsActivationOf(Activate(Salvagers, j, ctx.activeTargetId), Salvagers);
      }
    }
  }

  /** Focusing, phase 4 switches on a salvager iff it is idle and the
      nearest wreck is the active target. */
  lemma FocusStepFires(ctx: SalvageContext, salvageTargets: seq<Entity>, changed: bool)
    requires !ctx.distributeSalvagers
    ensures var wrecks := SalvageWrecks(salvageTargets);
            forall j: nat :: Activate(Salvagers, j, ctx.activeTargetId) in SalvagerStep(ctx, salvageTargets, changed).commands
              <==> && |wrecks| > 0 && wrecks[0].id == ctx.activeTargetId && NearestOf(wrecks, wrecks[0])
                   && j < |ctx.salvagers| && !ctx.salvagers[j].isActive
  {
    var p3 := ActivateTractors(salvageTargets, ctx.tractors, LootRange(ctx), ctx.activeTargetId,
                               ctx.canChangeGate, changed);
    FocusFiresAllOnNearestWreck(SalvageWrecks(salvageTargets), ctx.salvagers, ctx.activeTargetId,
                                ctx.canChangeGate, p3.changed);
  }

  /** Every module the salvage phases switch on is a tractor or a
      salvager, switched on against the active target. */
  lemma SalvageActivatesOnActiveTarget(ctx: SalvageContext, salvageTargets: seq<Entity>, changed: bool)
    ensures forall c :: c in ManageIdleSalvageModules(ctx, salvageTargets, changed).commands && c.Activate? ==>
              (c.group == Tractors || c.group == Salvagers) && c.target == ctx.activeTargetId
  {
    PassActivatesSalvageModules(ctx, salvageTargets, changed);
    SalvageTractorActivation(ctx, salvageTargets, changed);
    SalvagersFireIdleOnActive(ctx, salvageTargets, changed);
  }

  /** The pass switches on tractors and salvagers only. */
  lemma PassActivatesSalvageModules(ctx: SalvageContext, salvageTargets: seq<Entity>, changed: bool)
    ensures forall c :: c in ManageIdleSalvageModules(ctx, salvageTargets, changed).commands && c.Activate? ==>
              IsActivationOf(c, Tractors) || IsActivationOf(c, Salvagers)
  {
    if |salvageTargets| > 0 {
      ReleasedActivatesNothing(ctx);
      TractorStepActivates(ctx, salvageTargets, changed);
      SalvagerStepActivates(ctx, salvageTargets, changed);
      SalvagePhasesInOrder(ctx, salvageTargets, changed);
    }
  }

  /** Phase 4 switches on salvagers only, against the active target. */
  lemma SalvagersActivateOnActiveTarget(salvageTargets: seq<Entity>, salvagers: seq<Module>, distribute: bool,
                                        activeTargetId: int, gate: bool, changed: bool)
    ensures var r := ActivateSalvagers(salvageTargets, salvagers, distribute, activeTargetId, gate, changed);
            forall c :: c in r.commands && c.Activate? ==> c.group == Salvagers && c.target == activeTargetId
  {
    var wrecks := SalvageWrecks(salvageTargets);
    if distribute {
      DistributeFiresOnNearestFreeWreck(wrecks, salvagers, activeTargetId, gate, changed);
    } else {
      FocusFiresAllOnNearestWreck(wrecks, salvagers, activeTargetId, gate, changed);
    }
  }

  /** Phase 4 only changes targets and activates. */
  lemma ActivateSalvagersShape(salvageTargets: seq<Entity>, salvagers: seq<Module>, distribute: bool,
                               activeTargetId: int, gate: bool, changed: bool)
    ensures var r := ActivateSalvagers(salvageTargets, salvagers, distribute, activeTargetId, gate, changed);
            forall c :: c in r.commands ==> c.ChangeTarget? || c.Activate?
  {
    var wrecks := SalvageWrecks(salvageTargets);
    if distribute {
      DistributeFiresOnNearestFreeWreck(wrecks, salvagers, activeTargetId, gate, changed);
    } else {
      FocusFiresAllOnNearestWreck(wrecks, salvagers, activeTargetId, gate, changed);
      FocusRequestsNearestWreck(wrecks, salvagers, activeTargetId, gate, changed);
    }
  }

  /** Phase 4 changes the active target at most once, and only when the
      frame has not changed it yet. */
  lemma ActivateSalvagersChanges(salvageTargets: seq<Entity>, salvagers: seq<Module>, distribute: bool,
                                 activeTargetId: int, gate: bool, changed: bool)
    ensures var r := ActivateSalvagers(salvageTargets, salvagers, distribute, activeTargetId, gate, changed);
            && |Changes(r.commands)| <= 1
            && (changed ==> Changes(r.commands) == [])
            && r.changed == (changed || Changes(r.commands) != [])
  {
    var wrecks := SalvageWrecks(salvageTargets);
    if distribute {
      DistributeChanges(wrecks, salvagers, activeTargetId, gate, changed);
    } else {
      FocusChanges(wrecks, salvagers, activeTargetId, gate, changed);
    }
  }

  /** Distribute mode changes the active target at most once, and only when
      the frame has not changed it yet. */
  lemma DistributeChanges(wrecks: seq<Entity>, salvagers: seq<Module>, activeTargetId: int, gate: bool, changed: bool)
    requires DistanceOrdered(wrecks)
    ensures var r := DistributeSalvagers(wrecks, salvagers, activeTargetId, gate, changed);
            && |Changes(r.commands)| <= 1
            && (changed ==> Changes(r.commands) == [])
            && r.changed == (changed || Changes(r.commands) != [])
  {
    var r := DistributeSalvagers(wrecks, salvagers, activeTargetId, gate, changed);
    DistributeFiresOnNearestFreeWreck(wrecks, salvagers, activeTargetId, gate, changed);
    if |r.commands| == 1 {
      ChangesSnoc([], r.commands[0]);
      assert r.commands == [] + [r.commands[0]];
    }
  }

  /** Focus mode changes the active target at most once, and only when the
      frame has not changed it yet. */
  lemma FocusChanges(wrecks: seq<Entity>, salvagers: seq<Module>, activeTargetId: int, gate: bool, changed: bool)
    requires DistanceOrdered(wrecks)
    ensures var r := FocusSalvagers(wrecks, salvagers, activeTargetId, gate, changed);
            && |Changes(r.commands)| <= 1
            && (changed ==> Changes(r.commands) == [])
            && r.changed == (changed || Changes(r.commands) != [])
  {
    var r := FocusSalvagers(wrecks, salvagers, activeTargetId, gate, changed);
    FocusRequestsNearestWreck(wrecks, salvagers, activeTargetId, gate, changed);
    if exists c :: c in r.commands && c.ChangeTarget? {
      var c :| c in r.commands && c.ChangeTarget?;
      ChangesSnoc([], c);
      assert r.commands == [] + [c];
    } else {
      NoChangesWithout(r.commands);
    }
  }

  /** `OrderBy(t => t.Distance).First()`: the index of the first of the
      nearest entities. */
  function FirstNearest(s: seq<Entity>): (i: nat)
    requires |s| > 0
    ensures i < |s|
    ensures forall k :: 0 <= k < |s| ==> s[i].distance <= s[k].distance
    ensures forall k :: 0 <= k < i ==> s[k].distance > s[i].distance
  {
    if |s| == 1 then 0
    else
      var j := FirstNearest(s[1..]) + 1;
      assert forall k :: 1 <= k < |s| ==> s[k] == s[1..][k - 1];
      if s[0].distance <= s[j].distance then 0 else j
  }

  /** Some tractor holds a live target strictly inside loot range. */
  predicate AnyTractorNear(tractors: seq<Module>, entities: seq<Entity>, lootRange: real) {
    exists j :: 0 <= j < |tractors| && Lookup(entities, tractors[j].targetId).Some?
                && Lookup(entities, tractors[j].targetId).value.distance < lootRange
  }

  predicate AllActive(modules: seq<Module>) {
    forall j :: 0 <= j < |modules| ==> modules[j].isActive
  }

  /** `ChangeSalvageTarget`: switch the active target from `targetId` to the
      best tractor target, or to the nearest one when every tractor is busy
      and one of them is already pulling something into loot range. */
  function ChangeSalvageTarget(targetId: int, sorted: seq<Entity>, tractors: seq<Module>,
                               entities: seq<Entity>, lootRange: real, gate: bool, changed: bool)
    : (r: seq<Command>)
    // Nothing when the target may not change or there is no tractor target.
    ensures !CanChangeTarget(gate, changed) || |sorted| == 0 ==> r == []
    ensures |r| <= 1
    // A change goes, without locking, to a tractor target other than the
    // current one: the nearest (first of the nearest) when every tractor is
    // busy and one holds a target inside loot range, else the best one.
    ensures r != [] ==>
              && CanChangeTarget(gate, changed) && |sorted| > 0
              && r[0].ChangeTarget? && !r[0].lockIfNeeded && r[0].target != targetId
              && if AnyTractorNear(tractors, entities, lootRange) && AllActive(tractors)
                 then exists i :: 0 <= i < |sorted| && r[0].target == sorted[i].id
                                  && (forall k :: 0 <= k < |sorted| ==> sorted[i].distance <= sorted[k].distance)
                                  && (forall k :: 0 <= k < i ==> sorted[k].distance > sorted[i].distance)
                 else r[0].target == sorted[0].id
    // And it always goes when the chosen target is not the current one.
    ensures CanChangeTarget(gate, changed) && |sorted| > 0 && r == [] ==>
              if AnyTractorNear(tractors, entities, lootRange) && AllActive(tractors)
              then sorted[FirstNearest(sorted)].id == targetId
              else sorted[0].id == targetId
  {
    if !CanChangeTarget(gate, changed) || |sorted| == 0 then []
    else
      var pick := if AnyTractorNear(tractors, entities, lootRange) && AllActive(tractors)
                  then sorted[FirstNearest(sorted)] else sorted[0];
      if pick.id != targetId then [ChangeTarget(pick.id, false)] else []
  }

  /** The window collaborator's answer: whether the target's cargo window
      is already open. */
  datatype LootStep = LootStep(commands: seq<Command>, changed: bool)

  /** `TractorTarget` for the active salvage queue entry `queueId`: loot the
      target when it is close and worth looting, then reconsider the
      active target. `None` when the id is not live: the source's
      dictionary lookup throws. */
  function TractorTarget(queueId: int, entities: seq<Entity>, windowOpen: bool, sorted: seq<Entity>,
                         tractors: seq<Module>, lootActivate: int, gate: bool, changed: bool)
    : (r: Option<LootStep>)
    ensures r.None? <==> !HasId(entities, queueId)
    // The change requests are exactly those of ChangeSalvageTarget, and
    // they set the changed flag.
    ensures r.Some? ==>
              Changes(r.value.commands)
                == ChangeSalvageTarget(queueId, sorted, tractors, entities, lootActivate as real, gate, changed)
    ensures r.Some? ==> r.value.changed == (changed || Changes(r.value.commands) != [])
    // At most one looting command, ahead of any change request ...
    ensures r.Some? ==> forall i :: 0 < i < |r.value.commands| ==> r.value.commands[i].ChangeTarget?
    // ... issued iff the target is within loot range and holds loot:
    ensures r.Some? ==>
              ((|r.value.commands| > 0 && !r.value.commands[0].ChangeTarget?) <==>
                 Lookup(entities, queueId).value.distance <= lootActivate as real
                 && NeedsLooting(Lookup(entities, queueId).value))
    // it opens a closed cargo window and loots an open one.
    ensures r.Some? && |r.value.commands| > 0 && !r.value.commands[0].ChangeTarget? ==>
              r.value.commands[0] == if windowOpen then LootAll(queueId) else Open(queueId)
  {
    match Lookup(entities, queueId)
    case None => None
    case Some(target) =>
      Some(LootThen(target, queueId, windowOpen, lootActivate,
                    ChangeSalvageTarget(queueId, sorted, tractors, entities, lootActivate as real, gate, changed),
                    changed))
  }

  /** The looting of `target`, followed by the change request `change`. */
  function LootThen(target: Entity, queueId: int, windowOpen: bool, lootActivate: int,
                    change: seq<Command>, changed: bool): (r: LootStep)
    requires |change| <= 1 && (change != [] ==> change[0].ChangeTarget?)
    ensures Changes(r.commands) == change
    ensures r.changed == (changed || change != [])
    ensures forall i :: 0 < i < |r.commands| ==> r.commands[i].ChangeTarget?
    ensures (|r.commands| > 0 && !r.commands[0].ChangeTarget?) <==>
              target.distance <= lootActivate as real && NeedsLooting(target)
    ensures |r.commands| > 0 && !r.commands[0].ChangeTarget? ==>
              r.commands[0] == if windowOpen then LootAll(queueId) else Open(queueId)
  {
    var loot := if target.distance <= lootActivate as real && NeedsLooting(target)
                then [if windowOpen then LootAll(queueId) else Open(queueId)] else [];
    assert forall c :: c in change ==> c.ChangeTarget? by {
      if change != [] { assert change == [change[0]]; }
    }
    LootBeforeChange(loot, change);
    LootStep(loot + change, changed || change != [])
  }

  /** A looting command (or none) followed by at most one change request:
      the change requests are the request itself and the looting comes first. */
  lemma LootBeforeChange(loot: seq<Command>, change: seq<Command>)
    requires |loot| <= 1 && forall c :: c in loot ==> !c.ChangeTarget?
    requires |change| <= 1 && forall c :: c in change ==> c.ChangeTarget?
    ensures Changes(loot + change) == change
    ensures forall i :: 0 < i < |loot + change| ==> (loot + change)[i].ChangeTarget?
    ensures (|loot + change| > 0 && !(loot + change)[0].ChangeTarget?) <==> loot != []
  {
    NoChangesWithout(loot);
    OnlyChanges(change);
    ChangesAppend(loot, change);
    LootComesFirst(loot, change);
  }

  /** The positions of a looting command followed by change requests. */
  lemma LootComesFirst(loot: seq<Command>, change: seq<Command>)
    requires |loot| <= 1 && forall c :: c in loot ==> !c.ChangeTarget?
    requires forall c :: c in change ==> c.ChangeTarget?
    ensures forall i :: 0 < i < |loot + change| ==> (loot + change)[i].ChangeTarget?
    ensures (|loot + change| > 0 && !(loot + change)[0].ChangeTarget?) <==> loot != []
  {
    forall i | 0 < i < |loot + change|
      ensures (loot + change)[i].ChangeTarget?
    {
      assert change[i - |loot|] in change;
    }
    if loot != [] {
      assert loot[0] in loot;
    } else if change != [] {
      assert change[0] in change;
    }
  }

  /** Looting only ever touches the queued target itself, only when it is
      within loot range and still holds loot: it opens a closed window and
      loots an open one. */
  lemma TractorTargetLoots(queueId: int, entities: seq<Entity>, windowOpen: bool, sorted: seq<Entity>,
                           tractors: seq<Module>, lootActivate: int, gate: bool, changed: bool)
    requires HasId(entities, queueId)
    ensures var r := TractorTarget(queueId, entities, windowOpen, sorted, tractors, lootActivate, gate, changed);
            && r.Some?
            && ((exists c :: c in r.value.commands && (c.Open? || c.LootAll?)) <==>
                  exists e :: e in entities && e.id == queueId && e.distance <= lootActivate as real
                              && NeedsLooting(e) && Lookup(entities, queueId) == Some(e))
            && forall c :: c in r.value.commands ==>
                 (c.Open? ==> c.target == queueId && !windowOpen)
                 && (c.LootAll? ==> c.target == queueId && windowOpen)
  {
    var r := TractorTarget(queueId, entities, windowOpen, sorted, tractors, lootActivate, gate, changed);
    var cmds := r.value.commands;
    forall c | c in cmds && !c.ChangeTarget?
      ensures c == cmds[0]
    {
      var i :| 0 <= i < |cmds| && cmds[i] == c;
    }
    if |cmds| > 0 && !cmds[0].ChangeTarget? {
      assert cmds[0] in cmds;
    }
  }
}

=== FILE: salvagers.dfy ===
/** Phase 4 of `ManageIdleSalvageModules`: put idle salvagers on wrecks.

    Salvagers only ever go on locked wrecks (never cargo containers) within
    salvager range, nearest first. In distribute mode (bonused hulls) one
    salvager goes on the nearest such wreck that no active salvager holds;
    in focus mode every idle salvager goes on the nearest wreck. Either way
    the wreck has to be the active target already; otherwise the phase may
    only ask for it to become the active target, locking it if needed. */
module SalvagerPhase {
  import opened Base
  import opened World
  import opened TargetLists
  import opened TractorPhase

  /** Salvager range in metres. */
  const SalvagerRange: real := 6000.0

  /** A salvage target a salvager can work: a locked wreck within range. */
  predicate Salvageable(t: Entity) {
    t.isLocked && t.group == Wreck && t.distance <= SalvagerRange
  }

  /** A wreck no active salvager holds. */
  predicate Unsalvaged(salvagers: seq<Module>, w: Entity) {
    !exists j :: 0 <= j < |salvagers| && salvagers[j].isActive && salvagers[j].targetId == w.id
  }

  /** The salvageable wrecks among the salvage targets, nearest first. */
  function SalvageWrecks(salvageTargets: seq<Entity>): (r: seq<Entity>)
    ensures forall t :: t in r <==> t in salvageTargets && Salvageable(t)
    ensures forall i, j :: 0 <= i < j < |r| ==> r[i].distance <= r[j].distance
  {
    OrderByDistance(Where(salvageTargets, Salvageable))
  }

  /** Nearest first. */
  predicate DistanceOrdered(s: seq<Entity>) {
    forall i, j :: 0 <= i < j < |s| ==> s[i].distance <= s[j].distance
  }

  /** `Where(w => !Salvagers.Any(s => s.IsActive && s.TargetID == w.ID))`:
      the wrecks no active salvager holds, in order. */
  function FreeWrecks(wrecks: seq<Entity>, salvagers: seq<Module>): (r: seq<Entity>)
    ensures forall w :: w in r <==> w in wrecks && Unsalvaged(salvagers, w)
    ensures DistanceOrdered(wrecks) ==> DistanceOrdered(r)
  {
    if |wrecks| == 0 then []
    else
      var rest := FreeWrecks(wrecks[1..], salvagers);
      ConsOrdered(wrecks, rest);
      if Unsalvaged(salvagers, wrecks[0]) then [wrecks[0]] + rest else rest
  }

  /** A distance-ordered list stays ordered without its head, and its head
      in front of any ordered selection from its tail keeps it ordered. */
  lemma ConsOrdered(wrecks: seq<Entity>, rest: seq<Entity>)
    requires |wrecks| > 0
    requires forall w :: w in rest ==> w in wrecks[1..]
    ensures DistanceOrdered(wrecks) ==> DistanceOrdered(wrecks[1..])
    ensures DistanceOrdered(wrecks) && DistanceOrdered(rest) ==> DistanceOrdered([wrecks[0]] + rest)
  {
    if DistanceOrdered(wrecks) && DistanceOrdered(rest) {
      var all := [wrecks[0]] + rest;
      forall i, j | 0 <= i < j < |all|
        ensures all[i].distance <= all[j].distance
      {
        if i == 0 {
          assert all[j] in wrecks[1..];
          var k :| 0 <= k < |wrecks| - 1 && wrecks[1..][k] == all[j];
          assert wrecks[k + 1] == all[j];
        } else {
          assert all[i] == rest[i - 1] && all[j] == rest[j - 1];
        }
      }
    }
  }

  /** The distribute-mode loop over the idle salvagers with the first
      unsalvaged wreck fixed: each pass may ask for the wreck to become the
      active target, and the first salvager fires when it already is. */
  function DistributeLoop(wreck: Entity, idle: seq<nat>, activeTargetId: int, gate: bool, changed: bool)
    : (r: Phase)
    ensures forall c :: c in r.commands ==> c.ChangeTarget? || c.Activate?
    decreases |idle|
  {
    if |idle| == 0 then Phase([], changed)
    else if activeTargetId != wreck.id && CanChangeTarget(gate, changed) then
      var rest := DistributeLoop(wreck, idle[1..], activeTargetId, gate, true);
      Phase([ChangeTarget(wreck.id, true)] + rest.commands, rest.changed)
    else if activeTargetId == wreck.id then
      // One salvager per pulse.
      Phase([Activate(Salvagers, idle[0], wreck.id)], changed)
    else DistributeLoop(wreck, idle[1..], activeTargetId, gate, changed)
  }

  /** The loop does at most one thing: fire the first idle salvager when the
      wreck is the active target, or else ask once for the wreck to become
      the active target. */
  lemma {:induction false} DistributeLoopDoesOneThing(wreck: Entity, idle: seq<nat>, activeTargetId: int,
                                                      gate: bool, changed: bool)
    ensures DistributeLoop(wreck, idle, activeTargetId, gate, changed) ==
              if |idle| == 0 then Phase([], changed)
              else if activeTargetId == wreck.id then Phase([Activate(Salvagers, idle[0], wreck.id)], changed)
              else if CanChangeTarget(gate, changed) then Phase([ChangeTarget(wreck.id, true)], true)
              else Phase([], changed)
    decreases |idle|
  {
    if |idle| > 0 && activeTargetId != wreck.id {
      if CanChangeTarget(gate, changed) {
        DistributeLoopDoesOneThing(wreck, idle[1..], activeTargetId, gate, true);
        assert [ChangeTarget(wreck.id, true)] + [] == [ChangeTarget(wreck.id, true)];
      } else {
        DistributeLoopDoesOneThing(wreck, idle[1..], activeTargetId, gate, changed);
      }
    }
  }

  /** Distribute mode: the nearest wreck no active salvager holds. */
  function DistributeSalvagers(wrecks: seq<Entity>, salvagers: seq<Module>, activeTargetId: int,
                               gate: bool, changed: bool): Phase
  {
    var without := FreeWrecks(wrecks, salvagers);
    var idle := IdleIndices(salvagers);
    if |idle| == 0 || |without| == 0 then Phase([], changed)
    else DistributeLoop(without[0], idle, activeTargetId, gate, changed)
  }

  /** Focus mode: every idle salvager on the nearest wreck. */
  function FocusSalvagers(wrecks: seq<Entity>, salvagers: seq<Module>, activeTargetId: int,
                          gate: bool, changed: bool): (r: Phase)
    ensures |wrecks| == 0 || IdleIndices(salvagers) == [] ==> r == Phase([], changed)
  {
    var idle := IdleIndices(salvagers);
    if |idle| == 0 || |wrecks| == 0 then Phase([], changed)
    else
      var wreck := wrecks[0];
      if activeTargetId == wreck.id then
        Phase(seq(|idle|, k requires 0 <= k < |idle| => Activate(Salvagers, idle[k], wreck.id)), changed)
      else if CanChangeTarget(gate, changed) then Phase([ChangeTarget(wreck.id, true)], true)
      else Phase([], changed)
  }

  /** Phase 4 as a whole. */
  function ActivateSalvagers(salvageTargets: seq<Entity>, salvagers: seq<Module>, distribute: bool,
                             activeTargetId: int, gate: bool, changed: bool): Phase
  {
    var wrecks := SalvageWrecks(salvageTargets);
    if distribute then DistributeSalvagers(wrecks, salvagers, activeTargetId, gate, changed)
    else FocusSalvagers(wrecks, salvagers, activeTargetId, gate, changed)
  }

  /** The nearest wreck of `wrecks`. */
  ghost predicate NearestOf(wrecks: seq<Entity>, w: Entity) {
    w in wrecks && forall u :: u in wrecks ==> w.distance <= u.distance
  }

  /** Distribute mode fires at most one salvager, an idle one, and only on
      the active target, which is then the nearest wreck no active salvager
      holds; otherwise it may only request that wreck, with locking, through
      the gate, once per frame. */
  lemma DistributeFiresOnNearestFreeWreck(wrecks: seq<Entity>, salvagers: seq<Module>,
                                          activeTargetId: int, gate: bool, changed: bool)
    requires DistanceOrdered(wrecks)
    ensures var r := DistributeSalvagers(wrecks, salvagers, activeTargetId, gate, changed);
            var free := FreeWrecks(wrecks, salvagers);
            && |r.commands| <= 1
            && (forall c :: c in r.commands ==>
                  && (c.Activate? || c.ChangeTarget?)
                  && NearestOf(free, free[0]) && c.target == free[0].id)
            && (forall c :: c in r.commands && c.Activate? ==>
                  && c.group == Salvagers && c.index < |salvagers| && !salvagers[c.index].isActive
                  && c.target == activeTargetId)
            && (forall c :: c in r.commands && c.ChangeTarget? ==>
                  CanChangeTarget(gate, changed) && c.lockIfNeeded && c.target != activeTargetId)
            && r.changed == (changed || (|r.commands| == 1 && r.commands[0].ChangeTarget?))
            // Something happens exactly when a free wreck and an idle salvager
            // exist and the wreck is active or may become so.
            && (|r.commands| == 1 <==>
                  |free| > 0 && IdleIndices(salvagers) != []
                  && (activeTargetId == free[0].id || CanChangeTarget(gate, changed)))
  {
    var free := FreeWrecks(wrecks, salvagers);
    var idle := IdleIndices(salvagers);
    if |idle| > 0 && |free| > 0 {
      DistributeLoopDoesOneThing(free[0], idle, activeTargetId, gate, changed);
      NearestFirst(free);
    }
  }

  /** Focus mode fires every idle salvager, on the nearest wreck, exactly
      when that wreck is the active target, and nothing else. */
  lemma FocusFiresAllOnNearestWreck(wrecks: seq<Entity>, salvagers: seq<Module>,
                                    activeTargetId: int, gate: bool, changed: bool)
    requires DistanceOrdered(wrecks)
    ensures var r := FocusSalvagers(wrecks, salvagers, activeTargetId, gate, changed);
            if |wrecks| > 0 && wrecks[0].id == activeTargetId && IdleIndices(salvagers) != [] then
              && NearestOf(wrecks, wrecks[0]) && r.changed == changed
              && (forall c :: c in r.commands ==> c.Activate? && c.group == Salvagers && c.target == activeTargetId)
              && forall j: nat :: Activate(Salvagers, j, activeTargetId) in r.commands <==>
                                    j < |salvagers| && !salvagers[j].isActive
            else forall c :: c in r.commands ==> !c.Activate?
  {
    var idle := IdleIndices(salvagers);
    if |idle| > 0 && |wrecks| > 0 && wrecks[0].id == activeTargetId {
      NearestFirst(wrecks);
      var r := FocusSalvagers(wrecks, salvagers, activeTargetId, gate, changed);
      forall j: nat | j < |salvagers| && !salvagers[j].isActive
        ensures Activate(Salvagers, j, activeTargetId) in r.commands
      {
        var k :| 0 <= k < |idle| && idle[k] == j;
        assert r.commands[k] == Activate(Salvagers, j, activeTargetId);
      }
    }
  }

  /** Focus mode otherwise only asks, once per frame and through the gate,
      for the nearest wreck to become the active target, locking it if
      needed. */
  lemma FocusRequestsNearestWreck(wrecks: seq<Entity>, salvagers: seq<Module>,
                                  activeTargetId: int, gate: bool, changed: bool)
    requires DistanceOrdered(wrecks)
    ensures var r := FocusSalvagers(wrecks, salvagers, activeTargetId, gate, changed);
            && (forall c :: c in r.commands && c.ChangeTarget? ==>
                  && r.commands == [c] && CanChangeTarget(gate, changed) && c.lockIfNeeded
                  && c.target != activeTargetId && NearestOf(wrecks, wrecks[0]) && c.target == wrecks[0].id)
            && r.changed == (changed || (exists c :: c in r.commands && c.ChangeTarget?))
            && (r.commands == [] <==>
                  |wrecks| == 0 || IdleIndices(salvagers) == []
                  || (wrecks[0].id != activeTargetId && !CanChangeTarget(gate, changed)))
  {
    var idle := IdleIndices(salvagers);
    if |idle| > 0 && |wrecks| > 0 {
      NearestFirst(wrecks);
      var r := FocusSalvagers(wrecks, salvagers, activeTargetId, gate, changed);
      if wrecks[0].id == activeTargetId {
        assert r.commands[0] in r.commands;
        forall c | c in r.commands
          ensures c.Activate?
        {
          var k :| 0 <= k < |r.commands| && r.commands[k] == c;
        }
      } else if CanChangeTarget(gate, changed) {
        assert r.commands == [ChangeTarget(wrecks[0].id, true)];
        assert r.commands[0] in r.commands;
      }
    }
  }

  /** The head of a list ordered by distance is a nearest element. */
  lemma NearestFirst(wrecks: seq<Entity>)
    requires |wrecks| > 0 && DistanceOrdered(wrecks)
    ensures NearestOf(wrecks, wrecks[0])
  {
    forall u | u in wrecks
      ensures wrecks[0].distance <= u.distance
    {
      var k :| 0 <= k < |wrecks| && wrecks[k] == u;
      assert k == 0 || wrecks[0].distance <= wrecks[k].distance;
    }
  }
}

=== FILE: shortcycle.dfy ===
/** The short-cycle timer of the mining lasers: the early deactivation
    (`ShortCycleLasers`), the next deactivation instant
    (`UpdateNextShortCycleDeactivation`) and its random offset
    (`GenerateFudgeFactor`). Time is in seconds; the clock reading and the
    random draws are parameters. */
module ShortCycle {
  import opened Base
  import opened World
  import opened CapacitorGate

  /** `GenerateFudgeFactor`. `magnitudeDraw` is `Random.Next(0, 15)` and
      `signDraw` is `Random.Next(0, 1)`, whose exclusive upper bound makes it
      always 0, so a factor that "can be negative" is never positive. */
  function FudgeFactor(canBeNegative: bool, magnitudeDraw: int, signDraw: int): (f: int)
    requires 0 <= magnitudeDraw < 15
    requires 0 <= signDraw < 1
    ensures canBeNegative ==> -14 <= f <= 0 && f == -magnitudeDraw
    ensures !canBeNegative ==> 0 <= f <= 14 && f == magnitudeDraw
  {
    var isPositive := signDraw == 1;
    if canBeNegative && !isPositive then -magnitudeDraw else magnitudeDraw
  }

  datatype ShortCycleResult = ShortCycleResult(fired: bool, next: Option<real>, commands: seq<Command>)

  /** `ShortCycleLasers`: deactivate every laser and clear the timer when the
      timer is set and due and the ship could pay for reactivating all lasers
      without going below the floor. */
  function ShortCycleLasers(next: Option<real>, now: real, shipCapacitor: real,
                            lasers: seq<Module>, floor: real): (r: ShortCycleResult)
    ensures r.fired <==> next.Some? && now >= next.value && shipCapacitor - SumCosts(lasers) >= floor
    ensures r.fired ==> r.next == None && r.commands == [DeactivateAll(Lasers)]
    ensures !r.fired ==> r.next == next && r.commands == []
  {
    if next.None? || now < next.value then ShortCycleResult(false, next, [])
    else if shipCapacitor - SumCosts(lasers) < floor then ShortCycleResult(false, next, [])
    else ShortCycleResult(true, None, [DeactivateAll(Lasers)])
  }

  /** A short cycle fires at most once per timer setting: right after firing,
      a second attempt does nothing. */
  lemma ShortCycleConsumesTimer(next: Option<real>, now: real, shipCapacitor: real,
                                lasers: seq<Module>, floor: real, later: real)
    requires ShortCycleLasers(next, now, shipCapacitor, lasers, floor).fired
    ensures var again := ShortCycleLasers(ShortCycleLasers(next, now, shipCapacitor, lasers, floor).next,
                                          later, shipCapacitor, lasers, floor);
            !again.fired && again.commands == [] && again.next == None
  {
  }

  /** The first laser with a known activation time. */
  function FirstTimed(lasers: seq<Module>): (r: Option<nat>)
    ensures r.None? <==> forall i :: 0 <= i < |lasers| ==> lasers[i].activationTime.None?
    ensures r.Some? ==> r.value < |lasers| && lasers[r.value].activationTime.Some?
                        && forall i :: 0 <= i < r.value ==> lasers[i].activationTime.None?
  {
    if |lasers| == 0 then None
    else if lasers[0].activationTime.Some? then Some(0)
    else match FirstTimed(lasers[1..])
      case None => None
      case Some(i) => Some(i + 1)
  }

  /** `UpdateNextShortCycleDeactivation`: the next instant is `now` plus half
      the first timed laser's cycle and a non-negative offset for an ice
      harvester, or a third of it and a non-positive offset otherwise. With
      no timed laser the timer keeps its value. */
  function NextShortCycle(lasers: seq<Module>, now: real, current: Option<real>,
                          magnitudeDraw: int, signDraw: int): (r: Option<real>)
    requires 0 <= magnitudeDraw < 15 && 0 <= signDraw < 1
    ensures FirstTimed(lasers).None? ==> r == current
    ensures FirstTimed(lasers).Some? ==>
              var laser := lasers[FirstTimed(lasers).value];
              var t := laser.activationTime.value;
              && r.Some?
              && (laser.isIceHarvester ==> now + t / 2.0 <= r.value <= now + t / 2.0 + 14.0)
              && (!laser.isIceHarvester ==> now + t / 3.0 - 14.0 <= r.value <= now + t / 3.0)
  {
    match FirstTimed(lasers)
    case None => current
    case Some(i) =>
      var t := lasers[i].activationTime.GetOr(0.0);
      if lasers[i].isIceHarvester then
        Some(now + (t / 2.0 + FudgeFactor(false, magnitudeDraw, signDraw) as real))
      else
        Some(now + (t / 3.0 + FudgeFactor(true, magnitudeDraw, signDraw) as real))
  }
}

=== FILE: social.dfy ===
/** The local-safety predicate: whether every other pilot in the solar
    system passes the whitelist, blacklist and standings rules, and if not,
    the name of the first pilot who does not. */
module LocalSafety {
  import opened Base

  /** The six cached standings of a pilot towards the player's side. */
  datatype Standing = Standing(
    meToPilot: real,
    meToCorp: real,
    corpToPilot: real,
    corpToCorp: real,
    corpToAlliance: real,
    allianceToAlliance: real)

  /** A pilot-cache record. */
  datatype CachedPilot = CachedPilot(
    charId: int,
    name: string,
    corp: string,
    corpId: int,
    alliance: string,
    allianceId: int,
    standing: Standing)

  /** A pilot as the local-channel list reports it. */
  datatype LocalPilot = LocalPilot(charId: int, name: string)

  /** The player's own identity. */
  datatype Me = Me(solarSystemId: int, charId: int, corporationId: int, allianceId: int)

  datatype DefenseConfig = DefenseConfig(
    runOnNonWhitelistedPilot: bool,
    runOnBlacklistedPilot: bool,
    disableStandingsChecks: bool,
    runOnMeToPilot: bool,
    runOnMeToCorp: bool,
    runOnCorpToPilot: bool,
    runOnCorpToCorp: bool,
    runOnCorpToAlliance: bool,
    runOnAllianceToAlliance: bool,
    runOnNegativeFailsafe: bool,
    runOnCorpsAlliances: bool)

  datatype SocialConfig = SocialConfig(
    allianceWhitelist: set<string>,
    corpWhitelist: set<string>,
    pilotWhitelist: set<string>,
    allianceBlacklist: set<string>,
    corpBlacklist: set<string>,
    pilotBlacklist: set<string>,
    minimumPilotStanding: int,
    minimumCorpStanding: int,
    minimumAllianceStanding: int,
    minimumCorpsAlliancesStanding: int)

  // ----- The six individual standing checks -----

  /** One standing check: whether it is switched on, the standing it reads
      and the minimum it compares against. */
  datatype Check = Check(enabled: bool, value: real, minimum: int)

  /** A check fails when it is on and its standing is strictly below its
      minimum. */
  predicate Fails(c: Check) {
    c.enabled && c.value < c.minimum as real
  }

  /** The six checks in the order they are tried. */
  function IndividualChecks(d: DefenseConfig, s: SocialConfig, st: Standing): (r: seq<Check>)
    ensures |r| == 6
  {
    [Check(d.runOnMeToPilot, st.meToPilot, s.minimumPilotStanding),
     Check(d.runOnMeToCorp, st.meToCorp, s.minimumCorpStanding),
     Check(d.runOnCorpToPilot, st.corpToPilot, s.minimumPilotStanding),
     Check(d.runOnCorpToCorp, st.corpToCorp, s.minimumCorpStanding),
     Check(d.runOnCorpToAlliance, st.corpToAlliance, s.minimumAllianceStanding),
     Check(d.runOnAllianceToAlliance, st.allianceToAlliance, s.minimumAllianceStanding)]
  }

  /** The outcome of the individual checks: whether they passed, which one
      failed first, and whether the negative-failsafe alert was logged. */
  datatype Individual = Individual(passed: bool, failed: Option<nat>, negativeAlert: bool)

  /** `CheckIndividualStandings`: the first failing check decides; the
      negative failsafe only adds an alert when that standing is negative. */
  function CheckIndividualStandings(d: DefenseConfig, s: SocialConfig, st: Standing): (r: Individual)
    ensures r.passed <==> forall k :: 0 <= k < 6 ==> !Fails(IndividualChecks(d, s, st)[k])
    ensures r.passed <==> r.failed.None?
    ensures r.failed.Some? ==>
              && r.failed.value < 6 && Fails(IndividualChecks(d, s, st)[r.failed.value])
              && forall k :: 0 <= k < r.failed.value ==> !Fails(IndividualChecks(d, s, st)[k])
    ensures r.negativeAlert <==>
              r.failed.Some? && d.runOnNegativeFailsafe && IndividualChecks(d, s, st)[r.failed.value].value < 0.0
  {
    // Check k is tried only once checks 0 to k - 1 have passed.
    var checks := IndividualChecks(d, s, st);
    var alert := (k: nat) requires k < 6 => d.runOnNegativeFailsafe && checks[k].value < 0.0;
    if Fails(checks[0]) then Individual(false, Some(0), alert(0))
    else if Fails(checks[1]) then Individual(false, Some(1), alert(1))
    else if Fails(checks[2]) then Individual(false, Some(2), alert(2))
    else if Fails(checks[3]) then Individual(false, Some(3), alert(3))
    else if Fails(checks[4]) then Individual(false, Some(4), alert(4))
    else if Fails(checks[5]) then Individual(false, Some(5), alert(5))
    else
      Individual(true, None, false)
  }

  /** The negative failsafe only logs: switching it leaves the verdict and
      the failing check unchanged. */
  lemma FailsafeOnlyLogs(d: DefenseConfig, s: SocialConfig, st: Standing)
    ensures var on := CheckIndividualStandings(d.(runOnNegativeFailsafe := true), s, st);
            var off := CheckIndividualStandings(d.(runOnNegativeFailsafe := false), s, st);
            on.passed == off.passed && on.failed == off.failed && !off.negativeAlert
  {
    assert IndividualChecks(d.(runOnNegativeFailsafe := true), s, st)
        == IndividualChecks(d.(runOnNegativeFailsafe := false), s, st);
  }

  /** `d` switches on every individual check `e` does. */
  predicate MoreIndividualChecks(d: DefenseConfig, e: DefenseConfig) {
    && (e.runOnMeToPilot ==> d.runOnMeToPilot)
    && (e.runOnMeToCorp ==> d.runOnMeToCorp)
    && (e.runOnCorpToPilot ==> d.runOnCorpToPilot)
    && (e.runOnCorpToCorp ==> d.runOnCorpToCorp)
    && (e.runOnCorpToAlliance ==> d.runOnCorpToAlliance)
    && (e.runOnAllianceToAlliance ==> d.runOnAllianceToAlliance)
  }

  /** Switching on more checks can only make a pilot fail, never pass. */
  lemma MoreChecksAreStricter(d: DefenseConfig, e: DefenseConfig, s: SocialConfig, st: Standing)
    requires MoreIndividualChecks(d, e)
    ensures CheckIndividualStandings(d, s, st).passed ==> CheckIndividualStandings(e, s, st).passed
  {
    if CheckIndividualStandings(d, s, st).passed {
      forall k | 0 <= k < 6
        ensures !Fails(IndividualChecks(e, s, st)[k])
      {
        assert !Fails(IndividualChecks(d, s, st)[k]);
      }
    }
  }

  // ----- The combined corps/alliances check -----

  /** The four corp and alliance standings the combined check reads. */
  function GroupStandings(st: Standing): (r: seq<real>)
    ensures |r| == 4
  {
    [st.meToCorp, st.corpToCorp, st.corpToAlliance, st.allianceToAlliance]
  }

  /** `CheckCorpsAlliancesStanding`. */
  function CheckCorpsAlliancesStanding(d: DefenseConfig, s: SocialConfig, st: Standing): (r: bool)
    // Off, it always passes.
    ensures !d.runOnCorpsAlliances ==> r
    // With the failsafe, any negative standing of the four fails.
    ensures d.runOnCorpsAlliances && d.runOnNegativeFailsafe && (exists k :: 0 <= k < 4 && GroupStandings(st)[k] < 0.0)
            ==> !r
    // Otherwise one standing strictly above the minimum is enough, and
    // the check fails only when all four are at or below it.
    ensures d.runOnCorpsAlliances && !(d.runOnNegativeFailsafe && exists k :: 0 <= k < 4 && GroupStandings(st)[k] < 0.0)
            ==> (r <==> exists k :: 0 <= k < 4 && GroupStandings(st)[k] > s.minimumCorpsAlliancesStanding as real)
  {
    if !d.runOnCorpsAlliances then true
    else
      var min := s.minimumCorpsAlliancesStanding as real;
      var g := GroupStandings(st);
      assert g[0] == st.meToCorp && g[1] == st.corpToCorp && g[2] == st.corpToAlliance && g[3] == st.allianceToAlliance;
      if d.runOnNegativeFailsafe && st.meToCorp < 0.0 then false
      else if d.runOnNegativeFailsafe && st.corpToCorp < 0.0 then false
      else if d.runOnNegativeFailsafe && st.corpToAlliance < 0.0 then false
      else if d.runOnNegativeFailsafe && st.allianceToAlliance < 0.0 then false
      else st.meToCorp > min || st.corpToCorp > min || st.corpToAlliance > min || st.allianceToAlliance > min
  }

  /** The failsafe only makes the combined check stricter. */
  lemma FailsafeIsStricter(d: DefenseConfig, s: SocialConfig, st: Standing)
    ensures CheckCorpsAlliancesStanding(d.(runOnNegativeFailsafe := true), s, st)
            ==> CheckCorpsAlliancesStanding(d.(runOnNegativeFailsafe := false), s, st)
  {
    var on := d.(runOnNegativeFailsafe := true);
    if on.runOnCorpsAlliances && CheckCorpsAlliancesStanding(on, s, st) {
      assert !exists k :: 0 <= k < 4 && GroupStandings(st)[k] < 0.0;
    }
  }

  // ----- Standings of one pilot -----

  /** A corpmate, or a member of the player's alliance (a real one: the id
      must be positive). */
  predicate SameSide(me: Me, p: CachedPilot) {
    p.corpId == me.corporationId || (p.allianceId == me.allianceId && p.allianceId > 0)
  }

  /** `CheckStandings`: corpmates and alliance members pass unchecked;
      anyone else must pass the individual checks and then the combined
      one. */
  function CheckStandings(me: Me, d: DefenseConfig, s: SocialConfig, p: CachedPilot): (r: bool)
    ensures SameSide(me, p) ==> r
    ensures !SameSide(me, p) ==>
              (r <==> && (forall k :: 0 <= k < 6 ==> !Fails(IndividualChecks(d, s, p.standing)[k]))
                      && CheckCorpsAlliancesStanding(d, s, p.standing))
  {
    if SameSide(me, p) then true
    else if !CheckIndividualStandings(d, s, p.standing).passed then false
    else CheckCorpsAlliancesStanding(d, s, p.standing)
  }

  // ----- One local pilot -----

  /** Why a pilot makes local unsafe. */
  datatype Reason = Uncached | OffWhitelist | AllianceBlacklisted | CorpBlacklisted | PilotBlacklisted | BadStandings

  /** The pilot that makes local unsafe, under the name the hostile list
      records. */
  datatype Offence = Offence(reason: Reason, name: string)

  /** On no whitelist: not on the alliance whitelist (or in no alliance),
      the corp whitelist or the pilot whitelist. */
  predicate NotWhitelisted(s: SocialConfig, p: CachedPilot) {
    && (p.allianceId < 0 || p.alliance !in s.allianceWhitelist)
    && p.corp !in s.corpWhitelist
    && p.name !in s.pilotWhitelist
  }

  predicate Blacklisted(s: SocialConfig, p: CachedPilot) {
    p.alliance in s.allianceBlacklist || p.corp in s.corpBlacklist || p.name in s.pilotBlacklist
  }

  /** The body of the loop over local pilots for one pilot other than the
      player: the offence it finds, if any. */
  function PilotOffence(me: Me, d: DefenseConfig, s: SocialConfig, cache: map<int, CachedPilot>,
                        pilot: LocalPilot): (r: Option<Offence>)
    // A pilot missing from the cache is an offence under the local name.
    ensures pilot.charId !in cache ==> r == Some(Offence(Uncached, pilot.name))
    // Every other offence is recorded under the cached name.
    ensures pilot.charId in cache && r.Some? ==> r.value.name == cache[pilot.charId].name
    // The whitelist rule, when on, comes before everything else.
    ensures pilot.charId in cache && d.runOnNonWhitelistedPilot && NotWhitelisted(s, cache[pilot.charId]) ==>
              r == Some(Offence(OffWhitelist, cache[pilot.charId].name))
    // Any blacklist hit is an offence, whitelisted or not; the blacklists
    // are consulted alliance first, then corp, then pilot.
    ensures pilot.charId in cache && d.runOnBlacklistedPilot && Blacklisted(s, cache[pilot.charId]) ==> r.Some?
    ensures pilot.charId in cache && r.Some? && r.value.reason == AllianceBlacklisted ==>
              d.runOnBlacklistedPilot && cache[pilot.charId].alliance in s.allianceBlacklist
    ensures pilot.charId in cache && r.Some? && r.value.reason == CorpBlacklisted ==>
              && d.runOnBlacklistedPilot && cache[pilot.charId].alliance !in s.allianceBlacklist
              && cache[pilot.charId].corp in s.corpBlacklist
    ensures pilot.charId in cache && r.Some? && r.value.reason == PilotBlacklisted ==>
              && d.runOnBlacklistedPilot && cache[pilot.charId].alliance !in s.allianceBlacklist
              && cache[pilot.charId].corp !in s.corpBlacklist && cache[pilot.charId].name in s.pilotBlacklist
    // Standings count only when the checks are not disabled.
    ensures r.Some? && r.value.reason == BadStandings ==>
              pilot.charId in cache && !d.disableStandingsChecks
              && !CheckStandings(me, d, s, cache[pilot.charId])
    ensures pilot.charId in cache && r.None? ==>
              && !(d.runOnNonWhitelistedPilot && NotWhitelisted(s, cache[pilot.charId]))
              && !(d.runOnBlacklistedPilot && Blacklisted(s, cache[pilot.charId]))
              && (d.disableStandingsChecks || CheckStandings(me, d, s, cache[pilot.charId]))
  {
    if pilot.charId !in cache then Some(Offence(Uncached, pilot.name))
    else
      var p := cache[pilot.charId];
      if d.runOnNonWhitelistedPilot && NotWhitelisted(s, p) then Some(Offence(OffWhitelist, p.name))
      else if d.runOnBlacklistedPilot && p.alliance in s.allianceBlacklist then Some(Offence(AllianceBlacklisted, p.name))
      else if d.runOnBlacklistedPilot && p.corp in s.corpBlacklist then Some(Offence(CorpBlacklisted, p.name))
      else if d.runOnBlacklistedPilot && p.name in s.pilotBlacklist then Some(Offence(PilotBlacklisted, p.name))
      else if d.disableStandingsChecks then None
      else if CheckStandings(me, d, s, p) then None
      else Some(Offence(BadStandings, p.name))
  }

  // ----- The whole of local -----

  /** The source's early exit: no solar system, or the player alone. */
  predicate Alone(me: Me, localCount: int) {
    me.solarSystemId < 0 || localCount == 1
  }

  /** The pilots the loop judges: everyone but the player. */
  predicate Judged(me: Me, pilot: LocalPilot) {
    pilot.charId != me.charId
  }

  /** `DetermineIfLocalIsSafe`: `localCount` is the size of the live local
      list, `pilots` the list gathered for this pulse. */
  method DetermineIfLocalIsSafe(me: Me, d: DefenseConfig, s: SocialConfig, cache: map<int, CachedPilot>,
                                localCount: int, pilots: seq<LocalPilot>)
    returns (safe: bool, hostiles: seq<string>)
    ensures Alone(me, localCount) ==> safe && hostiles == []
    // Safe exactly when every judged pilot is free of offence.
    ensures !Alone(me, localCount) ==>
              (safe <==> forall k :: 0 <= k < |pilots| && Judged(me, pilots[k]) ==>
                           PilotOffence(me, d, s, cache, pilots[k]).None?)
    // The hostile list is empty when safe, and otherwise holds the name of
    // the first offending pilot, alone.
    ensures safe <==> hostiles == []
    ensures !safe ==>
              exists k :: && 0 <= k < |pilots| && Judged(me, pilots[k])
                          && PilotOffence(me, d, s, cache, pilots[k]).Some?
                          && hostiles == [PilotOffence(me, d, s, cache, pilots[k]).value.name]
                          && forall j :: 0 <= j < k && Judged(me, pilots[j]) ==>
                                           PilotOffence(me, d, s, cache, pilots[j]).None?
  {
    hostiles := [];
    if Alone(me, localCount) {
      return true, [];
    }
    var i := 0;
    while i < |pilots|
      invariant 0 <= i <= |pilots|
      invariant forall j :: 0 <= j < i && Judged(me, pilots[j]) ==> PilotOffence(me, d, s, cache, pilots[j]).None?
    {
      var pilot := pilots[i];
      if pilot.charId != me.charId {
        var offence := PilotOffence(me, d, s, cache, pilot);
        if offence.Some? {
          return false, [offence.value.name];
        }
      }
      i := i + 1;
    }
    return true, [];
  }
}

=== FILE: targets.dfy ===
/** The target lists of the non-offensive module
    (`GetMiningTargets`, `GetSalvageTargets`, `GetSortedTargets`): an inner
    join of the target queue with the live entities, filtered by target type
    and stably ordered. */
module TargetLists {
  import opened Base
  import opened Ordering
  import opened World

  /** One row of the join: a queue entry and the live entity with its id. */
  datatype Pair = Pair(entry: QueueEntry, entity: Entity)

  /** The live entities matching one queue entry, in snapshot order. */
  function MatchEntities(q: QueueEntry, entities: seq<Entity>): (r: seq<Pair>)
    ensures forall p :: p in r <==> p.entry == q && p.entity in entities && p.entity.id == q.id
  {
    if |entities| == 0 then []
    else (if entities[0].id == q.id then [Pair(q, entities[0])] else [])
         + MatchEntities(q, entities[1..])
  }

  /** LINQ `queue.Join(entities, ...)`: for each queue entry in order, its
      matching entities in order. */
  function JoinQueue(queue: seq<QueueEntry>, entities: seq<Entity>): (r: seq<Pair>)
    ensures forall p :: p in r <==> p.entry in queue && p.entity in entities && p.entity.id == p.entry.id
  {
    if |queue| == 0 then []
    else MatchEntities(queue[0], entities) + JoinQueue(queue[1..], entities)
  }

  /** The join rows whose queue entry has type `t`, in join order. */
  function OfType(pairs: seq<Pair>, t: TargetType): (r: seq<Pair>)
    ensures forall p :: p in r <==> p in pairs && p.entry.targetType == t
  {
    if |pairs| == 0 then []
    else (if pairs[0].entry.targetType == t then [pairs[0]] else [])
         + OfType(pairs[1..], t)
  }

  /** The rows in the order the sort sees them: the join, then the type filter. */
  function TypedJoin(queue: seq<QueueEntry>, entities: seq<Entity>, t: TargetType): seq<Pair> {
    OfType(JoinQueue(queue, entities), t)
  }

  /** `OrderBy(Priority).ThenByDescending(SubPriority).ThenBy(Distance)`. */
  function QueueOrderKey(p: Pair): seq<real> {
    [p.entry.priority as real, -(p.entry.subPriority as real), p.entity.distance]
  }

  /** The canonical priority law, stated without keys: `a` may come before `b`. */
  predicate Precedes(a: Pair, b: Pair) {
    || a.entry.priority < b.entry.priority
    || (a.entry.priority == b.entry.priority && a.entry.subPriority > b.entry.subPriority)
    || (a.entry.priority == b.entry.priority && a.entry.subPriority == b.entry.subPriority
        && a.entity.distance <= b.entity.distance)
  }

  /** `a` and `b` tie on all three sort keys. */
  predicate Ties(a: Pair, b: Pair) {
    a.entry.priority == b.entry.priority && a.entry.subPriority == b.entry.subPriority
    && a.entity.distance == b.entity.distance
  }

  lemma QueueKeyOrder(a: Pair, b: Pair)
    ensures LexLe(QueueOrderKey(a), QueueOrderKey(b)) ==> Precedes(a, b)
    ensures Ties(a, b) <==> QueueOrderKey(a) == QueueOrderKey(b)
  {
    var ka, kb := QueueOrderKey(a), QueueOrderKey(b);
    if LexLe(ka, kb) && !(ka[0] < kb[0]) {
      assert LexLe(ka[1..], kb[1..]);
      if !(ka[1..][0] < kb[1..][0]) {
        assert LexLe(ka[1..][1..], kb[1..][1..]);
        assert ka[1..][1..][0] <= kb[1..][1..][0];
      }
    }
    if QueueOrderKey(a) == QueueOrderKey(b) {
      assert ka[0] == kb[0] && ka[1] == kb[1];
    }
  }

  /** The target list as join rows tagged with their position in the typed
      join: exactly the queue entries of type `t` whose id is live, ordered
      by priority ascending, sub-priority descending, distance ascending,
      ties kept in join order. */
  function SortedTargetRows(queue: seq<QueueEntry>, entities: seq<Entity>, t: TargetType): (r: seq<Keyed<Pair>>)
    ensures |r| == |TypedJoin(queue, entities, t)|
    ensures forall i :: 0 <= i < |r| ==>
              && r[i].item.entry in queue && r[i].item.entity in entities
              && r[i].item.entity.id == r[i].item.entry.id && r[i].item.entry.targetType == t
    ensures forall q, e :: q in queue && e in entities && q.id == e.id && q.targetType == t
                           ==> exists i :: 0 <= i < |r| && r[i].item == Pair(q, e)
    ensures forall i :: 0 <= i < |r| ==> r[i].rank < |TypedJoin(queue, entities, t)|
                                         && r[i].item == TypedJoin(queue, entities, t)[r[i].rank]
    ensures forall i, j :: 0 <= i < j < |r| ==> Precedes(r[i].item, r[j].item)
    ensures forall i, j :: 0 <= i < j < |r| && Ties(r[i].item, r[j].item) ==> r[i].rank < r[j].rank
  {
    QueueRowsFacts(queue, entities, t);
    OrderBy(TypedJoin(queue, entities, t), QueueOrderKey)
  }

  /** The facts `SortedTargetRows` promises, about the sorted typed join. */
  lemma QueueRowsFacts(queue: seq<QueueEntry>, entities: seq<Entity>, t: TargetType)
    ensures var r := OrderBy(TypedJoin(queue, entities, t), QueueOrderKey);
            && |r| == |TypedJoin(queue, entities, t)|
            && (forall i :: 0 <= i < |r| ==>
                  && r[i].item.entry in queue && r[i].item.entity in entities
                  && r[i].item.entity.id == r[i].item.entry.id && r[i].item.entry.targetType == t)
            && (forall q, e :: q in queue && e in entities && q.id == e.id && q.targetType == t ==>
                  exists i :: 0 <= i < |r| && r[i].item == Pair(q, e))
            && (forall i :: 0 <= i < |r| ==> r[i].rank < |TypedJoin(queue, entities, t)|
                                             && r[i].item == TypedJoin(queue, entities, t)[r[i].rank])
            && (forall i, j :: 0 <= i < j < |r| ==> Precedes(r[i].item, r[j].item))
            && (forall i, j :: 0 <= i < j < |r| && Ties(r[i].item, r[j].item) ==> r[i].rank < r[j].rank)
  {
    QueueRowsItems(queue, entities, t);
    QueueRowsCover(queue, entities, t);
    QueueRowsOrdered(TypedJoin(queue, entities, t));
  }

  /** Every sorted row is the typed join row its rank names. */
  lemma QueueRowsItems(queue: seq<QueueEntry>, entities: seq<Entity>, t: TargetType)
    ensures var joined := TypedJoin(queue, entities, t);
            var r := OrderBy(joined, QueueOrderKey);
            forall i :: 0 <= i < |r| ==>
              && r[i].rank < |joined| && r[i].item == joined[r[i].rank]
              && r[i].item.entry in queue && r[i].item.entity in entities
              && r[i].item.entity.id == r[i].item.entry.id && r[i].item.entry.targetType == t
  {
    var joined := TypedJoin(queue, entities, t);
    OrderByItems(joined, QueueOrderKey);
  }

  /** Every typed join row has a sorted row. */
  lemma QueueRowsCover(queue: seq<QueueEntry>, entities: seq<Entity>, t: TargetType)
    ensures var r := OrderBy(TypedJoin(queue, entities, t), QueueOrderKey);
            forall q, e :: q in queue && e in entities && q.id == e.id && q.targetType == t
                           ==> exists i :: 0 <= i < |r| && r[i].item == Pair(q, e)
  {
    var joined := TypedJoin(queue, entities, t);
    forall q, e | q in queue && e in entities && q.id == e.id && q.targetType == t
      ensures exists i :: 0 <= i < |OrderBy(joined, QueueOrderKey)| && OrderBy(joined, QueueOrderKey)[i].item == Pair(q, e)
    {
      assert Pair(q, e) in joined;
      OrderByHolds(joined, QueueOrderKey, Pair(q, e));
    }
  }

  /** Ordering by the queue key puts the rows in priority order, ties in input order. */
  lemma QueueRowsOrdered(joined: seq<Pair>)
    ensures var r := OrderBy(joined, QueueOrderKey);
            && (forall i, j :: 0 <= i < j < |r| ==> Precedes(r[i].item, r[j].item))
            && (forall i, j :: 0 <= i < j < |r| && Ties(r[i].item, r[j].item) ==> r[i].rank < r[j].rank)
  {
    var r := OrderBy(joined, QueueOrderKey);
    OrderByItems(joined, QueueOrderKey);
    forall i, j | 0 <= i < j < |r|
      ensures Precedes(r[i].item, r[j].item)
      ensures Ties(r[i].item, r[j].item) ==> r[i].rank < r[j].rank
    {
      QueueKeyOrder(r[i].item, r[j].item);
    }
  }

  /** The entity column of a list of join rows. */
  function EntityColumn(rows: seq<Keyed<Pair>>): (r: seq<Entity>)
    ensures |r| == |rows|
    ensures forall i :: 0 <= i < |rows| ==> r[i] == rows[i].item.entity
  {
    seq(|rows|, i requires 0 <= i < |rows| => rows[i].item.entity)
  }

  /** The entities of the target list, in order. */
  function GetTargets(queue: seq<QueueEntry>, entities: seq<Entity>, t: TargetType): (r: seq<Entity>)
    ensures forall e :: e in r <==> e in entities && exists q :: q in queue && q.id == e.id && q.targetType == t
  {
    var rows := SortedTargetRows(queue, entities, t);
    var r := EntityColumn(rows);
    forall e | e in entities && exists q :: q in queue && q.id == e.id && q.targetType == t
      ensures e in r
    {
      var q :| q in queue && q.id == e.id && q.targetType == t;
      var i :| 0 <= i < |rows| && rows[i].item == Pair(q, e);
      assert r[i] == e;
    }
    r
  }

  /** `GetMiningTargets`: the queued mining targets that are live, by priority. */
  function GetMiningTargets(queue: seq<QueueEntry>, entities: seq<Entity>): seq<Entity> {
    GetTargets(queue, entities, Mine)
  }

  /** `GetSalvageTargets`: the queued loot/salvage targets that are live, by priority. */
  function GetSalvageTargets(queue: seq<QueueEntry>, entities: seq<Entity>): seq<Entity> {
    GetTargets(queue, entities, LootSalvage)
  }

  /** The rows of the target list and the entity list agree position by position. */
  lemma TargetsAreRowEntities(queue: seq<QueueEntry>, entities: seq<Entity>, t: TargetType)
    ensures |GetTargets(queue, entities, t)| == |SortedTargetRows(queue, entities, t)|
    ensures forall i :: 0 <= i < |GetTargets(queue, entities, t)| ==>
              GetTargets(queue, entities, t)[i] == SortedTargetRows(queue, entities, t)[i].item.entity
  {
  }

  // ---------------------------------------------------------------------
  // GetSortedTargets(sortByNumModules: true, restrictByType: true, LootSalvage)

  /** The queue entries matching one entity, in queue order. */
  function MatchEntries(e: Entity, queue: seq<QueueEntry>): (r: seq<Pair>)
    ensures forall p :: p in r <==> p.entity == e && p.entry in queue && p.entry.id == e.id
  {
    if |queue| == 0 then []
    else (if queue[0].id == e.id then [Pair(queue[0], e)] else [])
         + MatchEntries(e, queue[1..])
  }

  /** `from ce in targets join qt in queue on ce.ID equals qt.Id`: the
      entities are the outer sequence here. */
  function JoinEntities(targets: seq<Entity>, queue: seq<QueueEntry>): (r: seq<Pair>)
    ensures forall p :: p in r <==> p.entity in targets && p.entry in queue && p.entry.id == p.entity.id
  {
    if |targets| == 0 then []
    else MatchEntries(targets[0], queue) + JoinEntities(targets[1..], queue)
  }

  /** The targeting collaborator's per-entity inputs to the tractor order. */
  datatype TractorOrderInputs = TractorOrderInputs(
    modulesOnEntity: map<int, int>,   // GetNumModulesOnEntity; absent means 0
    attackers: set<int>)              // AttackersById keys

  function ModulesOn(inputs: TractorOrderInputs, id: int): int {
    if id in inputs.modulesOnEntity then inputs.modulesOnEntity[id] else 0
  }

  /** Modules ascending, priority ascending, sub-priority descending,
      attacking descending, time queued ascending. */
  function TractorOrderKey(inputs: TractorOrderInputs, p: Pair): seq<real> {
    [ModulesOn(inputs, p.entity.id) as real,
     p.entry.priority as real,
     -(p.entry.subPriority as real),
     -(if p.entity.id in inputs.attackers then 1.0 else 0.0),
     p.entry.timeQueued as real]
  }

  /** The tractor target rows, ordered by the tractor order: one row per
      join row, each carrying its join row. */
  function SortedTractorRows(locked: seq<Entity>, queue: seq<QueueEntry>, inputs: TractorOrderInputs)
    : (r: seq<Keyed<Pair>>)
    ensures forall i :: 0 <= i < |r| ==> r[i].item in JoinEntities(locked, queue)
    ensures forall p :: p in JoinEntities(locked, queue) ==> exists i :: 0 <= i < |r| && r[i].item == p
  {
    var key := p => TractorOrderKey(inputs, p);
    var joined := JoinEntities(locked, queue);
    OrderByItems(joined, key);
    forall p | p in joined
      ensures exists i :: 0 <= i < |OrderBy(joined, key)| && OrderBy(joined, key)[i].item == p
    {
      OrderByHolds(joined, key, p);
    }
    OrderBy(joined, key)
  }

  /** The tractor rows are sorted by the tractor key of their join rows. */
  lemma TractorRowsSorted(locked: seq<Entity>, queue: seq<QueueEntry>, inputs: TractorOrderInputs)
    ensures var r := SortedTractorRows(locked, queue, inputs);
            && Sorted(r)
            && forall i :: 0 <= i < |r| ==> r[i].key == TractorOrderKey(inputs, r[i].item)
  {
    var key := p => TractorOrderKey(inputs, p);
    OrderByItems(JoinEntities(locked, queue), key);
  }

  /** `GetSortedTractorTargets`: the locked tractor targets that have a queue
      entry of their id (of any type), ordered by the tractor order. */
  function GetSortedTractorTargets(locked: seq<Entity>, queue: seq<QueueEntry>, inputs: TractorOrderInputs)
    : (r: seq<Entity>)
    ensures forall e :: e in r <==> e in locked && exists q :: q in queue && q.id == e.id
  {
    var rows := SortedTractorRows(locked, queue, inputs);
    var r := EntityColumn(rows);
    forall e | e in locked && exists q :: q in queue && q.id == e.id
      ensures e in r
    {
      var q :| q in queue && q.id == e.id;
      assert Pair(q, e) in JoinEntities(locked, queue);
      var i :| 0 <= i < |rows| && rows[i].item == Pair(q, e);
      assert r[i] == e;
    }
    forall e | e in r
      ensures e in locked && exists q :: q in queue && q.id == e.id
    {
      var i :| 0 <= i < |r| && r[i] == e;
      assert rows[i].item in JoinEntities(locked, queue);
    }
    r
  }

  /** The head of the tractor list is a best row: it has a queue entry whose
      tractor key is no greater than that of any join row. */
  lemma TractorHeadIsBest(locked: seq<Entity>, queue: seq<QueueEntry>, inputs: TractorOrderInputs)
    requires |GetSortedTractorTargets(locked, queue, inputs)| > 0
    ensures var head := GetSortedTractorTargets(locked, queue, inputs)[0];
            exists q :: q in queue && q.id == head.id
              && forall p :: p in JoinEntities(locked, queue) ==>
                   LexLe(TractorOrderKey(inputs, Pair(q, head)), TractorOrderKey(inputs, p))
  {
    var rows := SortedTractorRows(locked, queue, inputs);
    TractorRowsSorted(locked, queue, inputs);
    var head := GetSortedTractorTargets(locked, queue, inputs)[0];
    var q := rows[0].item.entry;
    assert Pair(q, head) == rows[0].item;
    assert rows[0].item in JoinEntities(locked, queue);
    forall p | p in JoinEntities(locked, queue)
      ensures LexLe(TractorOrderKey(inputs, Pair(q, head)), TractorOrderKey(inputs, p))
    {
      var i :| 0 <= i < |rows| && rows[i].item == p;
      if i > 0 {
        assert LexLe(rows[0].key, rows[i].key);
      } else {
        LexReflexive(rows[0].key);
      }
    }
  }

  /** Join row `n` has a least tractor key, and no earlier row has that key. */
  ghost predicate FirstLeastRow(joined: seq<Pair>, inputs: TractorOrderInputs, n: int) {
    && 0 <= n < |joined|
    && (forall m :: 0 <= m < |joined| ==>
          LexLe(TractorOrderKey(inputs, joined[n]), TractorOrderKey(inputs, joined[m])))
    && (forall m :: 0 <= m < n ==> TractorOrderKey(inputs, joined[m]) != TractorOrderKey(inputs, joined[n]))
  }

  /** Ties go to join order: the head of the tractor list comes from the
      first join row with a least tractor key, so every earlier join row has
      a different key. */
  lemma TractorHeadIsFirstBest(locked: seq<Entity>, queue: seq<QueueEntry>, inputs: TractorOrderInputs)
    requires |GetSortedTractorTargets(locked, queue, inputs)| > 0
    ensures var head := GetSortedTractorTargets(locked, queue, inputs)[0];
            var joined := JoinEntities(locked, queue);
            exists n :: FirstLeastRow(joined, inputs, n) && joined[n].entity == head
  {
    var joined := JoinEntities(locked, queue);
    var rows := SortedTractorRows(locked, queue, inputs);
    var head := GetSortedTractorTargets(locked, queue, inputs)[0];
    assert rows[0].item.entity == head;
    TractorRowsExact(locked, queue, inputs);
    FirstLeastFromRows(joined, inputs, rows);
    assert rows[0] in rows;
    assert FirstLeastRow(joined, inputs, rows[0].rank) && joined[rows[0].rank].entity == head;
  }

  /** The tractor rows are the join rows, each once, tagged with its tractor
      key and join position, sorted and stable. */
  lemma TractorRowsExact(locked: seq<Entity>, queue: seq<QueueEntry>, inputs: TractorOrderInputs)
    ensures var joined := JoinEntities(locked, queue);
            var r := SortedTractorRows(locked, queue, inputs);
            && Sorted(r) && Stable(r)
            && (forall e :: e in r ==>
                  e.rank < |joined| && e == Keyed(TractorOrderKey(inputs, joined[e.rank]), e.rank, joined[e.rank]))
            && (forall k :: 0 <= k < |joined| ==> Keyed(TractorOrderKey(inputs, joined[k]), k, joined[k]) in r)
  {
    var key := p => TractorOrderKey(inputs, p);
    var joined := JoinEntities(locked, queue);
    var r := OrderBy(joined, key);
    assert SortedTractorRows(locked, queue, inputs) == r;
    forall e | e in r
      ensures e.rank < |joined| && e == Keyed(TractorOrderKey(inputs, joined[e.rank]), e.rank, joined[e.rank])
    {
      assert key(joined[e.rank]) == TractorOrderKey(inputs, joined[e.rank]);
    }
    forall k | 0 <= k < |joined|
      ensures Keyed(TractorOrderKey(inputs, joined[k]), k, joined[k]) in r
    {
      assert key(joined[k]) == TractorOrderKey(inputs, joined[k]);
    }
  }

  /** In sorted, stable rows of every join row, the first row is a first
      least join row. */
  lemma FirstLeastFromRows(joined: seq<Pair>, inputs: TractorOrderInputs, r: seq<Keyed<Pair>>)
    requires |r| > 0 && Sorted(r) && Stable(r)
    requires forall e :: e in r ==>
               e.rank < |joined| && e == Keyed(TractorOrderKey(inputs, joined[e.rank]), e.rank, joined[e.rank])
    requires forall k :: 0 <= k < |joined| ==> Keyed(TractorOrderKey(inputs, joined[k]), k, joined[k]) in r
    ensures r[0].rank < |joined| && FirstLeastRow(joined, inputs, r[0].rank)
  {
    assert r[0] in r;
    var n := r[0].rank;
    forall m | 0 <= m < |joined|
      ensures LexLe(TractorOrderKey(inputs, joined[n]), TractorOrderKey(inputs, joined[m]))
      ensures m < n ==> TractorOrderKey(inputs, joined[m]) != TractorOrderKey(inputs, joined[n])
    {
      var i :| 0 <= i < |r| && r[i] == Keyed(TractorOrderKey(inputs, joined[m]), m, joined[m]);
      if i > 0 {
        assert LexLe(r[0].key, r[i].key);
        assert r[0].key == r[i].key ==> r[0].rank < r[i].rank;
      } else {
        LexReflexive(r[0].key);
      }
    }
  }



  /** LINQ `Where(p)` over entities: those satisfying `p`, in order. */
  function Where(s: seq<Entity>, p: Entity -> bool): (r: seq<Entity>)
    ensures forall e :: e in r <==> e in s && p(e)
    ensures |r| <= |s|
  {
    if |s| == 0 then []
    else (if p(s[0]) then [s[0]] else []) + Where(s[1..], p)
  }

  /** `x` occurs in `s` strictly before some occurrence of `y`. */
  ghost predicate OccursBefore(s: seq<Entity>, x: Entity, y: Entity) {
    exists a, b :: 0 <= a < b < |s| && s[a] == x && s[b] == y
  }

  /** Any two elements of `r` appear in `s` in the same order. */
  ghost predicate KeepsOrderOf(r: seq<Entity>, s: seq<Entity>) {
    forall i, j :: 0 <= i < j < |r| ==> OccursBefore(s, r[i], r[j])
  }

  /** `Where` keeps order: any two survivors appear in `s` in the same order. */
  lemma {:induction false} WhereKeepsOrder(s: seq<Entity>, p: Entity -> bool)
    ensures KeepsOrderOf(Where(s, p), s)
    decreases |s|
  {
    if |s| > 0 {
      var tail := s[1..];
      assert s == [s[0]] + tail;
      WhereKeepsOrder(tail, p);
      if p(s[0]) {
        ConsKeepsOrder(s[0], Where(tail, p), tail);
      } else {
        SkipKeepsOrder(s[0], Where(tail, p), tail);
      }
    }
  }

  /** Keeping the first element of `s` keeps order. */
  lemma ConsKeepsOrder(x: Entity, r: seq<Entity>, s: seq<Entity>)
    requires KeepsOrderOf(r, s)
    requires forall e :: e in r ==> e in s
    ensures KeepsOrderOf([x] + r, [x] + s)
  {
    var r', s' := [x] + r, [x] + s;
    forall i, j | 0 <= i < j < |r'|
      ensures OccursBefore(s', r'[i], r'[j])
    {
      if i == 0 {
        assert r'[j] == r[j - 1] && r[j - 1] in s;
        var b :| 0 <= b < |s| && s[b] == r[j - 1];
        assert s'[0] == r'[i] && s'[b + 1] == r'[j];
      } else {
        assert r'[i] == r[i - 1] && r'[j] == r[j - 1];
        assert OccursBefore(s, r[i - 1], r[j - 1]);
        var a, b :| 0 <= a < b < |s| && s[a] == r[i - 1] && s[b] == r[j - 1];
        assert s'[a + 1] == r'[i] && s'[b + 1] == r'[j];
      }
    }
  }

  /** Dropping the first element of `s` keeps order. */
  lemma SkipKeepsOrder(x: Entity, r: seq<Entity>, s: seq<Entity>)
    requires KeepsOrderOf(r, s)
    ensures KeepsOrderOf(r, [x] + s)
  {
    var s' := [x] + s;
    forall i, j | 0 <= i < j < |r|
      ensures OccursBefore(s', r[i], r[j])
    {
      assert OccursBefore(s, r[i], r[j]);
      var a, b :| 0 <= a < b < |s| && s[a] == r[i] && s[b] == r[j];
      assert s'[a + 1] == r[i] && s'[b + 1] == r[j];
    }
  }

  /** The sort key of `OrderBy(t => t.Distance)`. */
  function DistanceKey(e: Entity): seq<real> {
    [e.distance]
  }

  /** LINQ `OrderBy(t => t.Distance)`: the same entities, nearest first
      (the stable sort keeps equally distant entities in input order). */
  function OrderByDistance(s: seq<Entity>): (r: seq<Entity>)
    ensures |r| == |s|
    ensures forall e :: e in r <==> e in s
    ensures multiset(r) == multiset(s)
    ensures forall i, j :: 0 <= i < j < |r| ==> r[i].distance <= r[j].distance
  {
    OrderByItems(s, DistanceKey);
    DistanceRowsCover(s);
    DistanceRowsOrdered(s);
    OrderByPermutes(s, DistanceKey);
    Items(OrderBy(s, DistanceKey))
  }

  /** The input positions of `OrderByDistance(s)`, in output order. */
  function DistanceRanks(s: seq<Entity>): seq<nat> {
    Ranks(OrderBy(s, DistanceKey))
  }

  /** `OrderByDistance` is a stable sort: output position `i` holds the input
      entity at position `DistanceRanks(s)[i]`, each input position is used
      once, and equally distant entities keep their input order. */
  lemma OrderByDistanceStable(s: seq<Entity>)
    ensures var r := OrderByDistance(s);
            var ranks := DistanceRanks(s);
            && |ranks| == |r|
            && (forall i :: 0 <= i < |r| ==> ranks[i] < |s| && r[i] == s[ranks[i]])
            && (forall i, j :: 0 <= i < j < |r| ==> ranks[i] != ranks[j])
            && (forall i, j :: 0 <= i < j < |r| && r[i].distance == r[j].distance ==> ranks[i] < ranks[j])
  {
    var rows := OrderBy(s, DistanceKey);
    OrderByItems(s, DistanceKey);
    forall i, j | 0 <= i < j < |rows| && rows[i].item.distance == rows[j].item.distance
      ensures rows[i].rank < rows[j].rank
    {
      assert rows[i].key == rows[j].key;
    }
  }

  /** Every entity has a row once sorted by distance. */
  lemma DistanceRowsCover(s: seq<Entity>)
    ensures forall k :: 0 <= k < |s| ==> s[k] in Items(OrderBy(s, DistanceKey))
  {
    var rows := OrderBy(s, DistanceKey);
    var r := Items(rows);
    forall k | 0 <= k < |s|
      ensures s[k] in r
    {
      OrderByHolds(s, DistanceKey, s[k]);
      var i :| 0 <= i < |rows| && rows[i].item == s[k];
      assert r[i] == s[k];
    }
  }

  /** Sorting by distance puts the nearest first. */
  lemma DistanceRowsOrdered(s: seq<Entity>)
    ensures var r := Items(OrderBy(s, DistanceKey));
            forall i, j :: 0 <= i < j < |r| ==> r[i].distance <= r[j].distance
  {
    var rows := OrderBy(s, DistanceKey);
    var r := Items(rows);
    OrderByItems(s, DistanceKey);
    forall i, j | 0 <= i < j < |r|
      ensures r[i].distance <= r[j].distance
    {
      assert LexLe(rows[i].key, rows[j].key);
      assert rows[i].key[1..] == [];
    }
  }
}

=== FILE: tractors.dfy ===
/** Phase 3 of `ManageIdleSalvageModules`: put at most one idle tractor beam
    on a distant locked salvage target per pulse.

    The candidates are the locked salvage targets beyond loot range that no
    active tractor holds, nearest first. Each idle tractor, in fitting
    order, takes the first candidate within its optimal range; it may ask
    for that candidate to become the active target, and it fires only when
    the candidate already is the active target, after which the loop
    stops. */
module TractorPhase {
  import opened Base
  import opened World
  import opened TargetLists

  /** The result of one salvage phase: its commands and the frame's change
      flag after it. */
  datatype Phase = Phase(commands: seq<Command>, changed: bool)

  /** A live target no active tractor is holding. */
  predicate Untractored(tractors: seq<Module>, t: Entity) {
    !exists j :: 0 <= j < |tractors| && tractors[j].isActive && tractors[j].targetId == t.id
  }

  /** A salvage target that still wants a tractor: locked, beyond loot
      range, and not held by any active tractor. */
  predicate NeedsTractor(tractors: seq<Module>, lootRange: real, t: Entity) {
    t.isLocked && t.distance > lootRange && Untractored(tractors, t)
  }

  /** The tractor candidates, nearest first. */
  function TractorCandidates(salvageTargets: seq<Entity>, tractors: seq<Module>, lootRange: real): (r: seq<Entity>)
    ensures forall t :: t in r <==> t in salvageTargets && NeedsTractor(tractors, lootRange, t)
    ensures forall i, j :: 0 <= i < j < |r| ==> r[i].distance <= r[j].distance
  {
    OrderByDistance(Where(salvageTargets, t => NeedsTractor(tractors, lootRange, t)))
  }

  /** `FirstOrDefault(t => t.Distance <= range)`: the index of the first
      candidate no farther than `range`. */
  function FirstInRange(candidates: seq<Entity>, range: real): (r: Option<nat>)
    ensures r.Some? ==> r.value < |candidates| && candidates[r.value].distance <= range
                        && forall m :: 0 <= m < r.value ==> candidates[m].distance > range
    ensures r.None? <==> forall k :: 0 <= k < |candidates| ==> candidates[k].distance > range
  {
    if |candidates| == 0 then None
    else if candidates[0].distance <= range then Some(0)
    else
      match FirstInRange(candidates[1..], range)
      case None => None
      case Some(k) => Some(k + 1)
  }

  /** The candidate tractor `j` would take: the first one within its optimal
      range, a missing range counting as 0. */
  function Pick(tractors: seq<Module>, candidates: seq<Entity>, j: nat): Option<nat>
    requires j < |tractors|
  {
    FirstInRange(candidates, tractors[j].optimalRange.GetOr(0.0))
  }

  /** Tractor `j` fires: its pick is the active target. */
  predicate Fires(tractors: seq<Module>, candidates: seq<Entity>, activeTargetId: int, j: nat)
    requires j < |tractors|
  {
    var p := Pick(tractors, candidates, j);
    p.Some? && candidates[p.value].id == activeTargetId
  }

  predicate ValidIndices(idle: seq<nat>, n: nat) {
    forall k :: 0 <= k < |idle| ==> idle[k] < n
  }

  /** The position in `idle` of the first tractor that fires. */
  function FirstFiring(tractors: seq<Module>, candidates: seq<Entity>, activeTargetId: int, idle: seq<nat>)
    : (r: Option<nat>)
    requires ValidIndices(idle, |tractors|)
    ensures r.Some? ==> r.value < |idle| && Fires(tractors, candidates, activeTargetId, idle[r.value])
                        && forall m :: 0 <= m < r.value ==> !Fires(tractors, candidates, activeTargetId, idle[m])
    ensures r.None? <==> forall k :: 0 <= k < |idle| ==> !Fires(tractors, candidates, activeTargetId, idle[k])
  {
    if |idle| == 0 then None
    else if Fires(tractors, candidates, activeTargetId, idle[0]) then Some(0)
    else
      match FirstFiring(tractors, candidates, activeTargetId, idle[1..])
      case None => None
      case Some(k) => Some(k + 1)
  }

  /** On a list sorted nearest first, a tractor's pick is the nearest
      candidate of all, and lies within that tractor's optimal range. */
  lemma PickIsNearest(tractors: seq<Module>, candidates: seq<Entity>, j: nat)
    requires j < |tractors|
    requires forall a, b :: 0 <= a < b < |candidates| ==> candidates[a].distance <= candidates[b].distance
    requires Pick(tractors, candidates, j).Some?
    ensures var t := candidates[Pick(tractors, candidates, j).value];
            && t.distance <= tractors[j].optimalRange.GetOr(0.0)
            && forall c :: c in candidates ==> t.distance <= c.distance
  {
    var k := Pick(tractors, candidates, j).value;
    assert k == 0;
  }

  /** The idle-tractor loop over the idle tractors `idle`, in fitting order. */
  function TractorLoop(tractors: seq<Module>, candidates: seq<Entity>, idle: seq<nat>,
                       activeTargetId: int, gate: bool, changed: bool): (r: Phase)
    requires ValidIndices(idle, |tractors|)
    ensures forall c :: c in r.commands ==> c.ChangeTarget? || (c.Activate? && c.group == Tractors)
    decreases |idle|
  {
    if |idle| == 0 then Phase([], changed)
    else
      var j := idle[0];
      match Pick(tractors, candidates, j)
      case None => TractorLoop(tractors, candidates, idle[1..], activeTargetId, gate, changed)
      case Some(k) =>
        var t := candidates[k];
        if activeTargetId == t.id then
          // The activation ends the loop.
          Phase([Activate(Tractors, j, t.id)], changed)
        else if CanChangeTarget(gate, changed) then
          var after := TractorLoop(tractors, candidates, idle[1..], activeTargetId, gate, true);
          Phase([ChangeTarget(t.id, false)] + after.commands, after.changed)
        else TractorLoop(tractors, candidates, idle[1..], activeTargetId, gate, changed)
  }

  /** When no idle tractor's pick is the active target, nothing is activated. */
  lemma {:induction false} TractorLoopSilent(tractors: seq<Module>, candidates: seq<Entity>, idle: seq<nat>,
                                             activeTargetId: int, gate: bool, changed: bool)
    requires ValidIndices(idle, |tractors|)
    requires FirstFiring(tractors, candidates, activeTargetId, idle).None?
    ensures forall c :: c in TractorLoop(tractors, candidates, idle, activeTargetId, gate, changed).commands ==>
              !c.Activate?
    decreases |idle|
  {
    if |idle| > 0 {
      var p := Pick(tractors, candidates, idle[0]);
      var rest := idle[1..];
      assert FirstFiring(tractors, candidates, activeTargetId, rest).None?;
      if p.Some? && CanChangeTarget(gate, changed) {
        TractorLoopSilent(tractors, candidates, rest, activeTargetId, gate, true);
      } else {
        TractorLoopSilent(tractors, candidates, rest, activeTargetId, gate, changed);
      }
    }
  }

  /** `a` is the last command and no earlier command activates anything. */
  predicate EndsWithOnly(cmds: seq<Command>, a: Command) {
    |cmds| > 0 && cmds[|cmds| - 1] == a && forall c :: c in cmds[..|cmds| - 1] ==> !c.Activate?
  }

  /** A non-activation in front keeps `a` the only activation, last. */
  lemma PrependKeepsLast(x: Command, cmds: seq<Command>, a: Command)
    requires !x.Activate? && EndsWithOnly(cmds, a)
    ensures EndsWithOnly([x] + cmds, a)
  {
    var all := [x] + cmds;
    assert all[|all| - 1] == cmds[|cmds| - 1];
    assert all[..|all| - 1] == [x] + cmds[..|cmds| - 1];
  }

  /** The first idle tractor whose pick is the active target is activated, as
      the last command, and no other tractor is. */
  lemma {:induction false} TractorLoopFires(tractors: seq<Module>, candidates: seq<Entity>, idle: seq<nat>,
                                            activeTargetId: int, gate: bool, changed: bool)
    requires ValidIndices(idle, |tractors|)
    requires FirstFiring(tractors, candidates, activeTargetId, idle).Some?
    ensures EndsWithOnly(TractorLoop(tractors, candidates, idle, activeTargetId, gate, changed).commands,
                         Activate(Tractors, idle[FirstFiring(tractors, candidates, activeTargetId, idle).value],
                                  activeTargetId))
    decreases |idle|
  {
    var j := idle[0];
    var p := Pick(tractors, candidates, j);
    var rest := idle[1..];
    var r := TractorLoop(tractors, candidates, idle, activeTargetId, gate, changed);
    var f := FirstFiring(tractors, candidates, activeTargetId, idle).value;
    if p.Some? && candidates[p.value].id == activeTargetId {
      assert f == 0;
      assert r.commands == [Activate(Tractors, j, activeTargetId)];
      assert r.commands[..0] == [];
    } else {
      assert !Fires(tractors, candidates, activeTargetId, j);
      var g := FirstFiring(tractors, candidates, activeTargetId, rest);
      assert g.Some? && f == g.value + 1;
      assert idle[f] == rest[g.value];
      if p.Some? && CanChangeTarget(gate, changed) {
        // The first tractor asks for its pick and the loop goes on.
        TractorLoopFires(tractors, candidates, rest, activeTargetId, gate, true);
        var after := TractorLoop(tractors, candidates, rest, activeTargetId, gate, true);
        PrependKeepsLast(ChangeTarget(candidates[p.value].id, false), after.commands,
                         Activate(Tractors, idle[f], activeTargetId));
        assert r.commands == [ChangeTarget(candidates[p.value].id, false)] + after.commands;
      } else {
        // The first tractor does nothing.
        TractorLoopFires(tractors, candidates, rest, activeTargetId, gate, changed);
        assert r == TractorLoop(tractors, candidates, rest, activeTargetId, gate, changed);
      }
    }
  }

  /** At most one change, none once the frame changed target, only through
      the gate, to a candidate other than the active target, without locking. */
  lemma {:induction false} TractorLoopChanges(tractors: seq<Module>, candidates: seq<Entity>, idle: seq<nat>,
                                              activeTargetId: int, gate: bool, changed: bool)
    requires ValidIndices(idle, |tractors|)
    ensures var r := TractorLoop(tractors, candidates, idle, activeTargetId, gate, changed);
            && |Changes(r.commands)| <= 1
            && (changed ==> Changes(r.commands) == [])
            && r.changed == (changed || Changes(r.commands) != [])
            && (Changes(r.commands) != [] ==>
                  gate && exists t :: t in candidates && t.id != activeTargetId
                                      && Changes(r.commands) == [ChangeTarget(t.id, false)])
    decreases |idle|
  {
    if |idle| > 0 {
      var j := idle[0];
      var p := Pick(tractors, candidates, j);
      if p.Some? && candidates[p.value].id != activeTargetId && CanChangeTarget(gate, changed) {
        var t := candidates[p.value];
        TractorLoopChanges(tractors, candidates, idle[1..], activeTargetId, gate, true);
        var after := TractorLoop(tractors, candidates, idle[1..], activeTargetId, gate, true);
        ChangesAppend([ChangeTarget(t.id, false)], after.commands);
        ChangesSnoc([], ChangeTarget(t.id, false));
        assert t in candidates;
      } else if p.None? || candidates[p.value].id != activeTargetId {
        TractorLoopChanges(tractors, candidates, idle[1..], activeTargetId, gate, changed);
      } else {
        ChangesSnoc([], Activate(Tractors, j, activeTargetId));
      }
    }
  }

  /** The indices of the modules that are not active, in fitting order. */
  function IdleIndices(modules: seq<Module>): (r: seq<nat>)
    ensures forall k :: 0 <= k < |r| ==> r[k] < |modules| && !modules[r[k]].isActive
    ensures forall j :: 0 <= j < |modules| && !modules[j].isActive ==> j in r
    ensures forall a, b :: 0 <= a < b < |r| ==> r[a] < r[b]
    decreases |modules|
  {
    if |modules| == 0 then []
    else
      var rest := IdleIndices(modules[..|modules| - 1]);
      if modules[|modules| - 1].isActive then rest else rest + [|modules| - 1]
  }

  /** Phase 3 as a whole. */
  function ActivateTractors(salvageTargets: seq<Entity>, tractors: seq<Module>, lootRange: real,
                            activeTargetId: int, gate: bool, changed: bool): (r: Phase)
    ensures forall c :: c in r.commands ==> c.ChangeTarget? || (c.Activate? && c.group == Tractors)
  {
    TractorLoop(tractors, TractorCandidates(salvageTargets, tractors, lootRange), IdleIndices(tractors),
                activeTargetId, gate, changed)
  }

  /** `id` names a nearest candidate of all, and that one lies within `range`. */
  ghost predicate NearestWithin(candidates: seq<Entity>, id: int, range: real) {
    exists t :: t in candidates && t.id == id && t.distance <= range
                && forall u :: u in candidates ==> t.distance <= u.distance
  }

  /** No command but the last switches anything on. */
  predicate OnlyLastMayActivate(cmds: seq<Command>) {
    forall a :: 0 <= a < |cmds| - 1 ==> !cmds[a].Activate?
  }

  /** Every activation in `cmds` is its last command and switches on an idle
      tractor on the active target, a nearest candidate within that
      tractor's optimal range. */
  ghost predicate ActivatesNearest(tractors: seq<Module>, candidates: seq<Entity>, activeTargetId: int,
                                   cmds: seq<Command>) {
    forall c :: c in cmds && c.Activate? ==>
      && c == cmds[|cmds| - 1]
      && c.group == Tractors && c.index < |tractors| && !tractors[c.index].isActive
      && c.target == activeTargetId
      && NearestWithin(candidates, activeTargetId, tractors[c.index].optimalRange.GetOr(0.0))
  }

  /** The loop activates at most one tractor, as its last command: an idle
      one, on the active target, which is a nearest candidate and lies
      within that tractor's optimal range. */
  lemma TractorLoopActivatesNearest(tractors: seq<Module>, candidates: seq<Entity>, idle: seq<nat>,
                                    activeTargetId: int, gate: bool, changed: bool)
    requires ValidIndices(idle, |tractors|)
    requires forall k :: 0 <= k < |idle| ==> !tractors[idle[k]].isActive
    requires forall a, b :: 0 <= a < b < |candidates| ==> candidates[a].distance <= candidates[b].distance
    ensures OnlyLastMayActivate(TractorLoop(tractors, candidates, idle, activeTargetId, gate, changed).commands)
    ensures ActivatesNearest(tractors, candidates, activeTargetId,
                             TractorLoop(tractors, candidates, idle, activeTargetId, gate, changed).commands)
  {
    if FirstFiring(tractors, candidates, activeTargetId, idle).None? {
      TractorLoopSilent(tractors, candidates, idle, activeTargetId, gate, changed);
    } else {
      FiringLoopActivatesNearest(tractors, candidates, idle, activeTargetId, gate, changed);
    }
  }

  /** The case of `TractorLoopActivatesNearest` where some idle tractor fires. */
  lemma FiringLoopActivatesNearest(tractors: seq<Module>, candidates: seq<Entity>, idle: seq<nat>,
                                   activeTargetId: int, gate: bool, changed: bool)
    requires ValidIndices(idle, |tractors|)
    requires forall k :: 0 <= k < |idle| ==> !tractors[idle[k]].isActive
    requires forall a, b :: 0 <= a < b < |candidates| ==> candidates[a].distance <= candidates[b].distance
    requires FirstFiring(tractors, candidates, activeTargetId, idle).Some?
    ensures var r := TractorLoop(tractors, candidates, idle, activeTargetId, gate, changed);
            var j := idle[FirstFiring(tractors, candidates, activeTargetId, idle).value];
            && j < |tractors| && !tractors[j].isActive
            && NearestWithin(candidates, activeTargetId, tractors[j].optimalRange.GetOr(0.0))
            && |r.commands| > 0
            && (forall a :: 0 <= a < |r.commands| - 1 ==> !r.commands[a].Activate?)
            && forall c :: c in r.commands && c.Activate? ==>
                 c == Activate(Tractors, j, activeTargetId) == r.commands[|r.commands| - 1]
  {
    var r := TractorLoop(tractors, candidates, idle, activeTargetId, gate, changed);
    var f := FirstFiring(tractors, candidates, activeTargetId, idle);
    var j := idle[f.value];
    TractorLoopFires(tractors, candidates, idle, activeTargetId, gate, changed);
    OnlyLastActivates(r.commands);
    FiringIsNearest(tractors, candidates, activeTargetId, j);
  }

  /** A tractor that fires has picked a nearest candidate within its range. */
  lemma FiringIsNearest(tractors: seq<Module>, candidates: seq<Entity>, activeTargetId: int, j: nat)
    requires j < |tractors|
    requires forall a, b :: 0 <= a < b < |candidates| ==> candidates[a].distance <= candidates[b].distance
    requires Fires(tractors, candidates, activeTargetId, j)
    ensures NearestWithin(candidates, activeTargetId, tractors[j].optimalRange.GetOr(0.0))
  {
    PickIsNearest(tractors, candidates, j);
    var t := candidates[Pick(tractors, candidates, j).value];
    assert t in candidates;
  }

  /** Phase 3 activates at most one tractor, as its last command: an idle
      one, on the active target, which is the nearest tractor candidate of
      all and lies within that tractor's optimal range. */
  lemma ActivateTractorsActivation(salvageTargets: seq<Entity>, tractors: seq<Module>, lootRange: real,
                                   activeTargetId: int, gate: bool, changed: bool)
    // Only the last command can be an activation: at most one tractor fires.
    ensures var r := ActivateTractors(salvageTargets, tractors, lootRange, activeTargetId, gate, changed);
            forall a :: 0 <= a < |r.commands| - 1 ==> !r.commands[a].Activate?
    ensures var r := ActivateTractors(salvageTargets, tractors, lootRange, activeTargetId, gate, changed);
            forall c :: c in r.commands && c.Activate? ==>
              && c == r.commands[|r.commands| - 1]
              && c.group == Tractors && c.index < |tractors| && !tractors[c.index].isActive
              && c.target == activeTargetId
              && NearestWithin(TractorCandidates(salvageTargets, tractors, lootRange), activeTargetId,
                               tractors[c.index].optimalRange.GetOr(0.0))
  {
    ActivateTractorsLast(salvageTargets, tractors, lootRange, activeTargetId, gate, changed);
    ActivateTractorsNearest(salvageTargets, tractors, lootRange, activeTargetId, gate, changed);
  }

  /** Only the last command of phase 3 can be an activation. */
  lemma ActivateTractorsLast(salvageTargets: seq<Entity>, tractors: seq<Module>, lootRange: real,
                             activeTargetId: int, gate: bool, changed: bool)
    ensures OnlyLastMayActivate(ActivateTractors(salvageTargets, tractors, lootRange, activeTargetId, gate,
                                                 changed).commands)
  {
    var candidates := TractorCandidates(salvageTargets, tractors, lootRange);
    var idle := IdleIndices(tractors);
    assert ValidIndices(idle, |tractors|);
    assert ActivateTractors(salvageTargets, tractors, lootRange, activeTargetId, gate, changed)
           == TractorLoop(tractors, candidates, idle, activeTargetId, gate, changed);
    TractorLoopActivatesNearest(tractors, candidates, idle, activeTargetId, gate, changed);
  }

  /** The activation of phase 3, if any, is its last command: an idle
      tractor on a nearest candidate within its range. */
  lemma ActivateTractorsNearest(salvageTargets: seq<Entity>, tractors: seq<Module>, lootRange: real,
                                activeTargetId: int, gate: bool, changed: bool)
    ensures ActivatesNearest(tractors, TractorCandidates(salvageTargets, tractors, lootRange), activeTargetId,
                             ActivateTractors(salvageTargets, tractors, lootRange, activeTargetId, gate, changed).commands)
  {
    var candidates := TractorCandidates(salvageTargets, tractors, lootRange);
    var idle := IdleIndices(tractors);
    assert ValidIndices(idle, |tractors|);
    assert ActivateTractors(salvageTargets, tractors, lootRange, activeTargetId, gate, changed)
           == TractorLoop(tractors, candidates, idle, activeTargetId, gate, changed);
    TractorLoopActivatesNearest(tractors, candidates, idle, activeTargetId, gate, changed);
  }

  /** A command list whose only activation is its last command. */
  lemma OnlyLastActivates(cmds: seq<Command>)
    requires |cmds| > 0 && cmds[|cmds| - 1].Activate?
    requires forall c :: c in cmds[..|cmds| - 1] ==> !c.Activate?
    ensures forall c :: c in cmds && c.Activate? ==> c == cmds[|cmds| - 1]
    ensures forall a :: 0 <= a < |cmds| - 1 ==> !cmds[a].Activate?
  {
    assert cmds == cmds[..|cmds| - 1] + [cmds[|cmds| - 1]];
    forall a | 0 <= a < |cmds| - 1
      ensures !cmds[a].Activate?
    {
      assert cmds[a] in cmds[..|cmds| - 1];
    }
  }

  /** Phase 3 changes the active target at most once, never once the frame
      changed it, only through the gate, to a tractor candidate, without
      locking. */
  lemma ActivateTractorsChanges(salvageTargets: seq<Entity>, tractors: seq<Module>, lootRange: real,
                                activeTargetId: int, gate: bool, changed: bool)
    ensures var r := ActivateTractors(salvageTargets, tractors, lootRange, activeTargetId, gate, changed);
            && |Changes(r.commands)| <= 1
            && (changed ==> Changes(r.commands) == [])
            && r.changed == (changed || Changes(r.commands) != [])
            && (Changes(r.commands) != [] ==>
                  gate && exists t :: t in salvageTargets && NeedsTractor(tractors, lootRange, t)
                                      && t.id != activeTargetId
                                      && Changes(r.commands) == [ChangeTarget(t.id, false)])
  {
    var candidates := TractorCandidates(salvageTargets, tractors, lootRange);
    TractorLoopChanges(tractors, candidates, IdleIndices(tractors), activeTargetId, gate, changed);
  }
}

=== FILE: world.dfy ===
/** The tick-start snapshot the non-offensive scheduler reads: live entities,
    target-queue entries and ship modules, plus the abstract commands it
    emits instead of calling into the game client. */
module World {
  import opened Base

  /** The two entity groups the scheduler distinguishes; every other group id
      is `OtherGroup`. */
  datatype Group = Wreck | CargoContainer | OtherGroup

  /** A live entity as seen at tick start. */
  datatype Entity = Entity(
    id: int,
    distance: real,
    group: Group,
    isLocked: bool,
    isWreckEmpty: bool)

  datatype TargetType = Mine | LootSalvage | Kill | OtherTargetType

  /** An entry of the target queue: lower `priority` is more important,
      higher `subPriority` breaks ties. */
  datatype QueueEntry = QueueEntry(
    id: int,
    targetType: TargetType,
    priority: int,
    subPriority: int,
    timeQueued: int)

  /** A fitted module: mining laser, tractor beam, salvager, hardener or
      shield booster. Nullable game values are `Option`s. `isIceHarvester`
      stands for the type-id test against the two ice harvester types. */
  datatype Module = Module(
    isActive: bool,
    isDeactivating: bool,
    targetId: int,
    optimalRange: Option<real>,
    activationCost: Option<real>,
    activationTime: Option<real>,
    isIceHarvester: bool)

  datatype ModuleGroup = Lasers | Tractors | Salvagers

  /** Side effects, emitted in order instead of performed.
      `Activate(g, i, t)` turns module `i` of group `g` on against the current
      active target `t`; `Deactivate` turns one module off; `DeactivateAll` is
      the ship's deactivate-the-whole-list call. */
  datatype Command =
    | Activate(group: ModuleGroup, index: nat, target: int)
    | Deactivate(group: ModuleGroup, index: nat)
    | DeactivateAll(group: ModuleGroup)
    | ChangeAmmo(laser: nat, target: int)
    | ChangeTarget(target: int, lockIfNeeded: bool)
    | Dequeue(target: int)
    | Unlock(target: int)
    | Open(target: int)
    | LootAll(target: int)
    | LaunchDrones
    | SendDrones
    | RecallDrones

  /** The active-target change requests among `cmds`, in order. */
  function Changes(cmds: seq<Command>): (r: seq<Command>)
    ensures forall c :: c in r <==> c in cmds && c.ChangeTarget?
    ensures |r| <= |cmds|
  {
    if |cmds| == 0 then []
    else Changes(cmds[..|cmds| - 1])
         + (if cmds[|cmds| - 1].ChangeTarget? then [cmds[|cmds| - 1]] else [])
  }

  lemma {:induction false} ChangesAppend(a: seq<Command>, b: seq<Command>)
    ensures Changes(a + b) == Changes(a) + Changes(b)
    decreases |b|
  {
    if |b| > 0 {
      assert (a + b)[..|a + b| - 1] == a + b[..|b| - 1];
      ChangesAppend(a, b[..|b| - 1]);
    } else {
      assert a + b == a;
    }
  }

  lemma {:induction false} NoChangesWithout(cmds: seq<Command>)
    requires forall c :: c in cmds ==> !c.ChangeTarget?
    ensures Changes(cmds) == []
    decreases |cmds|
  {
    if |cmds| > 0 {
      assert forall c :: c in cmds[..|cmds| - 1] ==> c in cmds;
      NoChangesWithout(cmds[..|cmds| - 1]);
    }
  }

  lemma {:induction false} OnlyChanges(cmds: seq<Command>)
    requires forall c :: c in cmds ==> c.ChangeTarget?
    ensures Changes(cmds) == cmds
    decreases |cmds|
  {
    if |cmds| > 0 {
      var n := |cmds| - 1;
      assert forall c :: c in cmds[..n] ==> c in cmds;
      assert cmds[n] in cmds;
      OnlyChanges(cmds[..n]);
      assert cmds[..n] + [cmds[n]] == cmds;
    }
  }

  lemma ChangesSnoc(a: seq<Command>, c: Command)
    ensures Changes(a + [c]) == Changes(a) + (if c.ChangeTarget? then [c] else [])
  {
    assert (a + [c])[..|a|] == a;
  }

  /** The values of one tick that the scheduler changes as it goes: the
      tick-local capacitor reading it reserves activation costs against, the
      next short-cycle instant (kept across ticks), and whether the active
      target was already changed this frame. */
  datatype Tick = Tick(capacitor: real, nextShortCycle: Option<real>, changed: bool)

  /** `CanChangeTarget`: the targeting collaborator's external gate, and no
      change made yet this frame. */
  predicate CanChangeTarget(gate: bool, changed: bool) {
    gate && !changed
  }

  /** `EntityWrappersById[id]`: the entity with that id, if it is live. */
  function Lookup(entities: seq<Entity>, id: int): (r: Option<Entity>)
    ensures r.Some? ==> r.value in entities && r.value.id == id
    ensures r.None? <==> forall e :: e in entities ==> e.id != id
  {
    if |entities| == 0 then None
    else if entities[0].id == id then Some(entities[0])
    else Lookup(entities[1..], id)
  }

  predicate HasId(entities: seq<Entity>, id: int) {
    exists e :: e in entities && e.id == id
  }

  /** Whether a wreck or container still holds loot worth opening: a wreck
      unless it is empty, a cargo container always, anything else never. */
  function NeedsLooting(e: Entity): (r: bool)
    ensures r ==> e.group != OtherGroup
    ensures e.group == CargoContainer ==> r
    ensures e.group == Wreck ==> (r <==> !e.isWreckEmpty)
  {
    match e.group
    case Wreck => !e.isWreckEmpty
    case CargoContainer => true
    case OtherGroup => false
  }
}
